=== FILE: README.md ===
# Raycaster arena: a Dafny model of its discrete core

The system is a browser first-person shooter. A Go server runs game rooms over
a hand-written WebSocket codec, and a browser client draws the arena with a
grid raycaster. A small user web service sits beside it. This project models the parts of
the system that can be stated without floating-point trigonometry, canvas
calls or concurrency, and proves what they promise:

- **WebSocket codec** (`WsFrames`, `WsHandshake`). Frame reading and writing
  follow section 5.2 of RFC 6455 (base framing), section 5.3 (client-to-server
  masking) and section 5.5.3 (a pong echoes the ping's payload). The upgrade
  header checks follow section 4.2.1. Bytes are `seq<bv8>`.
- **Room state machine** (`GameRoom`). Covers joining and leaving with host
  hand-over, readiness, start and reset, configuration clamps, the angle
  normalisation, the fire cooldown of a tick, hits, kills, respawn and the
  finish rule, and the rankings.
- **Lobby hub** (`Hub`). The hello gate and the room create, join, leave,
  ready, start, config, input and chat handlers, modelled as sequential
  transitions over the clients and rooms maps that return the queued
  messages. Also the room runner, which sends the game over once.
- **Text sanitisers** (`Chat`, over `GoStrings`, a model of the parts of Go's
  `strings` package they use). Also **the arena map** (`Grid`) and **user
  input normalisation** (`UserService`).
- **Client bookkeeping**:
  - the effect scalars (`Effects`);
  - the snapshot diff that turns two `game_state` snapshots into feedback (`Snapshot`);
  - the kill feed (`KillFeed`) and particles (`Particles`);
  - the raycaster's grid DDA (`Raycast`);
  - sprite occlusion and the enemy tag (`Sprites`);
  - the FNV-1a seed hash (`Fnv`), HTML escaping (`Html`);
  - the chat buffer (`ChatLog`) and the per-tick input upload (`InputDrain`).

Go map iteration order is an explicit parameter, `order`, which lists the keys
as a `range` would visit them. Trigonometry results (ray directions, the shot
ray march), `Math.random` draws, clocks and fresh ids are parameters as well.
Coordinates are exact `real`s. Integer widths are written out where they
matter:

- the uint64 tick wraps;
- the 8-byte frame length is read as an int64;
- `n | 0` is a 32-bit conversion;
- `Math.imul` and `>>> 0` are `bv32`.

## Model

| member | source | states |
|---|---|---|
| GameRoom.NewRoom | backend/internal/game/room.go:85-97 | A new room satisfies the room invariant, has no players and is not started. Its win score is 10, enemies are shown on the map and the banner is empty. |
| GameRoom.AddPlayer | backend/internal/game/room.go:168-190 | A known id changes nothing. A new id joins at spawn number (player count mod 4) with hp 100 and direction 0, and becomes host only of a room without a host. Every other player and every setting is unchanged. |
| GameRoom.AddPlayerValid | backend/internal/game/room.go:168-190 | Joining keeps the room invariant, and afterwards the host is one of the players. |
| GameRoom.FoundedRoom | backend/internal/game/room.go:168-190 | A fresh room joined by its host is valid and has exactly that host as its only player. |
| GameRoom.SpawnsOpen | backend/internal/game/room.go:172-177 | All four spawn points lie on open cells of the default map. |
| GameRoom.RemovePlayer | backend/internal/game/room.go:192-201 | The player is removed. A non-host leaving keeps the host. When the host leaves, the new host is the first remaining player in range order, or "" when no one remains. |
| GameRoom.RemovePlayerValid | backend/internal/game/room.go:192-201 | Leaving keeps the room invariant, including "a non-empty room has its host among its players". |
| GameRoom.SetReady | backend/internal/game/room.go:203-207 | An unknown id changes nothing. Otherwise only that player's ready flag changes, to the given value. |
| GameRoom.SetReadyValid | backend/internal/game/room.go:203-207 | Setting a ready flag keeps the room invariant. |
| GameRoom.AllReady | backend/internal/game/room.go:209-219 | True exactly when the room has players and every one of them is ready. |
| GameRoom.Start | backend/internal/game/room.go:221-232 | The match is started, not finished, its game over not sent and its winner cleared. Every player is unready with hp 100, score 0 and cooldown 0, and nothing else about a player changes. |
| GameRoom.StartValid | backend/internal/game/room.go:221-232 | Starting keeps the room invariant. |
| GameRoom.ClampWinScore | backend/internal/game/room.go:235-244 | The win score lands in [1, 50]. Values in range are kept, values of 0 or below become 10, and values above 50 become 50. |
| GameRoom.ConfigureForStart | backend/internal/game/room.go:234-251 | An absent option leaves its setting unchanged. A present win score is clamped. A present banner is sanitised to at most 24 runes. Players and match state are unchanged. |
| GameRoom.ConfigureForStartValid | backend/internal/game/room.go:234-251 | Configuration keeps the room invariant, so the win score stays in [1, 50]. |
| GameRoom.NormalizeAngle | backend/internal/game/room.go:358-366 | The result lies in [-π, π], equals the input when the input already does, and differs from the input by a whole number of turns. |
| GameRoom.SetInput | backend/internal/game/room.go:253-258 | An unknown id changes nothing. Otherwise the player's input is replaced and its direction becomes the normalised sum of direction and turn. Nothing else changes. |
| GameRoom.SetInputValid | backend/internal/game/room.go:253-258 | Applying input keeps the room invariant. |
| GameRoom.ApplyHit | backend/internal/game/room.go:328-339 | A target with more than 35 hp loses 35 and nothing else changes. Otherwise the shooter scores 1 and the target respawns. The room finishes, with the shooter as winner, exactly when it was unfinished and that score reaches the win score. A finished room keeps its winner. |
| GameRoom.Kill | backend/internal/game/room.go:330-356 | The shooter's score rises by 1, and the target is back at hp 100, direction 0, on spawn number (tick mod 4). Only the first score to reach the win score sets the winner. |
| GameRoom.Shoot | backend/internal/game/room.go:324-339 | When the aimed-at player is missing, is the shooter or is already down, nothing changes. Otherwise the hit rule (`ApplyHit`) is applied to the shooter and that target. A shot never changes anyone's controls, ready flag or cooldown, and never unfinishes a match. |
| GameRoom.CooldownAfter | backend/internal/game/room.go:266-275 | A player who fires ends the tick with cooldown 6. Otherwise a positive cooldown drops by 1 and any other cooldown is kept. |
| GameRoom.FireStep | backend/internal/game/room.go:266-274 | A player who fires asks the aim oracle (with its cooldown already at 6) for a target. A target it can hit gets the hit rule: every other player, the shooter's score and the match outcome are what `ApplyHit` gives. Otherwise, and for a player who does not fire, nobody else changes and the outcome is unchanged. An unknown id changes nothing. |
| GameRoom.FireAllControls | backend/internal/game/room.go:266-275 | After the fire loop, every player it visited has the cooldown that rule gives and a released trigger, and every player it did not visit keeps its controls. |
| GameRoom.Tick | backend/internal/game/room.go:260-276 | The tick counter advances by 1 modulo 2^64. Every player ends with the cooldown rule applied and its trigger released. Settings, host and start flags are unchanged, and a finished match stays finished with its winner. |
| GameRoom.TickValid | backend/internal/game/room.go:260-276 | A tick keeps the room invariant: hp in (0, 100], cooldowns in [0, 6], a winner only once finished. |
| GameRoom.ApplyHitValid | backend/internal/game/room.go:328-339 | A hit keeps the room invariant. |
| GameRoom.SortFrames | backend/internal/game/room.go:159-164 | The output is a permutation of the input, ordered by score descending and then by hp descending. |
| GameRoom.Rankings | backend/internal/game/room.go:146-166 | The rankings hold one frame per player (a permutation of the players' frames), ordered by score and then by hp. |
| GameRoom.RankingsComplete | backend/internal/game/room.go:146-166 | Every player's frame appears in the rankings. |
| Hub.Handle | backend/internal/game/hub.go:76-170 | Before a hello names the client, every type except hello, ping and unknown types gets "send hello first" and changes nothing. A hello without a name is refused. A ping is answered with its own timestamp. An unknown type gets "unknown type". Otherwise each message type goes to its own handler: hello to the hello handler, and, once the client is named, room_join to the join handler, room_start to the start handler, and so on. |
| Hub.HandleHello | backend/internal/game/hub.go:192-199 | An empty name is refused. Otherwise only this client's name changes, and it is acknowledged and sent the room list. |
| Hub.HandleRoomCreate | backend/internal/game/hub.go:232-249 | A client already in a room gets "already in room" and no room is added. Otherwise a room named after the request, or "Room" when no name is given, is added with the client as its host and only player. |
| Hub.HandleRoomJoin | backend/internal/game/hub.go:251-277 | A missing room, a started room, and a client already in a room are each refused with their own error, and nothing changes. Otherwise the client becomes a player of the room and its roomId names it. |
| Hub.HandleRoomLeave | backend/internal/game/hub.go:279-306 | The client's roomId is cleared and it is removed from its room. The room stays in the hub exactly when it still has players. |
| Hub.Disconnect | backend/internal/game/hub.go:182-190 | The client is gone from the clients map and nothing else is removed from it. |
| Hub.HandleRoomReady | backend/internal/game/hub.go:308-318 | Outside a room nothing changes. Inside one, only that room's ready flag for the client changes. |
| Hub.CheckStart | backend/internal/game/hub.go:320-340 | Starting is allowed exactly when the client's room exists, the client is its host, it has not started, and it has players who are all ready. |
| Hub.HandleRoomStart | backend/internal/game/hub.go:320-350 | Non-hosts and rooms that are not all ready get their errors. A missing or already started room is ignored. Otherwise the options are applied, the room is started, and the start is broadcast. |
| Hub.HandleRoomConfig | backend/internal/game/hub.go:352-375 | Anyone but the host gets "only host can config" and a started room gets "room already started", with nothing changed. Only the host of an unstarted room changes its settings. |
| Hub.HandleInput | backend/internal/game/hub.go:377-386 | Input reaches the room only while the client's room exists, has started and has not finished. Otherwise nothing changes. It never queues a message. |
| Hub.HandleChatSend | backend/internal/game/hub.go:388-415 | A line that sanitises to nothing is dropped. A client outside any room gets "not in room". Otherwise the room hears the sanitised line under the client's name. The hub never changes. |
| Hub.Advance | backend/internal/game/hub.go:479-493 | After one runner iteration the game-over flag is set exactly when it was set or the match has finished. A game over is sent exactly when the match has finished and none was sent before. The runner stops exactly then. |
| Hub.GameOverOnce | backend/internal/game/hub.go:472-507 | Over any run of a room's runner, at most one game over is sent, and none if one was sent before. |
| Hub.GameOverOncePerMatch | backend/internal/game/hub.go:468-507 | However runner iterations, client messages and disconnects interleave, at most one game over is sent for a room, and none once the room is gone or has sent its game over. This assumes no create reuses the room's id. |
| Hub.ActSettled | backend/internal/game/hub.go:76-190 | One action sends at most one game over, and only when it leaves the room settled: started with its game over sent. A room that is gone or settled stays so and gets no further game over. |
| Hub.RoomStepSettled | backend/internal/game/hub.go:472-493 | A runner iteration sends at most one game over, and one that sends it leaves the room started with the flag set. A settled room stays settled and gets none. |
| Hub.HandleSettled | backend/internal/game/hub.go:76-170 | No handled message broadcasts a game over, and a room that is gone or settled stays so, as long as a create does not reuse its id. |
| Hub.DisconnectSettled | backend/internal/game/hub.go:182-190 | A disconnect broadcasts no game over and leaves a gone or settled room so. |
| Hub.LeaveSettled | backend/internal/game/hub.go:279-306 | Leaving either deletes the room or keeps its started and game-over flags. It broadcasts no game over. |
| Hub.CreateSettled | backend/internal/game/hub.go:232-249 | A create under a fresh id leaves every other room as it was and broadcasts no game over. |
| Hub.JoinSettled | backend/internal/game/hub.go:251-277 | A started room cannot be joined, so a join leaves a settled room settled. It broadcasts no game over. |
| Hub.ReadySettled | backend/internal/game/hub.go:308-318 | A ready toggle keeps the room's started and game-over flags. It broadcasts no game over. |
| Hub.StartSettled | backend/internal/game/hub.go:320-350 | Only a room that has not started can be started, so a start leaves a settled room settled. |
| Hub.InputSettled | backend/internal/game/hub.go:377-386 | Input keeps the room's started and game-over flags and queues nothing. |
| Hub.HandleValid | backend/internal/game/hub.go:76-170 | Every handled message keeps the hub invariant. Rooms are valid, non-empty and filed under their own id. Every player is a connected client whose roomId names that room, and every client with a roomId is a player of it. |
| Hub.CreateValid | backend/internal/game/hub.go:232-249 | Creating a room keeps the hub invariant. |
| Hub.JoinValid | backend/internal/game/hub.go:251-277 | Joining keeps the hub invariant. |
| Hub.LeaveValid | backend/internal/game/hub.go:279-306 | Leaving keeps the hub invariant, including the deletion of an emptied room. |
| Hub.DisconnectValid | backend/internal/game/hub.go:182-190 | A disconnect keeps the hub invariant. |
| Hub.StartValid | backend/internal/game/hub.go:320-350 | Starting a room keeps the hub invariant. |
| Hub.ConfigValid | backend/internal/game/hub.go:352-375 | Configuring a room keeps the hub invariant. |
| Hub.InputValid | backend/internal/game/hub.go:377-386 | Input keeps the hub invariant. |
| Hub.RoomStepValid | backend/internal/game/hub.go:472-493 | A runner iteration keeps the hub invariant. |
| Chat.SanitizeChat | backend/internal/game/chat.go:5-17 | The result is at most 120 runes with no edge spaces, and is empty exactly for all-space input. It is a prefix of the trimmed input, dropping only spaces from the 120-rune cut. A trimmed input of at most 120 runes comes back whole. |
| Chat.SanitizeChatIdempotent | backend/internal/game/chat.go:5-17 | Sanitising a chat line twice is the same as sanitising it once. |
| Chat.SanitizeWallText | backend/internal/game/chat.go:19-33 | The result is at most 24 runes, with no line breaks, and has words separated by single ASCII spaces with none at either end. It is empty exactly for all-space input. It is the input's words joined with single spaces, kept whole when that join has at most 24 runes, and otherwise cut to 24 runes and trimmed again. |
| Chat.SanitizeWallTextFixed | backend/internal/game/chat.go:19-33 | A single-spaced text of at most 24 runes is kept as it is. |
| Chat.SanitizeWallTextIdempotent | backend/internal/game/chat.go:19-33 | Sanitising a banner twice is the same as sanitising it once. |
| Chat.CollapseSpaces | backend/internal/game/chat.go:20-23 | The result is the input's own words, in order, joined with single spaces. Trimming and turning CR and LF into spaces change no word. It is single-spaced and empty exactly for all-space input. |
| Chat.CollapseWords | backend/internal/game/chat.go:20-23 | Trimming a text and replacing its line breaks with spaces leaves its words unchanged. |
| GoStrings.FieldsTrimSpace | backend/internal/game/chat.go:20-23 | Trimming a text does not change its words. |
| GoStrings.FieldsSameWords | backend/internal/game/chat.go:21-23 | Two texts with the same spaces in the same places and the same runes elsewhere have the same words. |
| GoStrings.TrimSpaceEmpty | backend/internal/game/chat.go:6-9 | Trimming leaves nothing exactly when the input is all space. |
| GoStrings.SingleSpacedFields | backend/internal/game/chat.go:23 | Splitting a single-spaced text into fields and joining them with spaces gives the text back. |
| Grid.DefaultMap | backend/internal/game/map.go:7-23 | The default map is rectangular: 11 rows of 16 cells. |
| Grid.DefaultMapBorder | backend/internal/game/map.go:10-20 | Every border cell of the default map is a wall. |
| Grid.DefaultMapClosed | backend/internal/game/map.go:7-36 | Every point outside the inner region of the default map (x < 1, x ≥ 15, y < 1 or y ≥ 10) is wall, so the arena is closed. |
| Grid.IsWall | backend/internal/game/map.go:25-36 | A point whose truncated row or column lies outside the map is wall. Otherwise it is wall exactly when its cell is '#'. |
| Grid.IsWallPerCell | backend/internal/game/map.go:25-36 | For non-negative coordinates, the answer depends only on the cell the point lies in. |
| Grid.IsWallNegativeStrip | backend/internal/game/map.go:26-27 | Truncation toward zero maps the strip -1 < x < 0 onto column 0. |
| Grid.ClientServerAgree | frontend/web/app.js:1656-1660 | On a rectangular map at integer coordinates, the client's wall test and the server's agree. |
| UserService.Create | webapp/internal/service/user_service.go:22-38 | The repository is called exactly when both the name and the email are not all space. The stored name is trimmed and the email is trimmed and lower-cased. Otherwise the error is "name/email required". |
| UserService.NormalEmailOfTrimmed | webapp/internal/service/user_service.go:23-24 | Lower-casing then trimming the email equals trimming then lower-casing it. |
| UserService.CreateIdempotent | webapp/internal/service/user_service.go:22-38 | Creating a user from a stored user's name and email stores the same name and email again. |
| UserService.List | webapp/internal/service/user_service.go:44-55 | The repository receives a limit in [1, 100] and an offset of at least 0. A limit of 0 or below becomes 20, one above 100 becomes 100, and a negative offset becomes 0. In-range values are kept. |
| UserService.ListIdempotent | webapp/internal/service/user_service.go:44-55 | Clamped parameters are clamped to themselves. |
| UserService.UpdateName | webapp/internal/service/user_service.go:57-63 | An all-space name is refused with "name required". Otherwise the repository receives the trimmed name. |
| UserService.UpdateNameIdempotent | webapp/internal/service/user_service.go:57-63 | Renaming to an already normalised name forwards that same name. |
| WsFrames.ReadLength | backend/internal/ws/ws.go:154-178 | Length codes below 126 are the length itself. Code 126 reads 2 big-endian bytes. Code 127 reads 8 big-endian bytes and rejects a value above 1 MiB. A short input is an unexpected end. Every accepted length is at most 1 MiB. |
| WsFrames.Register64Value | backend/internal/ws/ws.go:167-170 | The shift-or register holds the 8 bytes' big-endian value, and reading it as int64 wraps values of 2^63 and above to negatives. |
| WsFrames.ReadLengthRejectsLarge | backend/internal/ws/ws.go:167-173 | An 8-byte length above 1 MiB, or one negative as an int64, is rejected. |
| WsFrames.Mask | backend/internal/ws/ws.go:148-150 | Unmasking keeps the length and XORs byte i with key byte i mod 4. |
| WsFrames.MaskInvolution | backend/internal/ws/ws.go:148-150 | Masking twice with the same key gives the data back. |
| WsFrames.ReadFrame | backend/internal/ws/ws.go:114-152 | Fewer than 2 bytes is an unexpected end. A clear FIN bit is refused as fragmented, and a clear mask bit as unmasked. An accepted frame has the header's opcode, a payload of at most 1 MiB, and consumes its header, key and payload. |
| WsFrames.EncodeLength | backend/internal/ws/ws.go:189-218 | Lengths below 126 are one byte. Lengths up to 0xFFFF are 126 and then 2 big-endian bytes. Larger lengths are 127 and then 8 big-endian bytes. The mask bit is never set. |
| WsFrames.WriteFrame | backend/internal/ws/ws.go:180-224 | A written frame starts with FIN set and the low four opcode bits, carries no mask, and is followed by the encoded length and the payload unchanged. |
| WsFrames.BigEndianRoundTrip | backend/internal/ws/ws.go:209-214 | Reading back the k bytes written for n gives n mod 256^k. |
| WsFrames.LengthRoundTrip | backend/internal/ws/ws.go:154-218 | Reading the length bytes written for any n of at most 1 MiB gives n back, and leaves what follows untouched. |
| WsFrames.ClientFrameRoundTrip | backend/internal/ws/ws.go:114-152 | A frame a client builds (FIN, mask bit, length, key, masked payload) is read back as its opcode and original payload, leaving the rest of the input. |
| WsFrames.ServerFrameRejected | backend/internal/ws/ws.go:130-133 | A frame the server writes is refused as unmasked when read back by the server. |
| WsFrames.ReadTextDeliversText | backend/internal/ws/ws.go:97-99 | A text frame yields its payload and writes nothing. |
| WsFrames.ReadTextStopsAtClose | backend/internal/ws/ws.go:100-101 | A close frame ends reading and writes nothing. |
| WsFrames.ReadTextAnswersPing | backend/internal/ws/ws.go:102-103 | A ping is answered with a pong carrying the identical payload, and reading continues. |
| WsFrames.ReadTextSkipsOthers | backend/internal/ws/ws.go:104-106 | Any other opcode, pong included, is skipped without a reply. |
| WsHandshake.HeaderContainsToken | backend/internal/ws/ws.go:75-85 | True exactly when some comma-separated element of some value of the header, once trimmed, equals the token up to case. |
| WsHandshake.TokenInList | backend/internal/ws/ws.go:75-85 | A token in the middle of a comma list, with spaces around it, is found. |
| WsHandshake.CheckUpgrade | backend/internal/ws/ws.go:26-39 | The upgrade is accepted exactly when Connection lists "Upgrade", Upgrade lists "websocket", the version is "13" and the key is not blank. Each error is returned exactly when its check is the first to fail, and the accepted key is the trimmed, non-empty key. |
| Effects.Raise | frontend/web/app.js:1635 | A trigger raises a scalar to at least its level, never lowers it, and yields one of the two values. |
| Effects.Decay | frontend/web/app.js:893-897 | A frame's decay keeps scalars in [0, 1], never raises a non-negative scalar, and strictly lowers a positive shake. |
| Effects.DecayFramesQuiet | frontend/web/app.js:893-897 | Between triggers, any number of frames keeps bounded scalars bounded and non-increasing. |
| Effects.OnShot | frontend/web/app.js:829-835 | A shot sets the muzzle flash to 1 and the shake to at least 0.55, and leaves the other scalars alone. |
| Effects.OnHurt | frontend/web/app.js:1634-1636 | Being hurt raises the damage flash to at least 0.68 without lowering anything. |
| Effects.OnHit | frontend/web/app.js:1639-1641 | A hit raises the hit flash to at least 0.78 without lowering anything. |
| Effects.OnToast | frontend/web/app.js:1508-1512 | A toast sets its fade to 1 and leaves the other scalars alone. |
| Effects.FrameBounded | frontend/web/app.js:1623-1654 | Any sequence of triggers keeps the scalars in [0, 1]. |
| Snapshot.PlayerCues | frontend/web/app.js:1630-1651 | Against its previous frame, a player gives a hurt cue exactly when it is the local user and lost hp, and a hit cue exactly when it is another player who lost hp shortly after a local shot. It gives exactly one kill cue, carrying the score rise, exactly when its score rose. |
| Snapshot.DiffCues | frontend/web/app.js:1630-1632 | A state in which every player is absent from the previous snapshot produces no cue. |
| Snapshot.NewPlayerSilent | frontend/web/app.js:1630-1632 | A player absent from the previous snapshot contributes no cue, wherever it stands among known players: dropping it leaves the cues unchanged. |
| Snapshot.DiffCuesAppend | frontend/web/app.js:1630-1651 | Each player's cues are independent of the others: the cues of two lists of players are the cues of each, in order. |
| Snapshot.KillPerRise | frontend/web/app.js:1644-1647 | The number of kill cues equals the number of known players whose score rose. |
| Snapshot.ToastsOnlyForMe | frontend/web/app.js:1634-1648 | Without a known local player, no cue raises a toast. |
| Snapshot.ApplyCuesFeed | frontend/web/app.js:1533-1535 | Applying cues prepends their feed lines to the existing feed, newest first. |
| Snapshot.ApplyCuesLouder | frontend/web/app.js:1623-1654 | Applying cues keeps the scalars in [0, 1] and never lowers one. |
| Snapshot.SnapshotOf | frontend/web/app.js:1653 | The new snapshot has a key for every current player, and only those keys, each mapping to a current player's frame. |
| Snapshot.SnapshotLastWins | frontend/web/app.js:1653 | A player whose id does not recur later in the list is the one the snapshot keeps. |
| Snapshot.SnapshotKeys | frontend/web/app.js:1653 | The snapshot's keys are exactly the current players' ids. |
| Snapshot.Update | frontend/web/app.js:1623-1654 | The kill feed gains exactly one line per score rise of a player seen in the previous snapshot, with the old feed as its tail. Effect scalars in [0, 1] stay there and never drop. A state with no previously seen player changes neither effects nor feed and yields no cues. Without the local player, the toast and damage flashes are unchanged. The kept snapshot holds exactly the current ids, each mapped to one of the current frames. |
| Snapshot.NewPlayersSilent | frontend/web/app.js:1631-1632 | Against an empty previous snapshot, an update changes neither the effects nor the feed. |
| Snapshot.CuesEffect | frontend/web/app.js:1630-1651 | Applying the cues of a state: the feed grows by exactly the number of score rises, over the old feed. Bounded scalars stay bounded and never drop. Without a local player, the toast and damage flashes are unchanged. |
| Snapshot.OneScore | frontend/web/app.js:1644-1650 | One known player's score rise from s to s + d puts exactly one entry at the front of the feed, with delta d, under "你" for the local user and the player's name otherwise. |
| KillFeed.Push | frontend/web/app.js:1533-1535 | The new entry is at the front with the clock reading, and the old feed follows unchanged. |
| KillFeed.Prune | frontend/web/app.js:1517 | Every kept entry is younger than 3600 ms. |
| KillFeed.PruneExactly | frontend/web/app.js:1517 | An entry survives pruning exactly when it was in the feed and is younger than 3600 ms. |
| KillFeed.PruneAppend | frontend/web/app.js:1517 | Pruning keeps feed order: it prunes each part of a feed separately. |
| KillFeed.PruneIdempotent | frontend/web/app.js:1517 | Pruning twice at the same time is pruning once. |
| KillFeed.Visible | frontend/web/app.js:1517-1519 | At most 4 entries are shown, all fresh. They are the first of the pruned feed, in feed order, and as many as there are, up to 4. |
| KillFeed.PushedShownFirst | frontend/web/app.js:1533-1535 | A just-pushed entry is the first one shown. |
| Particles.StepParticle | frontend/web/app.js:1385-1389 | A step moves by the velocity, damps it by 0.92 and uses up one frame of life. |
| Particles.Tick | frontend/web/app.js:1382-1392 | The particle count never grows, and every survivor has life left. |
| Particles.TickExactly | frontend/web/app.js:1382-1392 | The survivors are exactly the stepped particles that had more than one frame of life. |
| Particles.TickCount | frontend/web/app.js:1382-1392 | The survivor count is the number of particles with life above 1. |
| Particles.Spawn | frontend/web/app.js:1394-1413 | A burst appends 14 particles for a hit and 8 otherwise, each with life in [14, 23], after the existing ones unchanged. |
| Particles.Spawned | frontend/web/app.js:1400-1411 | A spawned particle starts within 2 px of the centre with life in [14, 23]. It has the hit colour exactly for a hit burst. |
| Particles.Expires | frontend/web/app.js:1382-1392 | Particles whose lives are at most k are all gone after k steps. |
| Particles.BurstGone | frontend/web/app.js:1382-1413 | Any burst is gone after 23 frames. |
| Raycast.CastColumn | frontend/web/app.js:929-994 | The DDA loop runs at most 64 times. A hit stops at the first wall cell along the ray, with depth at least 0.0001. A miss has 64 clear cells and depth 1e9. From inside a small enough grid the ray always hits. |
| Raycast.Advance | frontend/web/app.js:965-974 | One iteration moves exactly one of mapX and mapY by its step, along the axis with the nearer side distance. |
| Raycast.OneCellPerStep | frontend/web/app.js:965-974 | Consecutive cells of the walk are neighbours along one axis. |
| Raycast.WalkProgress | frontend/web/app.js:965-974 | The ray never turns back: after k iterations it has moved k cells forward in total. |
| Raycast.LeavesGrid | frontend/web/app.js:965-981 | From inside a grid of width W and height H with W + H ≤ 65, 64 iterations always reach a wall, because out-of-range cells are walls. |
| Sprites.ClampInt | frontend/web/app.js:1678-1681 | The result lies in [min, max] when min ≤ max. Non-finite input gives min, and an in-range floor is kept. |
| Sprites.ClampIntIdempotent | frontend/web/app.js:1678-1681 | Clamping a clamped value changes nothing. |
| Sprites.ToInt32 | frontend/web/app.js:1675 | `n \| 0` gives the 32-bit two's-complement value congruent to n, and keeps n when it already fits. |
| Sprites.Clamp8 | frontend/web/app.js:1674-1676 | The result lies in [0, 255]. Byte values are kept, and 32-bit values below or above the range go to 0 or 255. |
| Sprites.ShownExactly | frontend/web/app.js:1098-1106 | A sprite column is drawn exactly when it lies in the sprite's span, inside the screen, and no nearer than the wall in the z-buffer. |
| Sprites.VisibleSpan | frontend/web/app.js:1095-1106 | The loop draws exactly the shown columns, left to right. It reports whether any was drawn, and its min and max bound every drawn column, with the sentinels when none was. |
| Sprites.EnemyTag | frontend/web/app.js:1114-1150 | The tag is drawn exactly when the visible span is at least 6 px, the sprite at least 10 px tall and the bar on screen. A drawn tag's bar is the span plus 10 px, capped at 46 (so within [16, 46]). Its hp is the player's hp clamped to [0, 100], and its fill is that share of the inner width (width − 2). The name row is top − 6, but at least 8. The bar's left edge is in [1, w − width − 1] whenever the screen is wide enough. |
| Sprites.EnemyTagHealth | frontend/web/app.js:1123-1126 | For the same sprite, more hp never shows a shorter fill. Full health fills the bar's inner width, and hp below 1 or non-finite leaves it empty. |
| Sprites.FillMonotone | frontend/web/app.js:1126 | More hp never gives a shorter health fill. |
| Fnv.HashSeed | frontend/web/app.js:193-200 | The loop computes the 32-bit FNV-1a hash of the text's UTF-16 code units, and the empty text hashes to the offset basis. |
| Fnv.Units | frontend/web/app.js:195-196 | A character below 0x10000 is one code unit. Any other is a high and a low surrogate that encode it. |
| Fnv.Utf16Append | frontend/web/app.js:193-200 | The code units of a concatenation are the code units of each part. |
| Fnv.FnvAppend | frontend/web/app.js:193-200 | Hashing a concatenation continues from the hash of the first part. |
| Fnv.KnownVectors | frontend/web/app.js:193-200 | The empty string hashes to 0x811C9DC5 and "a" to 0xE40C292C, the published FNV-1a 32-bit values. |
| Fnv.DecalHue | frontend/web/app.js:765-770 | The decal hue is in [0, 360). |
| Fnv.AvatarHues | frontend/web/app.js:185-191 | The two avatar hues are the decal hues of the seed and of the seed with "_b" appended. |
| Fnv.AvatarSecondHash | frontend/web/app.js:185-191 | The second avatar hash continues the first over the two code units of "_b". |
| Html.Escape | frontend/web/app.js:462-464 | Escaped text contains no < > " or ', is never shorter than the input, and is the input itself when the input has no special character. |
| Html.EscapeRoundTrip | frontend/web/app.js:462-464 | Decoding the entities of escaped text gives the original text back. |
| Html.EscapeInjective | frontend/web/app.js:462-464 | Different texts escape differently. |
| ChatLog.ToLine | frontend/web/app.js:1537-1545 | A line exists exactly when there is a payload with non-empty text. It keeps the text and sender, with the name defaulting to "unknown" exactly when the payload has none. The timestamp is the clock reading exactly when the payload's is 0, and the payload's otherwise. |
| ChatLog.AddChatLine | frontend/web/app.js:1537-1549 | A dropped payload changes nothing. Otherwise the new line is last, the buffer is the newest 80 lines of the old buffer plus the line, and a buffer of at most 80 lines stays that way. |
| ChatLog.BufferIsNewest | frontend/web/app.js:1546-1547 | After any sequence of messages, the buffer holds exactly the newest 80 of all lines accepted so far. |
| ChatLog.RenderChat | frontend/web/app.js:1554 | The panel shows the newest 30 lines of the buffer in order, or all of them when there are fewer. |
| ChatLog.PanelIsNewest | frontend/web/app.js:1551-1554 | The panel shows exactly the newest 30 lines accepted in the session. |
| InputDrain.OnEvent | frontend/web/app.js:1747-1751 | Only a left click while the pointer is locked sets the shoot edge, and nothing clears it. |
| InputDrain.SetKey | frontend/web/app.js:1713-1727 | W, S, A and D set exactly their own movement flag; other keys and the turn and shoot edge are untouched. |
| InputDrain.KeysFollow | frontend/web/app.js:1685-1727 | After any events, a movement key is held exactly when the last event touching it was a keydown made outside the chat input with the menu closed, not a keyup or an opened panel. A keyup releases it even while typing. |
| InputDrain.EventsAccumulate | frontend/web/app.js:1740-1788 | Over the events between two ticks, the accumulated turn is the sum of locked movements since the last panel opening, and the shoot edge records whether any locked left click happened. |
| InputDrain.Drain | frontend/web/app.js:825-843 | A tick sends the keys, the accumulated turn and the shoot edge, then resets the turn to 0 and the edge to false. |
| InputDrain.TickCarriesEvents | frontend/web/app.js:824-843 | Each message carries exactly the locked turning since the previous tick (or since the last panel opening), and shoots exactly when there was a locked left click. Nothing is lost or sent twice. |
| InputDrain.QuietTick | frontend/web/app.js:824-843 | A tick with no events since the previous one sends no turn and no shot. |
| InputDrain.SendTick | frontend/web/app.js:829-835 | A sent shot records the shot time, sets the muzzle flash to 1 and the shake to at least 0.55. A tick without a shot leaves the effects and shot time unchanged. |

## Notes on the code

Some behaviour of the client code is easy to misread. The model follows the code in each of these places:

- Not every effect trigger raises its scalar to the larger of its current value and the trigger level. Only the hit marker, the damage vignette and the shake are raised that way. A sent shot resets the muzzle flash (`fireT`) to 1, and every toast resets `toastT` to 1 (app.js:831, app.js:1511). `Effects.OnShot` and `Effects.OnToast` model those resets.
- The kill feed is pruned by age (3600 ms), and then only the four newest entries are drawn (app.js:1517-1519). `KillFeed` models both steps.
- The hit confirmation is not one event per snapshot. Within the 520 ms window, every other player whose health dropped raises the hit marker and spawns a burst (app.js:1628-1642). `Snapshot` models one hit cue per such player.

## Left out

- Player movement (`stepPlayer`, room.go:278-307) is trigonometry and collision on floats. Tick does not move players: it takes the positions as they are.
- The 0.05-step ray march of `shoot` (room.go:309-327) is an oracle parameter, `aim`. In the source the march skips the shooter and dead players and goes on, so the answer it stands for is the first living player other than the shooter within 0.22 of a sample point, before a wall and within 12 units, or none. The model does not compute that answer; it applies the source's target filter (`CanHit`) to whatever the oracle returns.
- GameRoom.NormalizeAngle: the model subtracts or adds the whole number of turns at once, on exact reals, and always ends. In the source, `dir + turn` is a float64 and `turn` comes straight from the client's input message (messages.go:56). The loops at room.go:358-366 step by 2π and run about |a|/2π times. When |dir + turn| is more than 2^56, `a -= 2*math.Pi` rounds back to `a`, so the loop never ends. SetInput runs under the hub mutex (hub.go:377-385), so one such input message stalls the whole hub.
- Floating-point rounding is not modelled. Coordinates, angles, effect scalars and timestamps are exact reals, and π is a fixed real constant.
- GameRoom.Kill: the respawn index is modelled as tick mod 4 over the unsigned tick. In the source, `int(r.tick)` turns a tick of 2^63 or more negative, and Go's `%` truncates toward zero (room.go:351). The index is then negative and panics, unless the tick is a multiple of 4. In that case the index is 0, which is also what the model gives. That needs 2^63 ticks, so the panic is not modelled.
- GoStrings.ToLower: lower-cases ASCII letters only. Go's `strings.ToLower` also maps non-ASCII letters, so user emails are normalised exactly only for ASCII text.
- GoStrings.EqualFold: case-insensitive comparison is ASCII-only as well. Go's `strings.EqualFold` uses Unicode simple folding, which also matches U+017F (long s, ſ) with s and S, and U+212A (Kelvin sign) with k and K. So ws.go:79 accepts an Upgrade header such as "webſocket", or "websocket" spelt with the Kelvin sign, and the model refuses it as a missing "websocket" upgrade. No other letter of "Upgrade" or "websocket" has a non-ASCII fold, so the Connection check is exact.
- The Sec-WebSocket-Accept value (`computeAccept`, SHA-1 and base64) is left out. The model checks the headers and returns the trimmed key.
- HTTP header-name canonicalisation is not modelled: headers are looked up by the names the code passes.
- Hijacking the connection and writing the 101 response are I/O and left out.
- Goroutines, the hub mutex, channel sends that drop when a buffer is full, the read and write loops and buffered flushing are left out. Each handler is one sequential transition that returns the messages it queues.
- JSON decoding errors, envelope parsing and the content of broadcast payloads (room summaries, game state, chat timestamps) are not modelled. Messages are already-decoded datatypes, and broadcasts are named events.
- Room ids (crypto/rand) and user ids (uuid) are fresh abstract values supplied by the caller. `Hub.GameOverOncePerMatch` takes as a hypothesis that no create in the schedule reuses the room's id, which is what a fresh random id gives.
- Hub.HandleRoomCreate: handleRoomCreate releases the mutex between adding the room and joining it (hub.go:243-247), and the model runs the two as one step. In the source, another client can see the new room in a room list sent in that window (hub.go:84-88, 201-210), join it (hub.go:251-276) and leave it again. That leave deletes the now-empty room (hub.go:292-295), so the creator's own join answers "room not found". While that client is in the room, its host is not a player, which the model's hub invariant rules out.
- Hub.Disconnect: disconnect deletes the client, releases the mutex, and only then runs handleRoomLeave (hub.go:183-187). The model runs both as one step. In the source, other handlers can run in between and see a room whose player is no longer a client.
- `UserService.Get` and `UserService.Delete` forward to the repository without any logic, and the repository itself is not part of this model.
- Canvas, DOM, audio, pointer lock, menus, textures, banner bitmaps and HUD are presentation and left out. So are sprite height, the sprite depth sort, the tag's alpha and colours, the toast wording and `playSfx`.
- The wall-hit distance is computed as in the source, but fog, tint, `wallX` and the Float32 rounding of the z-buffer are not modelled.
- Ray directions, sprite bearings and `Math.random` draws are parameters. The hit-particle burst that a hit cue triggers is modelled by `Particles.Spawn`, not threaded through `Snapshot.Update`.
- The JavaScript WebSocket client, ping smoothing and `localStorage` settings are network and persistence I/O and left out.
- A chat payload field that is present but not a string (a number, say) is not modelled: payload fields are strings, with "" for a missing one.
- The other keys are not events of their own. Enter opens the chat and Escape may open the menu; the model represents those as the `OpenPanel` they cause. Tab's scoreboard and closing the menu or the game-over screen are presentation.
- A sensitivity setting that is NaN is not modelled. Only zero falls back to 10.

=== FILE: chat.dfy ===
/** The server's sanitisers for chat lines and for the wall-banner text (chat.go). */
module Chat {
  import opened GoStrings

  /** Chat lines are cut to this many runes. */
  const ChatMaxRunes: nat := 120

  /** The wall banner is cut to this many runes. */
  const WallMaxRunes: nat := 24

  function Min(a: nat, b: nat): nat {
    if a <= b then a else b
  }

  /**
   * sanitizeChat: trim, cut to 120 runes, trim again. The result is a prefix of
   * the trimmed input that drops only spaces from the cut, so interior spacing
   * survives; it is empty exactly for all-space input.
   */
  function SanitizeChat(s: string): (r: string)
    ensures |r| <= ChatMaxRunes
    ensures NoEdgeSpace(r)
    ensures r == [] <==> AllSpace(s)
    ensures |r| <= |TrimSpace(s)| && r == TrimSpace(s)[..|r|]
    ensures |r| <= Min(|TrimSpace(s)|, ChatMaxRunes)
    ensures AllSpace(TrimSpace(s)[|r|..Min(|TrimSpace(s)|, ChatMaxRunes)])
    ensures |TrimSpace(s)| <= ChatMaxRunes ==> r == TrimSpace(s)
  {
    var t := TrimSpace(s);
    TrimSpaceEmpty(s);
    if t == "" then
      ""
    else
      var cut := if |t| > ChatMaxRunes then t[..ChatMaxRunes] else t;
      ChatCut(t, cut);
      TrimSpace(cut)
  }

  /** Trimming the cut of a trimmed line keeps a non-empty prefix and drops only spaces. */
  lemma ChatCut(t: string, cut: string)
    requires t != [] && NoEdgeSpace(t)
    requires cut == if |t| > ChatMaxRunes then t[..ChatMaxRunes] else t
    ensures var r := TrimSpace(cut);
      && r != [] && NoEdgeSpace(r) && |r| <= |cut|
      && r == t[..|r|]
      && AllSpace(t[|r|..|cut|])
      && (|t| <= ChatMaxRunes ==> r == t)
  {
    assert cut[0] == t[0];
    TrimSpaceOfLeftTrimmed(cut);
    TrimRightCut(cut);
    TrimSpaceFixed(t);
    var r := TrimSpace(cut);
    assert r == cut[..|r|];
    assert cut[|r|..] == t[|r|..|cut|];
  }

  /** Sanitising a sanitised chat line changes nothing. */
  lemma SanitizeChatIdempotent(s: string)
    ensures SanitizeChat(SanitizeChat(s)) == SanitizeChat(s)
  {
    var r := SanitizeChat(s);
    TrimSpaceFixed(r);
  }

  /**
   * The first half of sanitizeWallText: trim, turn line breaks into spaces and
   * re-join the words with single spaces.
   */
  function CollapseSpaces(s: string): (j: string)
    ensures j == Join(Fields(s), " ")
    ensures SingleSpaced(j)
    ensures j == [] <==> AllSpace(s)
  {
    var t := TrimSpace(s);
    var u := ReplaceRune(ReplaceRune(t, '\n', ' '), '\r', ' ');
    CollapseWords(s, u);
    JoinWordsSingleSpaced(Fields(u));
    CollapseEmpty(t, u);
    TrimSpaceEmpty(s);
    Join(Fields(u), " ")
  }

  /** Trimming and turning line breaks into spaces keeps the words of `s`. */
  lemma CollapseWords(s: string, u: string)
    requires u == ReplaceRune(ReplaceRune(TrimSpace(s), '\n', ' '), '\r', ' ')
    ensures Fields(u) == Fields(s)
  {
    var t := TrimSpace(s);
    assert SameWords(t, u);
    FieldsSameWords(t, u);
    FieldsTrimSpace(s);
  }

  lemma CollapseEmpty(t: string, u: string)
    requires NoEdgeSpace(t)
    requires u == ReplaceRune(ReplaceRune(t, '\n', ' '), '\r', ' ')
    ensures Join(Fields(u), " ") == [] <==> t == []
  {
    var words := Fields(u);
    JoinWordsSingleSpaced(words);
    FieldsEmpty(u);
    if t != [] {
      assert !IsSpace(u[0]);
      assert words != [];
      assert IsWord(words[0]);
    }
  }

  /**
   * sanitizeWallText: trim, turn line breaks into spaces, collapse every run of
   * spaces to one, cut to 24 runes, trim again.
   */
  function SanitizeWallText(s: string): (r: string)
    ensures var j := CollapseSpaces(s);
      && (|j| <= WallMaxRunes ==> r == j)
      && (|j| > WallMaxRunes ==> r == TrimSpace(j[..WallMaxRunes]))
    ensures |r| <= WallMaxRunes
    ensures SingleSpaced(r)
    ensures forall i :: 0 <= i < |r| ==> r[i] != '\n' && r[i] != '\r'
    ensures r == [] <==> AllSpace(s)
  {
    var joined := CollapseSpaces(s);
    if joined == "" then
      ""
    else
      WallCut(joined);
      WallCutOf(joined)
  }

  /** The second half of sanitizeWallText: cut to 24 runes and trim again. */
  function WallCutOf(joined: string): string {
    TrimSpace(joined[..Min(|joined|, WallMaxRunes)])
  }

  /** Cutting a non-empty single-spaced string to 24 runes and trimming keeps it single-spaced and non-empty. */
  lemma WallCut(joined: string)
    requires SingleSpaced(joined) && joined != []
    ensures var r := WallCutOf(joined);
      && r != [] && |r| <= WallMaxRunes && SingleSpaced(r)
      && (forall i :: 0 <= i < |r| ==> r[i] != '\n' && r[i] != '\r')
      && (|joined| <= WallMaxRunes ==> r == joined)
      && (|joined| > WallMaxRunes ==> r == TrimSpace(joined[..WallMaxRunes]))
  {
    CutSingleSpaced(joined, Min(|joined|, WallMaxRunes));
    if |joined| <= WallMaxRunes {
      assert joined[..|joined|] == joined;
      TrimSpaceFixed(joined);
    }
  }

  /** The only space a single-spaced string holds is ' ', so it has no line breaks. */
  lemma SingleSpacedNoBreaks(x: string)
    requires SingleSpaced(x)
    ensures forall i :: 0 <= i < |x| ==> x[i] != '\n' && x[i] != '\r'
  {
    forall i | 0 <= i < |x|
      ensures x[i] != '\n' && x[i] != '\r'
    {
      if x[i] == '\n' || x[i] == '\r' {
        assert IsSpace(x[i]);
      }
    }
  }

  /** Cutting a non-empty single-spaced string to k > 0 runes and trimming keeps it single-spaced and non-empty. */
  lemma CutSingleSpaced(x: string, k: nat)
    requires SingleSpaced(x) && 0 < k <= |x|
    ensures SingleSpaced(TrimSpace(x[..k]))
    ensures TrimSpace(x[..k]) != [] && |TrimSpace(x[..k])| <= k
    ensures forall i :: 0 <= i < |TrimSpace(x[..k])| ==> TrimSpace(x[..k])[i] != '\n' && TrimSpace(x[..k])[i] != '\r'
  {
    TrimPrefixSingleSpaced(x, k);
    TrimSpaceOfLeftTrimmed(x[..k]);
    assert !IsSpace(x[..k][0]);
    SingleSpacedNoBreaks(TrimSpace(x[..k]));
  }

  lemma ReplaceRuneAbsent(s: string, from: char, to: char)
    requires forall i :: 0 <= i < |s| ==> s[i] != from
    ensures ReplaceRune(s, from, to) == s
  {
  }

  /** A single-spaced banner of at most 24 runes is left exactly as it is. */
  lemma SanitizeWallTextFixed(s: string)
    requires SingleSpaced(s) && |s| <= WallMaxRunes
    ensures SanitizeWallText(s) == s
  {
    TrimSpaceFixed(s);
    ReplaceRuneAbsent(s, '\n', ' ');
    ReplaceRuneAbsent(s, '\r', ' ');
    SingleSpacedFields(s);
    assert CollapseSpaces(s) == s;
    if s != [] {
      assert s[..|s|] == s;
    }
  }

  /** Sanitising a sanitised banner changes nothing. */
  lemma SanitizeWallTextIdempotent(s: string)
    ensures SanitizeWallText(SanitizeWallText(s)) == SanitizeWallText(s)
  {
    SanitizeWallTextFixed(SanitizeWallText(s));
  }
}

=== FILE: chatlog.dfy ===
/**
 * The client's chat buffer (addChatLine and renderChat in app.js). A chat
 * payload from the server becomes a line with defaults for its missing
 * fields; a missing payload or an empty text is dropped. The buffer keeps
 * the newest 80 lines and the chat panel shows the newest 30 of them.
 */
module ChatLog {
  import opened Wrappers

  const Cap: nat := 80
  const Rendered: nat := 30
  const UnknownName: string := "unknown"

  /**
   * The fields of a chat payload. A missing or falsy field is "" (or 0 for
   * the timestamp): `||` treats all of them alike.
   */
  datatype Payload = Payload(userId: string, name: string, text: string, ts: int)

  datatype Line = Line(userId: string, name: string, text: string, ts: int)

  /** The last `n` elements of `s` (all of them when there are fewer): `slice(-n)`, and what `splice` keeps. */
  function Last<T>(s: seq<T>, n: nat): (r: seq<T>)
    ensures |r| == if |s| < n then |s| else n
    ensures r == s[|s| - |r|..]
  {
    if |s| <= n then s else s[|s| - n..]
  }

  /**
   * The line a payload becomes, if any: no payload or an empty text gives
   * none; a missing name becomes "unknown" and a missing timestamp `now`.
   */
  function ToLine(p: Option<Payload>, now: int): (l: Option<Line>)
    ensures l.Some? <==> p.Some? && p.value.text != ""
    ensures l.Some? ==> l.value.text == p.value.text && l.value.userId == p.value.userId
    ensures l.Some? ==> l.value.name != "" && (p.value.name != "" ==> l.value.name == p.value.name)
    ensures l.Some? ==> l.value.ts != 0 || now == 0
    ensures l.Some? ==>
      && l.value.name == (if p.value.name == "" then UnknownName else p.value.name)
      && l.value.ts == (if p.value.ts == 0 then now else p.value.ts)
  {
    match p
    case None => None
    case Some(q) =>
      var line := Line(q.userId, if q.name == "" then UnknownName else q.name, q.text,
                       if q.ts == 0 then now else q.ts);
      if line.text == "" then None else Some(line)
  }

  /** addChatLine: append the line and drop the oldest beyond 80. */
  function AddChatLine(chat: seq<Line>, p: Option<Payload>, now: int): (r: seq<Line>)
    ensures ToLine(p, now).None? ==> r == chat
    ensures ToLine(p, now).Some? ==> |r| >= 1 && r[|r| - 1] == ToLine(p, now).value
    ensures ToLine(p, now).Some? ==> r == Last(chat + [ToLine(p, now).value], Cap)
    ensures |chat| <= Cap ==> |r| <= Cap
  {
    match ToLine(p, now)
    case None => chat
    case Some(line) =>
      var grown := chat + [line];
      if |grown| > Cap then grown[|grown| - Cap..] else grown
  }

  /** A payload together with the clock reading when it arrived. */
  datatype Arrival = Arrival(payload: Option<Payload>, now: int)

  /** The chat messages of a session, in arrival order. */
  function AddAll(chat: seq<Line>, arrivals: seq<Arrival>): seq<Line>
    decreases |arrivals|
  {
    if arrivals == [] then chat
    else
      var a := arrivals[|arrivals| - 1];
      AddChatLine(AddAll(chat, arrivals[..|arrivals| - 1]), a.payload, a.now)
  }

  /** The lines the arrivals give, in order, without any cap. */
  function Accepted(arrivals: seq<Arrival>): seq<Line>
    decreases |arrivals|
  {
    if arrivals == [] then []
    else
      var a := arrivals[|arrivals| - 1];
      var init := Accepted(arrivals[..|arrivals| - 1]);
      match ToLine(a.payload, a.now)
      case None => init
      case Some(l) => init + [l]
  }

  /** Capping, then adding and capping again, is the same as capping once at the end. */
  lemma LastAppend<T>(s: seq<T>, x: T, n: nat)
    ensures Last(Last(s, n) + [x], n) == Last(s + [x], n)
  {
  }

  /**
   * However many messages arrive, the buffer (started with at most 80
   * lines) holds exactly the newest 80 of all the lines accepted so far.
   */
  lemma {:induction false} BufferIsNewest(chat: seq<Line>, arrivals: seq<Arrival>)
    requires |chat| <= Cap
    ensures AddAll(chat, arrivals) == Last(chat + Accepted(arrivals), Cap)
    decreases |arrivals|
  {
    if arrivals != [] {
      var a := arrivals[|arrivals| - 1];
      var init := arrivals[..|arrivals| - 1];
      BufferIsNewest(chat, init);
      match ToLine(a.payload, a.now)
      case None =>
      case Some(l) =>
        LastAppend(chat + Accepted(init), l, Cap);
        assert chat + Accepted(init) + [l] == chat + (Accepted(init) + [l]);
    }
  }

  /** renderChat: the panel shows the newest 30 lines of the buffer. */
  function RenderChat(chat: seq<Line>): (shown: seq<Line>)
    ensures |shown| <= Rendered && |shown| <= |chat|
    ensures |shown| == if |chat| < Rendered then |chat| else Rendered
    ensures forall i :: 0 <= i < |shown| ==> shown[i] == chat[|chat| - |shown| + i]
  {
    Last(chat, Rendered)
  }

  /** The panel shows exactly the newest 30 accepted lines (with an empty buffer at the start). */
  lemma PanelIsNewest(arrivals: seq<Arrival>)
    ensures RenderChat(AddAll([], arrivals)) == Last(Accepted(arrivals), Rendered)
  {
    BufferIsNewest([], arrivals);
    assert [] + Accepted(arrivals) == Accepted(arrivals);
  }
}

=== FILE: effects.dfy ===
/**
 * The client's effect scalars (app.fx in app.js): screen shake, muzzle
 * flash, hit marker, damage vignette and toast opacity. Events raise a
 * scalar to at least a level ("trigger = max", or a reset to 1 for the flash
 * and the toast); every rendered frame multiplies each one by a constant
 * decay factor in (0, 1).
 */
module Effects {

  datatype Fx = Fx(shake: real, fireT: real, hitT: real, dmgT: real, toastT: real)

  const ShakeDecay: real := 0.90
  const FireDecay: real := 0.82
  const HitDecay: real := 0.84
  const DmgDecay: real := 0.90
  const ToastDecay: real := 0.92

  const ShotShake: real := 0.55
  const HitLevel: real := 0.78
  const DmgLevel: real := 0.68

  predicate InUnit(x: real) {
    0.0 <= x <= 1.0
  }

  /** Every scalar lies in [0, 1]. */
  predicate Bounded(fx: Fx) {
    InUnit(fx.shake) && InUnit(fx.fireT) && InUnit(fx.hitT) && InUnit(fx.dmgT) && InUnit(fx.toastT)
  }

  /** No scalar of `b` exceeds the same scalar of `a`. */
  predicate NoLouder(b: Fx, a: Fx) {
    b.shake <= a.shake && b.fireT <= a.fireT && b.hitT <= a.hitT && b.dmgT <= a.dmgT && b.toastT <= a.toastT
  }

  /** Trigger = max: raise `x` to at least `level`. */
  function Raise(x: real, level: real): (r: real)
    ensures r >= x && r >= level
    ensures r == x || r == level
  {
    if x > level then x else level
  }

  /** The end of renderFrame: each scalar is scaled by its decay factor. */
  function Decay(fx: Fx): (d: Fx)
    ensures Bounded(fx) ==> Bounded(d)
    ensures fx.shake >= 0.0 && fx.fireT >= 0.0 && fx.hitT >= 0.0 && fx.dmgT >= 0.0 && fx.toastT >= 0.0
      ==> NoLouder(d, fx)
    ensures fx.shake > 0.0 ==> d.shake < fx.shake
  {
    Fx(fx.shake * ShakeDecay, fx.fireT * FireDecay, fx.hitT * HitDecay,
       fx.dmgT * DmgDecay, fx.toastT * ToastDecay)
  }

  /** `k` rendered frames without events. */
  function DecayFrames(fx: Fx, k: nat): Fx
    decreases k
  {
    if k == 0 then fx else Decay(DecayFrames(fx, k - 1))
  }

  /** Between events the scalars stay in [0, 1] and never grow. */
  lemma {:induction false} DecayFramesQuiet(fx: Fx, k: nat)
    requires Bounded(fx)
    ensures Bounded(DecayFrames(fx, k)) && NoLouder(DecayFrames(fx, k), fx)
  {
    if k > 0 {
      DecayFramesQuiet(fx, k - 1);
    }
  }

  /** The local player fired (the input send loop): full muzzle flash and at least 0.55 shake. */
  function OnShot(fx: Fx): (r: Fx)
    ensures r.fireT == 1.0 && r.shake >= ShotShake
    ensures fx.fireT <= 1.0 ==> NoLouder(fx, r)
    ensures r.hitT == fx.hitT && r.dmgT == fx.dmgT && r.toastT == fx.toastT
  {
    fx.(fireT := 1.0, shake := Raise(fx.shake, ShotShake))
  }

  /** The local player lost health: damage vignette to at least 0.68. */
  function OnHurt(fx: Fx): (r: Fx)
    ensures r.dmgT >= DmgLevel && NoLouder(fx, r)
    ensures r.shake == fx.shake && r.fireT == fx.fireT && r.hitT == fx.hitT && r.toastT == fx.toastT
  {
    fx.(dmgT := Raise(fx.dmgT, DmgLevel))
  }

  /** Someone else lost health just after a local shot: hit marker to at least 0.78. */
  function OnHit(fx: Fx): (r: Fx)
    ensures r.hitT >= HitLevel && NoLouder(fx, r)
    ensures r.shake == fx.shake && r.fireT == fx.fireT && r.dmgT == fx.dmgT && r.toastT == fx.toastT
  {
    fx.(hitT := Raise(fx.hitT, HitLevel))
  }

  /** toastMsg: the toast is shown at full opacity. */
  function OnToast(fx: Fx): (r: Fx)
    ensures r.toastT == 1.0
    ensures r.shake == fx.shake && r.fireT == fx.fireT && r.hitT == fx.hitT && r.dmgT == fx.dmgT
  {
    fx.(toastT := 1.0)
  }

  /** The events that touch the scalars. */
  datatype FxEvent = Shot | Hurt | Hit | Toast

  function Apply(fx: Fx, e: FxEvent): Fx {
    match e
    case Shot => OnShot(fx)
    case Hurt => OnHurt(fx)
    case Hit => OnHit(fx)
    case Toast => OnToast(fx)
  }

  /** Events never lower a bounded scalar and keep all of them in [0, 1]. */
  lemma EventBounded(fx: Fx, e: FxEvent)
    requires Bounded(fx)
    ensures Bounded(Apply(fx, e)) && NoLouder(fx, Apply(fx, e))
  {
  }

  /**
   * A timeline step: the events of a frame, then that frame's decay. It
   * stands for a rendered frame: renderFrame returns before the decay while
   * there is no map or state, or no local player (app.js:858-865), and such
   * a frame leaves the scalars as they are, which keeps them in [0, 1] too.
   */
  function Frame(fx: Fx, events: seq<FxEvent>): Fx
    decreases |events|
  {
    if events == [] then Decay(fx) else Frame(Apply(fx, events[0]), events[1..])
  }

  /** From scalars in [0, 1], any frame with any events keeps every scalar in [0, 1]. */
  lemma {:induction false} FrameBounded(fx: Fx, events: seq<FxEvent>)
    requires Bounded(fx)
    ensures Bounded(Frame(fx, events))
    decreases |events|
  {
    if events != [] {
      EventBounded(fx, events[0]);
      FrameBounded(Apply(fx, events[0]), events[1..]);
    }
  }
}

=== FILE: feed.dfy ===
/**
 * The client's kill feed (pushFeed and renderKillFeed in app.js): new
 * entries go to the front, entries 3600 ms old or older are dropped when the
 * feed is rendered, and only the first four are shown.
 */
module KillFeed {

  datatype Entry = Entry(t: real, who: string, delta: int)

  const TtlMs: real := 3600.0
  const Shown: nat := 4

  /** pushFeed: the entry stamped `now` goes in front of the existing ones. */
  function Push(feed: seq<Entry>, now: real, who: string, delta: int): (f: seq<Entry>)
    ensures |f| == |feed| + 1 && f[0] == Entry(now, who, delta) && f[1..] == feed
  {
    [Entry(now, who, delta)] + feed
  }

  predicate Fresh(e: Entry, now: real) {
    now - e.t < TtlMs
  }

  /** The prune in renderKillFeed: keep the entries younger than 3600 ms, in feed order. */
  function Prune(feed: seq<Entry>, now: real): (f: seq<Entry>)
    ensures |f| <= |feed|
    ensures forall i :: 0 <= i < |f| ==> Fresh(f[i], now)
  {
    if feed == [] then []
    else if Fresh(feed[0], now) then [feed[0]] + Prune(feed[1..], now)
    else Prune(feed[1..], now)
  }

  /** An entry survives the prune exactly when it was in the feed and is still fresh. */
  lemma {:induction false} PruneExactly(feed: seq<Entry>, now: real, e: Entry)
    ensures e in Prune(feed, now) <==> e in feed && Fresh(e, now)
  {
    if feed != [] {
      PruneExactly(feed[1..], now, e);
      assert e in feed <==> e == feed[0] || e in feed[1..];
    }
  }

  /** Pruning keeps the order: what is kept of a prefix comes before what is kept of the rest. */
  lemma {:induction false} PruneAppend(a: seq<Entry>, b: seq<Entry>, now: real)
    ensures Prune(a + b, now) == Prune(a, now) + Prune(b, now)
  {
    if a != [] {
      assert (a + b)[0] == a[0] && (a + b)[1..] == a[1..] + b;
      PruneAppend(a[1..], b, now);
    } else {
      assert a + b == b;
    }
  }

  /** Pruning twice at the same moment is pruning once. */
  lemma {:induction false} PruneIdempotent(feed: seq<Entry>, now: real)
    ensures Prune(Prune(feed, now), now) == Prune(feed, now)
  {
    if feed != [] {
      PruneIdempotent(feed[1..], now);
    }
  }

  /** The lines drawn: the first four fresh entries, newest first. */
  function Visible(feed: seq<Entry>, now: real): (v: seq<Entry>)
    ensures |v| <= Shown && |v| <= |Prune(feed, now)|
    ensures forall i :: 0 <= i < |v| ==> Fresh(v[i], now)
    ensures v == Prune(feed, now)[..|v|]
    ensures |v| == Shown || |v| == |Prune(feed, now)|
  {
    var kept := Prune(feed, now);
    if |kept| <= Shown then kept else kept[..Shown]
  }

  /** A kill just pushed is the first line shown. */
  lemma PushedShownFirst(feed: seq<Entry>, now: real, who: string, delta: int)
    ensures Visible(Push(feed, now, who, delta), now)[0] == Entry(now, who, delta)
  {
    var f := Push(feed, now, who, delta);
    assert f == [f[0]] + f[1..];
    assert Fresh(f[0], now);
  }
}

=== FILE: fnv.dfy ===
/**
 * hashSeed in app.js: 32-bit FNV-1a over the UTF-16 code units of a string,
 * as JavaScript sees them through `s.length` and `charCodeAt`. Each unit is
 * XORed into the hash, which is then multiplied by the FNV prime modulo
 * 2^32 (Math.imul); `>>> 0` reads the 32 bits as an unsigned number. The
 * hash picks the hue of the wall decal (decalColor) and of the avatar
 * gradient (setAvatarTheme).
 */
module Fnv {

  const OffsetBasis: bv32 := 2166136261
  const Prime: bv32 := 16777619

  /** A UTF-16 code unit, as charCodeAt returns it. */
  type CodeUnit = x: int | 0 <= x < 0x10000

  /**
   * The UTF-16 code units of one character: itself below 0x10000, otherwise
   * a high and a low surrogate that together encode it.
   */
  function Units(c: char): (u: seq<CodeUnit>)
    ensures (c as int < 0x10000 && u == [c as int])
      || (c as int >= 0x10000 && |u| == 2
          && 0xD800 <= u[0] < 0xDC00 && 0xDC00 <= u[1] < 0xE000
          && 0x10000 + (u[0] as int - 0xD800) * 0x400 + (u[1] as int - 0xDC00) == c as int)
  {
    var n := c as int;
    if n < 0x10000 then [n]
    else
      var v := n - 0x10000;
      [0xD800 + v / 0x400, 0xDC00 + v % 0x400]
  }

  /** A string's UTF-16 code units, character by character. */
  function Utf16(s: string): (u: seq<CodeUnit>)
    ensures |u| >= |s|
  {
    if s == [] then [] else Units(s[0]) + Utf16(s[1..])
  }

  /** Encoding a concatenation encodes each part in turn. */
  lemma {:induction false} Utf16Append(a: string, b: string)
    ensures Utf16(a + b) == Utf16(a) + Utf16(b)
  {
    if a != [] {
      assert (a + b)[0] == a[0] && (a + b)[1..] == a[1..] + b;
      Utf16Append(a[1..], b);
    } else {
      assert a + b == b;
    }
  }

  /** One round: XOR the unit in, multiply by the prime modulo 2^32. */
  function Step(h: bv32, unit: CodeUnit): bv32 {
    (h ^ unit as bv32) * Prime
  }

  /** The hash of `units` continued from `h`. */
  function FnvFrom(h: bv32, units: seq<CodeUnit>): bv32
    decreases |units|
  {
    if units == [] then h else FnvFrom(Step(h, units[0]), units[1..])
  }

  /** Hashing a concatenation continues from the hash of the first part. */
  lemma {:induction false} FnvAppend(h: bv32, a: seq<CodeUnit>, b: seq<CodeUnit>)
    ensures FnvFrom(h, a + b) == FnvFrom(FnvFrom(h, a), b)
    decreases |a|
  {
    if a != [] {
      assert (a + b)[0] == a[0] && (a + b)[1..] == a[1..] + b;
      FnvAppend(Step(h, a[0]), a[1..], b);
    } else {
      assert a + b == b;
    }
  }

  /** hashSeed as a definition: FNV-1a of the text's code units. */
  function HashOf(s: string): bv32 {
    FnvFrom(OffsetBasis, Utf16(s))
  }

  /** The loop of hashSeed computes the FNV-1a hash of the text's code units. */
  method HashSeed(s: string) returns (h: bv32)
    ensures h == HashOf(s)
    ensures s == [] ==> h == OffsetBasis
  {
    var units := Utf16(s);
    h := OffsetBasis;
    var i := 0;
    while i < |units|
      invariant 0 <= i <= |units|
      invariant FnvFrom(h, units[i..]) == HashOf(s)
    {
      assert units[i..][0] == units[i] && units[i..][1..] == units[i + 1..];
      h := Step(h, units[i]);
      i := i + 1;
    }
  }

  /** The standard FNV-1a test vectors: "" hashes to the offset basis and "a" to 0xE40C292C. */
  lemma KnownVectors()
    ensures HashOf("") == 0x811C9DC5
    ensures HashOf("a") == 0xE40C292C
  {
    assert Utf16("a") == [0x61];
    assert FnvFrom(Step(OffsetBasis, 0x61), []) == Step(OffsetBasis, 0x61);
  }

  /** decalColor: the hue of the wall decal, `hashSeed(text) % 360`. */
  function DecalHue(text: string): (hue: int)
    ensures 0 <= hue < 360
  {
    (HashOf(text) as int) % 360
  }

  /**
   * setAvatarTheme: the two hues of the avatar gradient, those a decal of
   * `seed` and of `seed + "_b"` would get. The second hash continues the
   * first over the two units of "_b" (AvatarSecondHash).
   */
  function AvatarHues(seed: string): (hues: (int, int))
    ensures hues.0 == DecalHue(seed) && hues.1 == DecalHue(seed + "_b")
  {
    ((HashOf(seed) as int) % 360, (HashOf(seed + "_b") as int) % 360)
  }

  lemma AvatarSecondHash(seed: string)
    ensures HashOf(seed + "_b") == Step(Step(HashOf(seed), 0x5F), 0x62)
  {
    Utf16Append(seed, "_b");
    assert Utf16("_b") == [0x5F, 0x62];
    FnvAppend(OffsetBasis, Utf16(seed), [0x5F, 0x62]);
  }
}

=== FILE: frames.dfy ===
/**
 * The server's hand-written WebSocket framing (ws.go): base framing of
 * section 5.2 of RFC 6455, client-to-server masking of section 5.3, and the
 * control-frame handling of ReadText (a ping is answered by a pong carrying the
 * same payload, section 5.5.3). Streams are byte sequences: reading consumes a
 * prefix and returns the rest; writing returns the bytes put on the wire.
 */
module WsFrames {
  import opened Wrappers

  type Byte = bv8
  type Bytes = seq<Byte>

  /** 1 << 20: the largest payload the 64-bit length form may announce. */
  const MaxPayload: nat := 0x10_0000

  const TwoTo63: nat := 0x8000_0000_0000_0000
  const TwoTo64: nat := 0x1_0000_0000_0000_0000

  const OpText: Byte := 0x1
  const OpClose: Byte := 0x8
  const OpPing: Byte := 0x9
  const OpPong: Byte := 0xA

  datatype FrameError =
    | UnexpectedEof     // the stream ended inside a frame (io.ReadFull / ReadByte failing)
    | Fragmented        // FIN bit clear: "fragmented frames not supported"
    | Unmasked          // mask bit clear: "client frames must be masked"
    | PayloadTooLarge   // 64-bit length negative or above 1 << 20

  datatype Frame = Frame(opcode: Byte, payload: Bytes)

  /** A value read from the front of a stream, and the stream after it. */
  datatype Read<+T> = Read(value: T, rest: Bytes)

  function Pow256(k: nat): (p: nat)
    ensures p >= 1
  {
    if k == 0 then 1 else 256 * Pow256(k - 1)
  }

  /** FIN: this is the final fragment of a message. */
  predicate Fin(b0: Byte) {
    b0 & 0x80 != 0
  }

  function Opcode(b0: Byte): Byte {
    b0 & 0x0F
  }

  /** MASK: the payload is masked with a four-byte key. */
  predicate Masked(b1: Byte) {
    b1 & 0x80 != 0
  }

  /** The 7-bit payload length field. */
  function Length7(b1: Byte): (n: nat)
    ensures n < 128
  {
    (b1 & 0x7F) as nat
  }

  /** The first byte writeFrame emits: FIN set, no reserved bits, the opcode's low nibble. */
  function FirstByte(opcode: Byte): Byte {
    0x80 | (opcode & 0x0F)
  }

  lemma FirstByteBits(opcode: Byte)
    ensures Fin(FirstByte(opcode)) && Opcode(FirstByte(opcode)) == opcode & 0x0F
  {
  }

  lemma UnmaskedLengthByte(b: Byte)
    requires b < 128
    ensures !Masked(b)
  {
  }

  /** byte(v) for 0 <= v < 256, built bit by bit from the top so that its value is known. */
  function ByteOf(v: nat): (b: Byte)
    requires v < 256
    ensures b as nat == v
  {
    if v == 0 then 0
    else
      var half := ByteOf(v / 2);
      DoubleByte(half, v % 2 == 1);
      half + half + (if v % 2 == 1 then 1 else 0)
  }

  /** Unbounded big-endian value of a byte string. */
  function BigEndianValue(bs: Bytes): nat {
    if bs == [] then 0 else BigEndianValue(bs[..|bs| - 1]) * 256 + bs[|bs| - 1] as nat
  }

  /** The low k bytes of n, most significant first (writeFrame's loop from b[7] down to b[0]). */
  function BigEndianBytes(n: nat, k: nat): (bs: Bytes)
    ensures |bs| == k
  {
    if k == 0 then [] else BigEndianBytes(n / 256, k - 1) + [ByteOf(n % 256)]
  }

  /** Euclidean division is unique: a quotient and remainder in range are n / d and n % d. */
  lemma ModUnique(n: int, d: int, q: int, r: int)
    requires d > 0 && n == q * d + r && 0 <= r < d
    ensures n % d == r
  {
    var q0 := n / d;
    var r0 := n % d;
    assert (q - q0) * d == r0 - r;
    if q > q0 {
      MulAtLeast(q - q0, d);
    } else if q < q0 {
      MulAtLeast(q0 - q, d);
    }
  }

  lemma MulAtLeast(x: int, d: int)
    requires x >= 1 && d > 0
    ensures x * d >= d
  {
  }

  lemma ModOfSum(n: nat, a: nat, b: nat, m: nat)
    requires m > 0 && n == 256 * a + b && b < 256
    ensures n % (256 * m) == 256 * (a % m) + b
  {
    var q := a / m;
    var r := a % m;
    assert a == q * m + r;
    assert 256 * a == q * (256 * m) + 256 * r;
    assert r + 1 <= m;
    assert 256 * r + 256 <= 256 * m;
    ModUnique(n, 256 * m, q, 256 * r + b);
  }

  /** Reading back k big-endian bytes recovers n modulo 256^k. */
  lemma {:induction false} BigEndianRoundTrip(n: nat, k: nat)
    ensures BigEndianValue(BigEndianBytes(n, k)) == n % Pow256(k)
  {
    if k > 0 {
      var bs := BigEndianBytes(n, k);
      BigEndianRoundTrip(n / 256, k - 1);
      assert bs[..k - 1] == BigEndianBytes(n / 256, k - 1);
      assert BigEndianValue(bs) == (n / 256) % Pow256(k - 1) * 256 + n % 256;
      ModOfSum(n, n / 256, n % 256, Pow256(k - 1));
    }
  }

  lemma DoubleByte(h: Byte, odd: bool)
    requires h as nat < 128
    ensures (h + h + (if odd then 1 else 0)) as nat == 2 * (h as nat) + (if odd then 1 else 0)
  {
  }

  lemma PowEight()
    ensures Pow256(8) == TwoTo64
  {
  }

  /** Eight bytes hold any 64-bit value exactly. */
  lemma EightBytesExact(n: nat)
    requires n < TwoTo64
    ensures BigEndianValue(BigEndianBytes(n, 8)) == n
  {
    BigEndianRoundTrip(n, 8);
    PowEight();
    assert n % TwoTo64 == n;
  }

  lemma {:induction false} BigEndianBound(bs: Bytes)
    ensures BigEndianValue(bs) < Pow256(|bs|)
  {
    if bs != [] {
      BigEndianBound(bs[..|bs| - 1]);
    }
  }

  /**
   * readLength's 64-bit loop `n = (n << 8) | int(b[i])` on a Go int: the
   * two's-complement register, kept here as its unsigned value.
   */
  function ShiftOrRegister(bs: Bytes): (u: nat)
    ensures u < TwoTo64
  {
    if bs == [] then 0 else (ShiftOrRegister(bs[..|bs| - 1]) * 256 + bs[|bs| - 1] as nat) % TwoTo64
  }

  /** The int64 a 64-bit register holds. */
  function AsInt64(u: nat): int
    requires u < TwoTo64
  {
    if u >= TwoTo63 then u - TwoTo64 else u
  }

  /** Up to eight bytes the register never wraps, so it holds the plain big-endian value. */
  lemma {:induction false} ShiftOrIsBigEndian(bs: Bytes)
    requires |bs| <= 8
    ensures ShiftOrRegister(bs) == BigEndianValue(bs)
  {
    if bs != [] {
      ShiftOrIsBigEndian(bs[..|bs| - 1]);
      assert BigEndianValue(bs) < TwoTo64 by {
        BigEndianBound(bs);
        PowMonotone(|bs|, 8);
        PowEight();
      }
    }
  }

  lemma {:induction false} PowMonotone(i: nat, j: nat)
    requires i <= j
    ensures Pow256(i) <= Pow256(j)
  {
    if i < j {
      PowMonotone(i, j - 1);
    }
  }

  lemma TwoByteValue(bs: Bytes)
    requires |bs| == 2
    ensures BigEndianValue(bs) == bs[0] as nat * 256 + bs[1] as nat
  {
    var first := bs[..1];
    assert first[..0] == [];
    assert BigEndianValue(first) == bs[0] as nat;
    assert bs[..|bs| - 1] == first;
  }

  /** readLength's 64-bit case: eight bytes into a Go int, refused when negative or above 1 << 20. */
  function ReadLength64(input: Bytes): (r: Result<Read<nat>, FrameError>)
    requires |input| >= 8
    ensures r == (if BigEndianValue(input[..8]) <= MaxPayload
                  then Ok(Read(BigEndianValue(input[..8]), input[8..]))
                  else Err(PayloadTooLarge))
  {
    var n := AsInt64(ShiftOrRegister(input[..8]));
    Register64Value(input[..8]);
    if n < 0 || n > MaxPayload as int then Err(PayloadTooLarge)
    else Ok(Read(n as nat, input[8..]))
  }

  /** After eight bytes the register, read as an int64, is negative exactly when the value needs 64 bits. */
  lemma Register64Value(bs: Bytes)
    requires |bs| == 8
    ensures BigEndianValue(bs) < TwoTo64
    ensures AsInt64(ShiftOrRegister(bs)) == if BigEndianValue(bs) < TwoTo63 then BigEndianValue(bs)
                                            else BigEndianValue(bs) - TwoTo64
  {
    ShiftOrIsBigEndian(bs);
    BigEndianBound(bs);
    PowEight();
  }

  /** readLength: the payload length announced by the 7-bit field and its extension. */
  function ReadLength(length7: nat, input: Bytes): (r: Result<Read<nat>, FrameError>)
    requires length7 < 128
    ensures length7 < 126 ==> r == Ok(Read(length7, input))
    ensures length7 == 126 && |input| < 2 ==> r == Err(UnexpectedEof)
    ensures length7 == 126 && |input| >= 2 ==>
      r == Ok(Read(BigEndianValue(input[..2]), input[2..]))
    ensures length7 == 127 && |input| < 8 ==> r == Err(UnexpectedEof)
    ensures length7 == 127 && |input| >= 8 ==>
      r == (if BigEndianValue(input[..8]) <= MaxPayload
            then Ok(Read(BigEndianValue(input[..8]), input[8..]))
            else Err(PayloadTooLarge))
    ensures r.Ok? ==> r.value.value <= MaxPayload
  {
    if length7 == 126 then
      if |input| < 2 then Err(UnexpectedEof)
      else
        TwoByteValue(input[..2]);
        Ok(Read(input[0] as nat * 256 + input[1] as nat, input[2..]))
    else if length7 == 127 then
      if |input| < 8 then Err(UnexpectedEof)
      else ReadLength64(input)
    else
      Ok(Read(length7, input))
  }

  /** Client-to-server masking: byte i is XORed with key[i mod 4]. */
  function Mask(data: Bytes, key: Bytes): (r: Bytes)
    requires |key| == 4
    ensures |r| == |data|
    ensures forall i :: 0 <= i < |data| ==> r[i] == data[i] ^ key[i % 4]
  {
    seq(|data|, i requires 0 <= i < |data| => data[i] ^ key[i % 4])
  }

  /** Masking twice with the same key gives the data back. */
  lemma MaskInvolution(data: Bytes, key: Bytes)
    requires |key| == 4
    ensures Mask(Mask(data, key), key) == data
  {
    var twice := Mask(Mask(data, key), key);
    forall i | 0 <= i < |data|
      ensures twice[i] == data[i]
    {
      var k := key[i % 4];
      assert (data[i] ^ k) ^ k == data[i];
    }
  }

  /** The rest of readFrame once the two header bytes passed: length, key, masked payload. */
  function ReadMaskedBody(opcode: Byte, length7: nat, input: Bytes): (r: Result<Read<Frame>, FrameError>)
    requires length7 < 128
    ensures r.Ok? ==> r.value.value.opcode == opcode
    ensures r.Ok? ==> |r.value.value.payload| <= MaxPayload
    ensures r.Ok? ==> |r.value.rest| + 4 + |r.value.value.payload| <= |input|
    ensures r.Ok? ==> r.value.rest == input[|input| - |r.value.rest|..]
  {
    match ReadLength(length7, input)
    case Err(e) => Err(e)
    case Ok(Read(length, afterLength)) =>
      assert |afterLength| <= |input| && afterLength == input[|input| - |afterLength|..];
      if |afterLength| < 4 then Err(UnexpectedEof)
      else
        var key := afterLength[..4];
        var body := afterLength[4..];
        if |body| < length then Err(UnexpectedEof)
        else Ok(Read(Frame(opcode, Mask(body[..length], key)), body[length..]))
  }

  /** readFrame: one client frame from the front of the stream, unmasked. */
  function ReadFrame(input: Bytes): (r: Result<Read<Frame>, FrameError>)
    ensures |input| < 2 ==> r == Err(UnexpectedEof)
    ensures |input| >= 2 && !Fin(input[0]) ==> r == Err(Fragmented)
    ensures |input| >= 2 && Fin(input[0]) && !Masked(input[1]) ==> r == Err(Unmasked)
    ensures r.Ok? ==> r.value.value.opcode == Opcode(input[0])
    ensures r.Ok? ==> |r.value.value.payload| <= MaxPayload
    ensures r.Ok? ==> |r.value.rest| + 6 + |r.value.value.payload| <= |input|
  {
    if |input| < 2 then Err(UnexpectedEof)
    else
      var b0 := input[0];
      var b1 := input[1];
      if !Fin(b0) then Err(Fragmented)
      else if !Masked(b1) then Err(Unmasked)
      else ReadMaskedBody(Opcode(b0), Length7(b1), input[2..])
  }

  /** 126 followed by the length as a 16-bit big-endian number. */
  function MediumLength(n: nat): (bs: Bytes)
    requires n <= 0xFFFF
    ensures |bs| == 3 && bs[0] == 126 && BigEndianValue(bs[1..]) == n
  {
    var hi := ByteOf(n / 256);
    var lo := ByteOf(n % 256);
    var bs: Bytes := [126, hi, lo];
    TwoByteValue(bs[1..]);
    bs
  }

  /** 127 followed by the length as a 64-bit big-endian number. */
  function LongLength(n: nat): (bs: Bytes)
    requires n < TwoTo63
    ensures |bs| == 9 && bs[0] == 127 && BigEndianValue(bs[1..]) == n
  {
    var be := BigEndianBytes(n, 8);
    EightBytesExact(n);
    var bs: Bytes := [127] + be;
    assert bs[1..] == be;
    bs
  }

  /** The 7-bit length field and its extension, as writeFrame emits them. */
  function EncodeLength(n: nat): (bs: Bytes)
    requires n < TwoTo63
    ensures |bs| >= 1
    ensures n < 126 ==> |bs| == 1 && bs[0] as nat == n
    ensures 126 <= n <= 0xFFFF ==> |bs| == 3 && bs[0] == 126 && BigEndianValue(bs[1..]) == n
    ensures n > 0xFFFF ==> |bs| == 9 && bs[0] == 127 && BigEndianValue(bs[1..]) == n
    ensures bs[0] < 128
  {
    if n < 126 then [ByteOf(n)]
    else if n <= 0xFFFF then MediumLength(n)
    else LongLength(n)
  }

  /** writeFrame: FIN set, opcode in the low nibble, no mask, then the payload. */
  function WriteFrame(opcode: Byte, payload: Bytes): (out: Bytes)
    requires |payload| < TwoTo63
    ensures |out| == 1 + |EncodeLength(|payload|)| + |payload|
    ensures out[0] == FirstByte(opcode) && Fin(out[0]) && Opcode(out[0]) == opcode & 0x0F
    ensures !Masked(out[1])
    ensures out[1..1 + |EncodeLength(|payload|)|] == EncodeLength(|payload|)
    ensures out[|out| - |payload|..] == payload
  {
    var b0 := FirstByte(opcode);
    var len := EncodeLength(|payload|);
    FirstByteBits(opcode);
    UnmaskedLengthByte(len[0]);
    [b0] + len + payload
  }

  /** The length bytes writeFrame emits read back, through readLength, as the payload length. */
  lemma LengthRoundTrip(n: nat, rest: Bytes)
    requires n <= MaxPayload
    ensures ReadLength(EncodeLength(n)[0] as nat, EncodeLength(n)[1..] + rest) == Ok(Read(n, rest))
  {
    var bs := EncodeLength(n);
    var input := bs[1..] + rest;
    if 126 <= n <= 0xFFFF {
      assert input[..2] == bs[1..];
      assert input[2..] == rest;
    } else if n > 0xFFFF {
      assert bs[0] as nat == 127;
      assert input[..8] == bs[1..];
      assert input[8..] == rest;
    } else {
      assert input == rest;
    }
  }

  /** An announced 64-bit length above 1 << 20, or with the sign bit set, is refused. */
  lemma ReadLengthRejectsLarge(input: Bytes)
    requires |input| >= 8
    requires BigEndianValue(input[..8]) > MaxPayload
    ensures ReadLength(127, input) == Err(PayloadTooLarge)
  {
    ShiftOrIsBigEndian(input[..8]);
  }

  /** A masked frame as a client sends it: the mask bit set in the length byte, the key, the masked payload. */
  function ClientFrame(opcode: Byte, key: Bytes, payload: Bytes): (out: Bytes)
    requires |key| == 4 && |payload| < TwoTo63
  {
    var len := EncodeLength(|payload|);
    [FirstByte(opcode), len[0] | 0x80] + len[1..] + key + Mask(payload, key)
  }

  /** The header bits of a client frame: FIN and mask set, opcode and 7-bit length kept. */
  lemma ClientHeaderBits(opcode: Byte, length7: Byte)
    requires length7 < 128
    ensures Fin(FirstByte(opcode)) && Opcode(FirstByte(opcode)) == opcode & 0x0F
    ensures Masked(length7 | 0x80) && Length7(length7 | 0x80) == length7 as nat
  {
    FirstByteBits(opcode);
    assert (length7 | 0x80) & 0x7F == length7;
  }

  /** Once the length is read, the key and the masked payload read back. */
  lemma MaskedBodyRoundTrip(opcode: Byte, length7: nat, input: Bytes, key: Bytes, payload: Bytes, rest: Bytes)
    requires length7 < 128 && |key| == 4
    requires ReadLength(length7, input) == Ok(Read(|payload|, key + Mask(payload, key) + rest))
    ensures ReadMaskedBody(opcode, length7, input) == Ok(Read(Frame(opcode, payload), rest))
  {
    var masked := Mask(payload, key);
    var afterLength := key + masked + rest;
    assert afterLength[..4] == key;
    var body := afterLength[4..];
    assert body == masked + rest;
    assert body[..|payload|] == masked;
    assert body[|payload|..] == rest;
    MaskInvolution(payload, key);
  }

  /** A frame with FIN and mask set goes on to its length, key and payload. */
  lemma ReadFrameHeader(input: Bytes)
    requires |input| >= 2 && Fin(input[0]) && Masked(input[1])
    ensures ReadFrame(input) == ReadMaskedBody(Opcode(input[0]), Length7(input[1]), input[2..])
  {
  }

  lemma ClientFrameLayout(opcode: Byte, key: Bytes, payload: Bytes, rest: Bytes)
    requires |key| == 4 && |payload| < TwoTo63
    ensures var input := ClientFrame(opcode, key, payload) + rest;
            var len := EncodeLength(|payload|);
            |input| >= 2 && input[0] == FirstByte(opcode) && input[1] == len[0] | 0x80
            && input[2..] == len[1..] + (key + Mask(payload, key) + rest)
  {
    var len := EncodeLength(|payload|);
    HeadAndTail(FirstByte(opcode), len[0] | 0x80, len[1..], key, Mask(payload, key), rest);
  }

  lemma HeadAndTail(a: Byte, b: Byte, x: Bytes, y: Bytes, z: Bytes, w: Bytes)
    ensures var s := [a, b] + x + y + z + w;
      s[0] == a && s[1] == b && s[2..] == x + (y + z + w)
  {
    var s := [a, b] + x + y + z + w;
    assert s == [a, b] + (x + (y + z + w));
  }

  /** Whatever a client frames (up to 1 << 20 payload bytes) the server reads back exactly. */
  lemma ClientFrameRoundTrip(opcode: Byte, key: Bytes, payload: Bytes, rest: Bytes)
    requires |key| == 4 && |payload| <= MaxPayload
    ensures ReadFrame(ClientFrame(opcode, key, payload) + rest)
         == Ok(Read(Frame(opcode & 0x0F, payload), rest))
  {
    var len := EncodeLength(|payload|);
    var tail := key + Mask(payload, key) + rest;
    var input := ClientFrame(opcode, key, payload) + rest;
    ClientFrameLayout(opcode, key, payload, rest);
    ClientHeaderBits(opcode, len[0]);
    ReadFrameHeader(input);
    LengthRoundTrip(|payload|, tail);
    MaskedBodyRoundTrip(opcode & 0x0F, len[0] as nat, len[1..] + tail, key, payload, rest);
  }

  /** The server's own frames are never masked, so its reader refuses them. */
  lemma ServerFrameRejected(opcode: Byte, payload: Bytes, rest: Bytes)
    requires |payload| < TwoTo63
    ensures ReadFrame(WriteFrame(opcode, payload) + rest) == Err(Unmasked)
  {
    var out := WriteFrame(opcode, payload) + rest;
    assert Fin(out[0]) && !Masked(out[1]);
  }

  /** What ReadText ends with. */
  datatype TextOutcome =
    | Text(payload: Bytes, rest: Bytes)   // a text frame arrived
    | Closed                              // a close frame: io.EOF
    | Failed(error: FrameError)           // readFrame failed

  /** The outcome of ReadText and the bytes it wrote back (pongs) on the way. */
  datatype TextRead = TextRead(outcome: TextOutcome, written: Bytes)

  /**
   * ReadText: skip frames until a text frame (returned) or a close frame (EOF);
   * answer each ping with a pong echoing its payload; ignore everything else.
   */
  function ReadText(input: Bytes): (r: TextRead)
    ensures r.outcome.Text? ==> |r.outcome.payload| <= MaxPayload
    ensures r.outcome.Text? ==> |r.outcome.rest| < |input|
    decreases |input|
  {
    match ReadFrame(input)
    case Err(e) => TextRead(Failed(e), [])
    case Ok(Read(f, rest)) =>
      if f.opcode == OpText then
        TextRead(Text(f.payload, rest), [])
      else if f.opcode == OpClose then
        TextRead(Closed, [])
      else if f.opcode == OpPing then
        var next := ReadText(rest);
        TextRead(next.outcome, WriteFrame(OpPong, f.payload) + next.written)
      else
        ReadText(rest)
  }

  /** A text frame is delivered with its payload, and nothing is written. */
  lemma ReadTextDeliversText(key: Bytes, payload: Bytes, rest: Bytes)
    requires |key| == 4 && |payload| <= MaxPayload
    ensures ReadText(ClientFrame(OpText, key, payload) + rest) == TextRead(Text(payload, rest), [])
  {
    ClientFrameRoundTrip(OpText, key, payload, rest);
  }

  /** A close frame ends reading with EOF. */
  lemma ReadTextStopsAtClose(key: Bytes, payload: Bytes, rest: Bytes)
    requires |key| == 4 && |payload| <= MaxPayload
    ensures ReadText(ClientFrame(OpClose, key, payload) + rest) == TextRead(Closed, [])
  {
    ClientFrameRoundTrip(OpClose, key, payload, rest);
  }

  /** A ping is answered by a pong with the identical payload, and reading goes on. */
  lemma ReadTextAnswersPing(key: Bytes, payload: Bytes, rest: Bytes)
    requires |key| == 4 && |payload| <= MaxPayload
    ensures ReadText(ClientFrame(OpPing, key, payload) + rest)
         == TextRead(ReadText(rest).outcome, WriteFrame(OpPong, payload) + ReadText(rest).written)
  {
    ClientFrameRoundTrip(OpPing, key, payload, rest);
  }

  /** Any other opcode (continuation, binary, pong, reserved) is skipped silently. */
  lemma ReadTextSkipsOthers(opcode: Byte, key: Bytes, payload: Bytes, rest: Bytes)
    requires |key| == 4 && |payload| <= MaxPayload
    requires opcode & 0x0F != OpText && opcode & 0x0F != OpClose && opcode & 0x0F != OpPing
    ensures ReadText(ClientFrame(opcode, key, payload) + rest) == ReadText(rest)
  {
    ClientFrameRoundTrip(opcode, key, payload, rest);
  }
}

=== FILE: gostrings.dfy ===
/**
 * The parts of Go's `strings` and `unicode` packages that the server relies on,
 * over strings viewed as sequences of runes (Unicode scalar values).
 */
module GoStrings {

  /**
   * unicode.IsSpace: '\t', '\n', '\v', '\f', '\r', ' ', U+0085, U+00A0 and the
   * White_Space runes U+1680, U+2000-U+200A, U+2028, U+2029, U+202F, U+205F, U+3000.
   */
  predicate IsSpace(c: char) {
    var n := c as int;
    || (9 <= n <= 13) || n == 32 || n == 0x85 || n == 0xA0 || n == 0x1680
    || (0x2000 <= n <= 0x200A) || n == 0x2028 || n == 0x2029 || n == 0x202F
    || n == 0x205F || n == 0x3000
  }

  predicate AllSpace(s: string) {
    forall i :: 0 <= i < |s| ==> IsSpace(s[i])
  }

  /** Neither the first nor the last rune is a space. */
  predicate NoEdgeSpace(s: string) {
    s == [] || (!IsSpace(s[0]) && !IsSpace(s[|s| - 1]))
  }

  /** A word as strings.Fields yields it: non-empty, without spaces. */
  predicate IsWord(w: string) {
    |w| > 0 && forall i :: 0 <= i < |w| ==> !IsSpace(w[i])
  }

  /**
   * Words separated by single ASCII spaces: the only space rune is ' ',
   * no two spaces touch, and none sits at either end.
   */
  predicate SingleSpaced(s: string) {
    && NoEdgeSpace(s)
    && (forall i :: 0 <= i < |s| && IsSpace(s[i]) ==> s[i] == ' ')
    && (forall i :: 0 <= i < |s| - 1 && s[i] == ' ' ==> s[i + 1] != ' ')
  }

  function TrimLeft(s: string): (r: string)
    ensures |r| <= |s| && r == s[|s| - |r|..]
    ensures r == [] || !IsSpace(r[0])
  {
    if |s| > 0 && IsSpace(s[0]) then TrimLeft(s[1..]) else s
  }

  function TrimRight(s: string): (r: string)
    ensures |r| <= |s| && r == s[..|r|]
    ensures r == [] || !IsSpace(r[|r| - 1])
  {
    if |s| > 0 && IsSpace(s[|s| - 1]) then TrimRight(s[..|s| - 1]) else s
  }

  /** Number of leading space runes. */
  function LeadingSpaces(s: string): (n: nat)
    ensures n <= |s|
  {
    if |s| > 0 && IsSpace(s[0]) then 1 + LeadingSpaces(s[1..]) else 0
  }

  /** strings.TrimSpace: the middle of `s`, starting after its leading spaces. */
  function TrimSpace(s: string): (r: string)
    ensures NoEdgeSpace(r)
    ensures LeadingSpaces(s) + |r| <= |s|
    ensures r == s[LeadingSpaces(s)..LeadingSpaces(s) + |r|]
  {
    TrimBoth(s);
    TrimRight(TrimLeft(s))
  }

  /** Trimming the left and then the right leaves the middle of `s`, with no space at either end. */
  lemma TrimBoth(s: string)
    ensures var r := TrimRight(TrimLeft(s));
      && NoEdgeSpace(r)
      && LeadingSpaces(s) + |r| <= |s|
      && r == s[LeadingSpaces(s)..LeadingSpaces(s) + |r|]
  {
    TrimBothEdges(s);
    TrimBothMiddle(s);
  }

  lemma TrimBothEdges(s: string)
    ensures NoEdgeSpace(TrimRight(TrimLeft(s)))
  {
    var l := TrimLeft(s);
    var r := TrimRight(l);
    if r != [] {
      assert r[0] == l[0];
    }
  }

  lemma TrimBothMiddle(s: string)
    ensures var r := TrimRight(TrimLeft(s));
      LeadingSpaces(s) + |r| <= |s| && r == s[LeadingSpaces(s)..LeadingSpaces(s) + |r|]
  {
    var l := TrimLeft(s);
    var r := TrimRight(l);
    LeadingSpacesOfTrimLeft(s);
    var n := LeadingSpaces(s);
    assert l == s[n..];
    assert r == l[..|r|];
    SliceOfPrefix(s, n, |r|);
  }

  lemma SliceOfPrefix(s: string, k: nat, j: nat)
    requires k + j <= |s|
    ensures s[k..][..j] == s[k..k + j]
  {
  }

  lemma {:induction false} LeadingSpacesOfTrimLeft(s: string)
    ensures LeadingSpaces(s) == |s| - |TrimLeft(s)|
  {
    if |s| > 0 && IsSpace(s[0]) {
      LeadingSpacesOfTrimLeft(s[1..]);
    }
  }

  /** What TrimLeft drops is all space. */
  lemma {:induction false} TrimLeftCut(s: string)
    ensures AllSpace(s[..|s| - |TrimLeft(s)|])
  {
    if |s| > 0 && IsSpace(s[0]) {
      TrimLeftCut(s[1..]);
      var r := TrimLeft(s);
      assert s[..|s| - |r|] == [s[0]] + s[1..][..|s| - 1 - |r|];
    }
  }

  /** What TrimRight drops is all space. */
  lemma {:induction false} TrimRightCut(s: string)
    ensures AllSpace(s[|TrimRight(s)|..])
  {
    if |s| > 0 && IsSpace(s[|s| - 1]) {
      TrimRightCut(s[..|s| - 1]);
      var r := TrimRight(s);
      assert s[|r|..] == s[..|s| - 1][|r|..] + [s[|s| - 1]];
    }
  }

  /** TrimSpace removes exactly the spaces at both ends: everything cut off is space. */
  lemma TrimSpaceCut(s: string)
    ensures AllSpace(s[..LeadingSpaces(s)])
    ensures AllSpace(s[LeadingSpaces(s) + |TrimSpace(s)|..])
  {
    TrimSpaceCutLeft(s);
    TrimSpaceCutRight(s);
  }

  lemma TrimSpaceCutLeft(s: string)
    ensures AllSpace(s[..LeadingSpaces(s)])
  {
    LeadingSpacesOfTrimLeft(s);
    TrimLeftCut(s);
    assert LeadingSpaces(s) == |s| - |TrimLeft(s)|;
  }

  lemma TrimSpaceCutRight(s: string)
    ensures AllSpace(s[LeadingSpaces(s) + |TrimSpace(s)|..])
  {
    var l := TrimLeft(s);
    LeadingSpacesOfTrimLeft(s);
    TrimRightCut(l);
    SliceOfSuffix(s, |s| - |l|, |TrimRight(l)|);
  }

  lemma SliceOfSuffix(s: string, k: nat, j: nat)
    requires k + j <= |s|
    ensures s[k..][j..] == s[k + j..]
  {
  }

  /** TrimSpace yields the empty string exactly for all-space input. */
  lemma TrimSpaceEmpty(s: string)
    ensures TrimSpace(s) == [] <==> AllSpace(s)
  {
    var L := LeadingSpaces(s);
    var r := TrimSpace(s);
    TrimSpaceCut(s);
    if r == [] {
      assert s == s[..L] + s[L + |r|..];
    } else {
      assert s[L] == r[0];
    }
  }

  lemma TrimLeftFixed(s: string)
    requires s == [] || !IsSpace(s[0])
    ensures TrimLeft(s) == s
  {
  }

  lemma TrimRightFixed(s: string)
    requires s == [] || !IsSpace(s[|s| - 1])
    ensures TrimRight(s) == s
  {
  }

  /** Trimming is the identity on strings that neither start nor end with a space. */
  lemma TrimSpaceFixed(s: string)
    requires NoEdgeSpace(s)
    ensures TrimSpace(s) == s
  {
    TrimLeftFixed(s);
    TrimRightFixed(s);
  }

  /** Trimming a string that does not start with a space only removes trailing spaces. */
  lemma TrimSpaceOfLeftTrimmed(s: string)
    requires s == [] || !IsSpace(s[0])
    ensures TrimSpace(s) == TrimRight(s)
  {
    TrimLeftFixed(s);
  }

  /** Length of the leading run of non-space runes. */
  function WordLen(s: string): (n: nat)
    ensures n <= |s|
    ensures forall i :: 0 <= i < n ==> !IsSpace(s[i])
    ensures n == |s| || IsSpace(s[n])
  {
    if |s| == 0 || IsSpace(s[0]) then 0 else 1 + WordLen(s[1..])
  }

  /** strings.Fields: the maximal runs of non-space runes, in order. */
  function Fields(s: string): (ws: seq<string>)
    ensures forall i :: 0 <= i < |ws| ==> IsWord(ws[i])
    decreases |s|
  {
    var t := TrimLeft(s);
    if t == [] then
      []
    else
      var n := WordLen(t);
      var rest := Fields(t[n..]);
      WordPrefix(t);
      ConsWords(t[..n], rest);
      [t[..n]] + rest
  }

  lemma ConsWords(w: string, ws: seq<string>)
    requires IsWord(w) && forall i :: 0 <= i < |ws| ==> IsWord(ws[i])
    ensures forall i :: 0 <= i < |ws| + 1 ==> IsWord(([w] + ws)[i])
  {
    forall i | 0 <= i < |ws| + 1
      ensures IsWord(([w] + ws)[i])
    {
      if i > 0 {
        assert ([w] + ws)[i] == ws[i - 1];
      }
    }
  }

  /** The leading run of a string that starts with a non-space is a word. */
  lemma WordPrefix(t: string)
    requires t != [] && !IsSpace(t[0])
    ensures IsWord(t[..WordLen(t)])
  {
    var n := WordLen(t);
    forall i | 0 <= i < n
      ensures !IsSpace(t[..n][i])
    {
      assert t[..n][i] == t[i];
    }
  }

  /** Fields finds no word exactly when the string is all space. */
  lemma FieldsEmpty(s: string)
    ensures Fields(s) == [] <==> AllSpace(s)
  {
    var t := TrimLeft(s);
    TrimLeftCut(s);
    if t == [] {
      assert s == s[..|s| - |t|];
    } else {
      assert s[|s| - |t|] == t[0];
    }
  }

  /**
   * `x` and `y` have their spaces in the same places and agree on every
   * other rune, so they hold the same words.
   */
  predicate SameWords(x: string, y: string) {
    && |x| == |y|
    && forall i :: 0 <= i < |x| ==> IsSpace(x[i]) == IsSpace(y[i]) && (!IsSpace(x[i]) ==> x[i] == y[i])
  }

  lemma SameWordsSuffix(x: string, y: string, k: nat)
    requires SameWords(x, y) && k <= |x|
    ensures SameWords(x[k..], y[k..])
  {
    forall i | 0 <= i < |x| - k
      ensures IsSpace(x[k..][i]) == IsSpace(y[k..][i]) && (!IsSpace(x[k..][i]) ==> x[k..][i] == y[k..][i])
    {
      assert x[k..][i] == x[k + i] && y[k..][i] == y[k + i];
    }
  }

  lemma {:induction false} TrimLeftSameWords(x: string, y: string)
    requires SameWords(x, y)
    ensures SameWords(TrimLeft(x), TrimLeft(y))
    decreases |x|
  {
    if |x| > 0 {
      assert IsSpace(x[0]) == IsSpace(y[0]);
      if IsSpace(x[0]) {
        SameWordsSuffix(x, y, 1);
        TrimLeftSameWords(x[1..], y[1..]);
      }
    }
  }

  lemma {:induction false} WordLenSameWords(x: string, y: string)
    requires SameWords(x, y)
    ensures WordLen(x) == WordLen(y) && x[..WordLen(x)] == y[..WordLen(y)]
    decreases |x|
  {
    if |x| > 0 {
      assert IsSpace(x[0]) == IsSpace(y[0]);
      if !IsSpace(x[0]) {
        assert x[0] == y[0];
        SameWordsSuffix(x, y, 1);
        WordLenSameWords(x[1..], y[1..]);
        var n := WordLen(x);
        assert x[..n] == [x[0]] + x[1..][..n - 1];
        assert y[..n] == [y[0]] + y[1..][..n - 1];
      }
    }
  }

  /** Strings with the same words have the same fields. */
  lemma {:induction false} FieldsSameWords(x: string, y: string)
    requires SameWords(x, y)
    ensures Fields(x) == Fields(y)
    decreases |x|
  {
    var t, u := TrimLeft(x), TrimLeft(y);
    TrimLeftSameWords(x, y);
    if t != [] {
      var n := WordLen(t);
      assert n >= 1;
      WordLenSameWords(t, u);
      SameWordsSuffix(t, u, n);
      FieldsSameWords(t[n..], u[n..]);
    }
  }

  lemma {:induction false} TrimLeftAppend(x: string, c: char)
    requires IsSpace(c)
    ensures TrimLeft(x) == [] ==> TrimLeft(x + [c]) == []
    ensures TrimLeft(x) != [] ==> TrimLeft(x + [c]) == TrimLeft(x) + [c]
    decreases |x|
  {
    if |x| == 0 {
      assert x + [c] == [c] && [c][1..] == [];
    } else if IsSpace(x[0]) {
      assert (x + [c])[1..] == x[1..] + [c];
      TrimLeftAppend(x[1..], c);
    }
  }

  lemma {:induction false} WordLenAppend(t: string, c: char)
    requires IsSpace(c)
    ensures WordLen(t + [c]) == WordLen(t)
    decreases |t|
  {
    if |t| == 0 {
      assert (t + [c])[0] == c;
    } else if !IsSpace(t[0]) {
      assert (t + [c])[1..] == t[1..] + [c];
      WordLenAppend(t[1..], c);
    }
  }

  /** One step of Fields: the first word of the left-trimmed string, then the fields of the rest. */
  lemma FieldsStep(x: string)
    ensures TrimLeft(x) == [] ==> Fields(x) == []
    ensures TrimLeft(x) != [] ==>
      var t := TrimLeft(x);
      Fields(x) == [t[..WordLen(t)]] + Fields(t[WordLen(t)..])
  {
  }

  /** A trailing space does not change the fields. */
  lemma {:induction false} FieldsTrailingSpace(x: string, c: char)
    requires IsSpace(c)
    ensures Fields(x + [c]) == Fields(x)
    decreases |x|
  {
    var t := TrimLeft(x);
    TrimLeftAppend(x, c);
    if t != [] {
      var n := WordLen(t);
      FieldsAppendStep(x, c, t, n);
      FieldsTrailingSpace(t[n..], c);
      FieldsStep(x);
    } else {
      FieldsStep(x);
      FieldsStep(x + [c]);
    }
  }

  /** With a space appended, Fields finds the same first word, then the fields of the rest with the space. */
  lemma FieldsAppendStep(x: string, c: char, t: string, n: nat)
    requires IsSpace(c) && t == TrimLeft(x) && t != [] && n == WordLen(t)
    requires TrimLeft(x + [c]) == t + [c]
    ensures n >= 1 && Fields(x + [c]) == [t[..n]] + Fields(t[n..] + [c])
  {
    var t' := t + [c];
    WordLenAppend(t, c);
    assert WordLen(t') == n;
    FieldsStep(x + [c]);
    AppendSlices(t, c, n);
  }

  /** Trailing spaces do not change the fields. */
  lemma {:induction false} FieldsTrimRight(s: string)
    ensures Fields(TrimRight(s)) == Fields(s)
    decreases |s|
  {
    if |s| > 0 && IsSpace(s[|s| - 1]) {
      var init := s[..|s| - 1];
      assert TrimRight(s) == TrimRight(init);
      FieldsTrimRight(init);
      FieldsDropLast(s);
    }
  }

  lemma FieldsDropLast(s: string)
    requires |s| > 0 && IsSpace(s[|s| - 1])
    ensures Fields(s) == Fields(s[..|s| - 1])
  {
    var init := s[..|s| - 1];
    assert s == init + [s[|s| - 1]];
    FieldsTrailingSpace(init, s[|s| - 1]);
  }

  /** Trimming does not change the fields. */
  lemma FieldsTrimSpace(s: string)
    ensures Fields(TrimSpace(s)) == Fields(s)
  {
    var l := TrimLeft(s);
    FieldsTrimRight(l);
    TrimLeftFixed(l);
  }

  lemma AppendSlices<T>(t: seq<T>, c: T, n: nat)
    requires n <= |t|
    ensures (t + [c])[..n] == t[..n] && (t + [c])[n..] == t[n..] + [c]
  {
  }

  /** strings.Join */
  function Join(ws: seq<string>, sep: string): string {
    if |ws| == 0 then ""
    else if |ws| == 1 then ws[0]
    else ws[0] + sep + Join(ws[1..], sep)
  }

  /** strings.ReplaceAll for a one-rune pattern and a one-rune replacement. */
  function ReplaceRune(s: string, from: char, to: char): (r: string)
    ensures |r| == |s|
    ensures forall i :: 0 <= i < |s| ==> r[i] == (if s[i] == from then to else s[i])
  {
    if s == [] then [] else [if s[0] == from then to else s[0]] + ReplaceRune(s[1..], from, to)
  }

  /** strings.Split with a one-rune separator: always at least one element. */
  function Split(s: string, sep: char): (parts: seq<string>)
    ensures |parts| >= 1
    ensures forall i, j :: 0 <= i < |parts| && 0 <= j < |parts[i]| ==> parts[i][j] != sep
  {
    if s == [] then [""]
    else
      var rest := Split(s[1..], sep);
      if s[0] == sep then [""] + rest
      else [[s[0]] + rest[0]] + rest[1..]
  }

  /** Joining the parts of a split with the separator gives the string back. */
  lemma {:induction false} SplitJoin(s: string, sep: char)
    ensures Join(Split(s, sep), [sep]) == s
  {
    if s != [] {
      var rest := Split(s[1..], sep);
      SplitJoin(s[1..], sep);
      if s[0] == sep {
        assert Split(s, sep) == [""] + rest;
        assert ([""] + rest)[1..] == rest;
      } else {
        var parts := Split(s, sep);
        assert parts[0] == [s[0]] + rest[0];
        if |rest| == 1 {
          assert parts == [[s[0]] + rest[0]];
        } else {
          assert parts[1..] == rest[1..];
          assert Join(rest, [sep]) == rest[0] + [sep] + Join(rest[1..], [sep]);
        }
      }
    }
  }

  /** ASCII lower-casing of one rune; every other rune is left alone. */
  function LowerAscii(c: char): char {
    if 'A' <= c <= 'Z' then (c as int + 32) as char else c
  }

  function ToLower(s: string): (r: string)
    ensures |r| == |s|
    ensures forall i :: 0 <= i < |s| ==> r[i] == LowerAscii(s[i])
  {
    if s == [] then [] else [LowerAscii(s[0])] + ToLower(s[1..])
  }

  /** strings.EqualFold, restricted to ASCII case folding. */
  predicate EqualFold(a: string, b: string) {
    ToLower(a) == ToLower(b)
  }

  /** Joining words with single spaces gives a single-spaced string that starts with the first word. */
  lemma {:induction false} JoinWordsSingleSpaced(ws: seq<string>)
    requires forall i :: 0 <= i < |ws| ==> IsWord(ws[i])
    ensures SingleSpaced(Join(ws, " "))
    ensures |ws| > 0 ==> |Join(ws, " ")| >= |ws[0]| && Join(ws, " ")[..|ws[0]|] == ws[0]
  {
    if |ws| == 1 {
      assert IsWord(ws[0]);
    } else if |ws| > 1 {
      var w := ws[0];
      assert IsWord(w);
      var j := Join(ws[1..], " ");
      JoinWordsSingleSpaced(ws[1..]);
      assert IsWord(ws[1]);
      var x := w + " " + j;
      assert Join(ws, " ") == x;
      assert |j| > 0 && j[0] == ws[1][0];
      forall i | 0 <= i < |x| && IsSpace(x[i])
        ensures x[i] == ' '
      {
        if i > |w| {
          assert x[i] == j[i - |w| - 1];
        }
      }
      forall i | 0 <= i < |x| - 1 && x[i] == ' '
        ensures x[i + 1] != ' '
      {
        if i > |w| {
          assert x[i] == j[i - |w| - 1];
          assert x[i + 1] == j[i - |w|];
        }
      }
      assert x[..|w|] == w;
    }
  }

  /** A prefix of a single-spaced string that does not end in a space is single-spaced. */
  lemma PrefixSingleSpaced(x: string, m: nat)
    requires SingleSpaced(x) && m <= |x|
    requires m == 0 || !IsSpace(x[m - 1])
    ensures SingleSpaced(x[..m])
  {
  }

  /** Trimming any prefix of a single-spaced string leaves it single-spaced. */
  lemma TrimPrefixSingleSpaced(x: string, k: nat)
    requires SingleSpaced(x) && k <= |x|
    ensures SingleSpaced(TrimSpace(x[..k]))
  {
    var p := x[..k];
    TrimSpaceOfLeftTrimmed(p);
    var r := TrimRight(p);
    assert r == x[..|r|];
    PrefixSingleSpaced(x, |r|);
  }

  /** A leading space does not change the fields. */
  lemma FieldsSkipSpace(y: string)
    requires y != [] && IsSpace(y[0])
    ensures Fields(y) == Fields(y[1..])
  {
    assert TrimLeft(y) == TrimLeft(y[1..]);
  }

  /** In a single-spaced string the first word is followed by one space and a single-spaced rest. */
  lemma SingleSpacedAfterWord(x: string, n: nat)
    requires SingleSpaced(x) && x != []
    requires n == WordLen(x) && n < |x|
    ensures x[n] == ' ' && n + 1 < |x|
    ensures SingleSpaced(x[n + 1..])
  {
    assert IsSpace(x[n]) && x[n] == ' ';
    assert n != |x| - 1;
    assert !IsSpace(x[n + 1]);
    SuffixSingleSpaced(x, n + 1);
  }

  /** A suffix of a single-spaced string that starts at a non-space is single-spaced. */
  lemma SuffixSingleSpaced(x: string, k: nat)
    requires SingleSpaced(x) && 0 < k < |x| && !IsSpace(x[k])
    ensures SingleSpaced(x[k..])
  {
    var rest := x[k..];
    assert rest[0] == x[k];
    assert rest[|rest| - 1] == x[|x| - 1];
    forall i | 0 <= i < |rest| && IsSpace(rest[i])
      ensures rest[i] == ' '
    {
      assert rest[i] == x[k + i];
    }
    forall i | 0 <= i < |rest| - 1 && rest[i] == ' '
      ensures rest[i + 1] != ' '
    {
      assert rest[i] == x[k + i] && rest[i + 1] == x[k + i + 1];
    }
  }

  lemma JoinCons(w: string, ws: seq<string>, sep: string)
    requires ws != []
    ensures Join([w] + ws, sep) == w + sep + Join(ws, sep)
  {
    assert ([w] + ws)[1..] == ws;
  }

  /** In a single-spaced string with more than one word, Fields peels off the first word and one space. */
  lemma FieldsAfterWord(x: string, n: nat)
    requires SingleSpaced(x) && x != []
    requires n == WordLen(x) && n < |x|
    ensures n + 1 < |x| && SingleSpaced(x[n + 1..])
    ensures Fields(x) == [x[..n]] + Fields(x[n + 1..])
    ensures Fields(x[n + 1..]) != []
    ensures x == x[..n] + " " + x[n + 1..]
  {
    assert Fields(x) == [x[..n]] + Fields(x[n..]) by {
      TrimLeftFixed(x);
    }
    SingleSpacedAfterWord(x, n);
    FieldsSkipSpace(x[n..]);
    SliceOfSuffix(x, n, 1);
    assert Fields(x[n + 1..]) != [] by {
      FieldsEmpty(x[n + 1..]);
      assert !IsSpace(x[n + 1..][0]);
    }
    SplitAt(x, n);
  }

  lemma SplitAt(x: string, n: nat)
    requires n < |x|
    ensures x == x[..n] + [x[n]] + x[n + 1..]
  {
  }

  /** Fields then Join with " " gives a single-spaced string back unchanged. */
  lemma {:induction false} SingleSpacedFields(x: string)
    requires SingleSpaced(x)
    ensures Join(Fields(x), " ") == x
    decreases |x|
  {
    if x != [] {
      TrimLeftFixed(x);
      var n := WordLen(x);
      if n == |x| {
        assert Fields(x) == [x[..n]] + Fields(x[n..]);
        assert x[n..] == [] && x[..n] == x;
        assert Fields(x[n..]) == [];
        assert Fields(x) == [x];
      } else {
        FieldsAfterWord(x, n);
        SingleSpacedFields(x[n + 1..]);
        JoinCons(x[..n], Fields(x[n + 1..]), " ");
      }
    }
  }

  /** Splitting a string whose first separator follows `a` puts `a` first and splits the rest. */
  lemma {:induction false} SplitPrefix(a: string, b: string, sep: char)
    requires sep !in a
    ensures Split(a + [sep] + b, sep) == [a] + Split(b, sep)
  {
    if a == [] {
      assert [sep] + b == a + [sep] + b;
      assert ([sep] + b)[1..] == b;
    } else {
      SplitPrefix(a[1..], b, sep);
      assert (a + [sep] + b)[1..] == a[1..] + [sep] + b;
      assert a == [a[0]] + a[1..];
    }
  }

  lemma SpaceSuffix(s: string, a: nat)
    requires a <= |s| && AllSpace(s[a..])
    ensures forall i :: a <= i < |s| ==> IsSpace(s[i])
  {
    forall i | a <= i < |s|
      ensures IsSpace(s[i])
    {
      assert s[a..][i - a] == s[i];
    }
  }

  lemma {:induction false} LeadingSpacesOfPadded(a: string, rest: string)
    requires AllSpace(a) && rest != [] && !IsSpace(rest[0])
    ensures LeadingSpaces(a + rest) == |a|
  {
    if a != [] {
      assert (a + rest)[1..] == a[1..] + rest;
      LeadingSpacesOfPadded(a[1..], rest);
    }
  }

  /** Spaces either side of a word-bounded string are trimmed away. */
  lemma TrimPadded(a: string, t: string, b: string)
    requires AllSpace(a) && AllSpace(b) && NoEdgeSpace(t) && t != []
    ensures TrimSpace(a + t + b) == t
  {
    var s := a + t + b;
    var r := TrimSpace(s);
    assert s == a + (t + b);
    LeadingSpacesOfPadded(a, t + b);
    TrimPaddedLength(a, t, b);
    assert s[|a|..|a| + |t|] == t;
  }

  lemma TrimPaddedLength(a: string, t: string, b: string)
    requires AllSpace(a) && AllSpace(b) && NoEdgeSpace(t) && t != []
    requires LeadingSpaces(a + t + b) == |a|
    ensures |TrimSpace(a + t + b)| == |t|
  {
    var s := a + t + b;
    var r := TrimSpace(s);
    var n := |a|;
    TrimPaddedAtLeast(s, n, t);
    assert r[|r| - 1] == s[n + |r| - 1];
  }

  /** The trimmed middle reaches at least to the last rune of the non-space core. */
  lemma TrimPaddedAtLeast(s: string, n: nat, t: string)
    requires n + |t| <= |s| && t != [] && !IsSpace(t[|t| - 1]) && s[n..n + |t|] == t
    requires LeadingSpaces(s) == n
    ensures |TrimSpace(s)| >= |t|
  {
    var r := TrimSpace(s);
    TrimSpaceCut(s);
    SpaceSuffix(s, n + |r|);
    assert s[n + |t| - 1] == t[|t| - 1];
  }
}

=== FILE: grid.dfy ===
/**
 * The static arena grid (map.go) and the two wall tests that read it: the
 * server's, on real coordinates, and the client's, on integer cells (app.js).
 */
module Grid {

  /** One row per string; '#' is a wall, anything else is floor. */
  datatype GameMap = GameMap(rows: seq<string>)

  const Wall: char := '#'

  /** Every row has the length of the first one. */
  predicate Rectangular(rows: seq<string>) {
    forall y :: 0 <= y < |rows| ==> |rows[y]| == |rows[0]|
  }

  /** DefaultMap: the single 16 x 11 arena every room plays on. */
  function DefaultMap(): (m: GameMap)
    ensures |m.rows| == 11
    ensures forall y :: 0 <= y < |m.rows| ==> |m.rows[y]| == 16
    ensures Rectangular(m.rows)
  {
    GameMap([
      "################",
      "#..............#",
      "#..####..####..#",
      "#..#......#....#",
      "#..#..##..#..#.#",
      "#......#.......#",
      "#..##..#..##...#",
      "#..#......#....#",
      "#..####..####..#",
      "#..............#",
      "################"
    ])
  }

  /** Go's int(x) on a float64: truncation toward zero. */
  function TruncToInt(x: real): (i: int)
    ensures x >= 0.0 ==> i as real <= x < i as real + 1.0
    ensures x < 0.0 ==> i as real - 1.0 < x <= i as real
  {
    if x >= 0.0 then x.Floor else -((-x).Floor)
  }

  /** Map.IsWall: cells outside the grid count as wall. */
  function IsWall(m: GameMap, x: real, y: real): (w: bool)
    ensures TruncToInt(y) < 0 || TruncToInt(y) >= |m.rows| ==> w
    ensures 0 <= TruncToInt(y) < |m.rows| ==>
      (TruncToInt(x) < 0 || TruncToInt(x) >= |m.rows[TruncToInt(y)]| ==> w)
    ensures 0 <= TruncToInt(y) < |m.rows| && 0 <= TruncToInt(x) < |m.rows[TruncToInt(y)]| ==>
      (w <==> m.rows[TruncToInt(y)][TruncToInt(x)] == Wall)
  {
    var ix := TruncToInt(x);
    var iy := TruncToInt(y);
    if iy < 0 || iy >= |m.rows| then
      true
    else
      var row := m.rows[iy];
      if ix < 0 || ix >= |row| then true else row[ix] == Wall
  }

  /** The client's isWall on integer cells; the column bound is the first row's length. */
  function ClientIsWall(rows: seq<string>, x: int, y: int): (w: bool)
    ensures y < 0 || y >= |rows| ==> w
    ensures 0 <= y < |rows| && (x < 0 || x >= |rows[0]|) ==> w
  {
    if y < 0 || y >= |rows| then true
    else if x < 0 || x >= |rows[0]| then true
    // indexing past the end of a shorter row yields undefined, which is not "#"
    else if x >= |rows[y]| then false
    else rows[y][x] == Wall
  }

  /** On a rectangular grid the client's and the server's wall tests agree on every integer cell. */
  lemma ClientServerAgree(rows: seq<string>, x: int, y: int)
    requires Rectangular(rows)
    ensures ClientIsWall(rows, x, y) == IsWall(GameMap(rows), x as real, y as real)
  {
    assert TruncToInt(x as real) == x;
    assert TruncToInt(y as real) == y;
  }

  /** The server tests the whole unit square [i, i+1) x [j, j+1) by its corner cell. */
  lemma IsWallPerCell(m: GameMap, x: real, y: real)
    requires x >= 0.0 && y >= 0.0
    ensures IsWall(m, x, y) == IsWall(m, x.Floor as real, y.Floor as real)
  {
    assert TruncToInt(x.Floor as real) == x.Floor;
    assert TruncToInt(y.Floor as real) == y.Floor;
  }

  /**
   * Truncation toward zero folds the strip (-1, 0) into cell 0: a point just
   * left of or above the grid is tested against the border cell, not as outside.
   */
  lemma IsWallNegativeStrip(m: GameMap, x: real, y: real)
    requires -1.0 < x < 0.0 && 0.0 <= y
    ensures IsWall(m, x, y) == IsWall(m, 0.0, y)
  {
    assert TruncToInt(x) == 0;
  }

  /** Every border cell of the default map is a wall. */
  lemma DefaultMapBorder()
    ensures forall x :: 0 <= x < 16 ==> DefaultMap().rows[0][x] == Wall && DefaultMap().rows[10][x] == Wall
    ensures forall y :: 0 <= y < 11 ==> DefaultMap().rows[y][0] == Wall && DefaultMap().rows[y][15] == Wall
  {
    var rows := DefaultMap().rows;
    assert rows[0] == "################";
    assert rows[10] == "################";
  }

  /** The default arena is closed: the server sees a wall at every point outside [1,15) x [1,10). */
  lemma DefaultMapClosed(x: real, y: real)
    requires x < 1.0 || x >= 15.0 || y < 1.0 || y >= 10.0
    ensures IsWall(DefaultMap(), x, y)
  {
    DefaultMapBorder();
    var ix := TruncToInt(x);
    var iy := TruncToInt(y);
    if 0 <= iy < 11 && 0 <= ix < 16 {
      assert ix == 0 || ix == 15 || iy == 0 || iy == 10;
    }
  }
}

=== FILE: handshake.dfy ===
/**
 * The opening-handshake checks of Upgrade (ws.go), after section 4.2.1 of
 * RFC 6455: the request must list the "upgrade" token in Connection and the
 * "websocket" token in Upgrade, carry version 13 and a non-blank key.
 * Headers are a map from field name to its list of values; the accept hash
 * (SHA-1, base64) and the socket hijack are not part of this model.
 */
module WsHandshake {
  import opened Wrappers
  import opened GoStrings

  type Header = map<string, seq<string>>

  datatype UpgradeError =
    | MissingConnectionUpgrade
    | MissingUpgradeWebsocket
    | UnsupportedVersion
    | MissingKey

  /** http.Header.Values: every value of the field, none when it is absent. */
  function Values(h: Header, name: string): seq<string> {
    if name in h then h[name] else []
  }

  /** http.Header.Get: the first value, or "" when there is none. */
  function Get(h: Header, name: string): (v: string)
    ensures |Values(h, name)| > 0 ==> v == Values(h, name)[0]
    ensures |Values(h, name)| == 0 ==> v == ""
  {
    var vs := Values(h, name);
    if |vs| == 0 then "" else vs[0]
  }

  /** Some comma-separated element of the value, trimmed, is the token up to case. */
  predicate ValueHasToken(v: string, token: string) {
    exists j :: 0 <= j < |Split(v, ',')| && IsToken(Split(v, ',')[j], token)
  }

  /** One comma-separated element names the token: trimmed, equal up to case. */
  predicate IsToken(part: string, token: string) {
    EqualFold(TrimSpace(part), token)
  }

  /** The inner loop of headerContainsToken over the parts of one value. */
  function PartsContain(parts: seq<string>, token: string): (b: bool)
    ensures b <==> exists j :: 0 <= j < |parts| && IsToken(parts[j], token)
  {
    if parts == [] then false
    else
      PartsShift(parts, token);
      IsToken(parts[0], token) || PartsContain(parts[1..], token)
  }

  /** Some part names the token iff the first does or some later one does. */
  lemma PartsShift(parts: seq<string>, token: string)
    requires parts != []
    ensures (exists j :: 0 <= j < |parts| && IsToken(parts[j], token)) <==>
      (IsToken(parts[0], token) || exists j :: 0 <= j < |parts[1..]| && IsToken(parts[1..][j], token))
  {
    if exists j :: 0 <= j < |parts| && IsToken(parts[j], token) {
      var j :| 0 <= j < |parts| && IsToken(parts[j], token);
      if j > 0 {
        assert parts[1..][j - 1] == parts[j];
      }
    }
    if exists j :: 0 <= j < |parts[1..]| && IsToken(parts[1..][j], token) {
      var j :| 0 <= j < |parts[1..]| && IsToken(parts[1..][j], token);
      assert parts[j + 1] == parts[1..][j];
    }
  }

  /** The outer loop of headerContainsToken over the values of the field. */
  function ValuesContain(values: seq<string>, token: string): (b: bool)
    ensures b <==> exists i :: 0 <= i < |values| && ValueHasToken(values[i], token)
  {
    if values == [] then false
    else if PartsContain(Split(values[0], ','), token) then true
    else
      assert forall i :: 1 <= i < |values| ==> values[i] == values[1..][i - 1];
      ValuesContain(values[1..], token)
  }

  /** headerContainsToken: some comma-separated, trimmed element of some value of the field equals the token, ignoring case. */
  function HeaderContainsToken(h: Header, name: string, token: string): (b: bool)
    ensures b <==> exists i :: 0 <= i < |Values(h, name)| && ValueHasToken(Values(h, name)[i], token)
    ensures name !in h ==> !b
  {
    ValuesContain(Values(h, name), token)
  }

  /** The header checks of Upgrade, in their order; success yields the trimmed key. */
  function CheckUpgrade(h: Header): (r: Result<string, UpgradeError>)
    ensures r.Ok? <==>
      HeaderContainsToken(h, "Connection", "Upgrade") &&
      HeaderContainsToken(h, "Upgrade", "websocket") &&
      Get(h, "Sec-WebSocket-Version") == "13" &&
      !AllSpace(Get(h, "Sec-WebSocket-Key"))
    ensures r == Err(MissingConnectionUpgrade) <==> !HeaderContainsToken(h, "Connection", "Upgrade")
    ensures r == Err(MissingUpgradeWebsocket) <==>
      HeaderContainsToken(h, "Connection", "Upgrade") && !HeaderContainsToken(h, "Upgrade", "websocket")
    ensures r == Err(UnsupportedVersion) <==>
      HeaderContainsToken(h, "Connection", "Upgrade") && HeaderContainsToken(h, "Upgrade", "websocket") &&
      Get(h, "Sec-WebSocket-Version") != "13"
    ensures r == Err(MissingKey) <==>
      HeaderContainsToken(h, "Connection", "Upgrade") && HeaderContainsToken(h, "Upgrade", "websocket") &&
      Get(h, "Sec-WebSocket-Version") == "13" && AllSpace(Get(h, "Sec-WebSocket-Key"))
    ensures r.Ok? ==> r.value != [] && NoEdgeSpace(r.value)
    ensures r.Ok? ==> r.value == TrimSpace(Get(h, "Sec-WebSocket-Key"))
  {
    TrimSpaceEmpty(Get(h, "Sec-WebSocket-Key"));
    if !HeaderContainsToken(h, "Connection", "Upgrade") then Err(MissingConnectionUpgrade)
    else if !HeaderContainsToken(h, "Upgrade", "websocket") then Err(MissingUpgradeWebsocket)
    else if Get(h, "Sec-WebSocket-Version") != "13" then Err(UnsupportedVersion)
    else
      var key := TrimSpace(Get(h, "Sec-WebSocket-Key"));
      if key == "" then Err(MissingKey) else Ok(key)
  }

  /** A value that lists the token among others (any case, padded with spaces) is recognised. */
  lemma TokenInList(h: Header, name: string, before: string, token: string, after: string)
    requires name in h && |h[name]| > 0
    requires h[name][0] == before + "," + " " + token + " " + "," + after
    requires ',' !in before && NoEdgeSpace(token) && token != [] && ',' !in token
    ensures HeaderContainsToken(h, name, token)
  {
    var v := h[name][0];
    var part := " " + token + " ";
    assert v == before + [','] + part + [','] + after;
    SecondPart(before, part, after);
    TrimPadded(" ", token, " ");
    assert IsToken(Split(v, ',')[1], token);
    assert ValueHasToken(Values(h, name)[0], token);
  }

  /** The element between the first two commas is the second part of the split. */
  lemma SecondPart(before: string, part: string, after: string)
    requires ',' !in before && ',' !in part
    ensures var parts := Split(before + [','] + part + [','] + after, ',');
      |parts| >= 2 && parts[1] == part
  {
    SplitPrefix(part, after, ',');
    SplitPrefix(before, part + [','] + after, ',');
    assert before + [','] + part + [','] + after == before + [','] + (part + [','] + after);
  }
}

=== FILE: html.dfy ===
/**
 * escapeHTML in app.js: the five characters with a meaning in HTML markup
 * and attribute values (& < > " ') are replaced by entities, everything else
 * is kept as it is. Room names and ids go through it before being written
 * into the lobby list.
 */
module Html {

  /** The characters escapeHTML replaces. */
  predicate Special(c: char) {
    c == '&' || c == '<' || c == '>' || c == '"' || c == '\''
  }

  /** The replacement of one character. */
  function EscapeChar(c: char): (e: string)
    ensures !Special(c) ==> e == [c]
    ensures Special(c) ==> |e| >= 4 && e[0] == '&' && e[|e| - 1] == ';'
    ensures forall i :: 0 <= i < |e| ==> e[i] != '<' && e[i] != '>' && e[i] != '"' && e[i] != '\''
  {
    match c
    case '&' => "&amp;"
    case '<' => "&lt;"
    case '>' => "&gt;"
    case '"' => "&quot;"
    case '\'' => "&#39;"
    case _ => [c]
  }

  /** Markup-safe text: no character that could open a tag or close an attribute value. */
  predicate Inert(s: string) {
    forall i :: 0 <= i < |s| ==> s[i] != '<' && s[i] != '>' && s[i] != '"' && s[i] != '\''
  }

  /** escapeHTML: each character replaced in place, left to right. */
  function Escape(s: string): (r: string)
    ensures Inert(r)
    ensures |r| >= |s|
    ensures (forall i :: 0 <= i < |s| ==> !Special(s[i])) ==> r == s
  {
    if s == [] then []
    else
      var e := EscapeChar(s[0]);
      var rest := Escape(s[1..]);
      InertAppend(e, rest);
      e + rest
  }

  lemma InertAppend(a: string, b: string)
    requires Inert(a) && Inert(b)
    ensures Inert(a + b)
  {
    assert forall i :: 0 <= i < |a| ==> (a + b)[i] == a[i];
    assert forall i :: |a| <= i < |a| + |b| ==> (a + b)[i] == b[i - |a|];
  }

  /** Reading the entities back: the inverse the browser applies when it parses the text. */
  function Unescape(s: string): string
    decreases |s|
  {
    if s == [] then []
    else if "&amp;" <= s then "&" + Unescape(s[5..])
    else if "&lt;" <= s then "<" + Unescape(s[4..])
    else if "&gt;" <= s then ">" + Unescape(s[4..])
    else if "&quot;" <= s then "\"" + Unescape(s[6..])
    else if "&#39;" <= s then "'" + Unescape(s[5..])
    else [s[0]] + Unescape(s[1..])
  }

  /** One escaped character is read back as itself. */
  lemma UnescapeChar(c: char, t: string)
    ensures Unescape(EscapeChar(c) + t) == [c] + Unescape(t)
  {
    var s := EscapeChar(c) + t;
    if c == '&' {
      assert "&amp;" <= s && s[5..] == t;
    } else if c == '<' {
      assert s[1] == 'l';
      assert "&lt;" <= s && s[4..] == t;
    } else if c == '>' {
      assert s[1] == 'g';
      assert "&gt;" <= s && s[4..] == t;
    } else if c == '"' {
      assert s[1] == 'q';
      assert "&quot;" <= s && s[6..] == t;
    } else if c == '\'' {
      assert s[1] == '#';
      assert "&#39;" <= s && s[5..] == t;
    } else {
      assert s[0] == c && s[1..] == t;
      NoEntity(s);
    }
  }

  /** Text that does not start with '&' starts with no entity. */
  lemma NoEntity(s: string)
    requires s != [] && s[0] != '&'
    ensures !("&amp;" <= s) && !("&lt;" <= s) && !("&gt;" <= s) && !("&quot;" <= s) && !("&#39;" <= s)
  {
    assert "&amp;"[0] == '&' && "&lt;"[0] == '&' && "&gt;"[0] == '&' && "&quot;"[0] == '&' && "&#39;"[0] == '&';
  }

  /** The browser shows exactly the original text: unescaping undoes escaping. */
  lemma {:induction false} EscapeRoundTrip(s: string)
    ensures Unescape(Escape(s)) == s
  {
    if s != [] {
      UnescapeChar(s[0], Escape(s[1..]));
      EscapeRoundTrip(s[1..]);
      assert [s[0]] + s[1..] == s;
    }
  }

  /** Different texts never look the same once escaped. */
  lemma EscapeInjective(a: string, b: string)
    requires Escape(a) == Escape(b)
    ensures a == b
  {
    EscapeRoundTrip(a);
    EscapeRoundTrip(b);
  }
}

=== FILE: hub.dfy ===
/**
 * The lobby hub (hub.go) as sequential transitions over the clients and
 * rooms maps. Each handler returns the new hub and the messages it queues;
 * locks, goroutines, channels and JSON encoding are not modelled.
 *
 * `order` lists player ids in Go's map range order; a handler that ranges
 * over a room's players reads it as that room's range order. Room ids are
 * drawn by the caller (`freshId`) in place of crypto/rand.
 */
module Hub {
  import opened Wrappers
  import Chat
  import GameRoom

  type Room = GameRoom.Room

  /** Client: `name` is empty until hello; `roomId` is empty outside rooms. */
  datatype Client = Client(id: string, name: string, roomId: string)

  datatype Hub = Hub(clients: map<string, Client>, rooms: map<string, Room>)

  /** Decoded client messages, by envelope type. */
  datatype Msg =
    | Hello(name: string)
    | RoomsList
    | RoomCreate(roomName: string)
    | RoomJoin(joinId: string)
    | RoomLeave
    | RoomReady(ready: bool)
    | RoomStart(startScore: Option<int>, startShow: Option<bool>, startText: Option<string>)
    | RoomConfig(configScore: Option<int>, configShow: Option<bool>, configText: Option<string>)
    | InputMsg(input: GameRoom.Input)
    | ChatSend(text: string)
    | Ping(t: int)
    | Unknown(kind: string)

  /** Queued messages: to one client, or to every client of a room, or to the lobby. */
  datatype Event =
    | SendError(to: string, message: string)
    | SendHelloAck(to: string, userId: string, userName: string)
    | SendRooms(to: string)
    | SendRoomState(to: string, stateOf: string)
    | SendPong(to: string, pong: int)
    | BroadcastRoom(roomId: string)
    | BroadcastRooms
    | BroadcastGameStart(startId: string)
    | BroadcastChat(chatRoom: string, fromId: string, fromName: string, line: string)
    | BroadcastGameState(stateRoom: string)
    | BroadcastGameOver(overRoom: string, winnerId: string, winScore: int, rankings: seq<GameRoom.PlayerFrame>)

  datatype Outcome = Outcome(hub: Hub, events: seq<Event>)

  /** `order` names every player of every room. */
  predicate Covers(order: seq<string>, h: Hub) {
    forall r, k :: r in h.rooms && k in h.rooms[r].players ==> k in order
  }

  /**
   * What the hub keeps true: rooms are valid, non-empty and filed under
   * their own id; every player of a room is a connected client whose roomId
   * names that room, and every client with a roomId is a player of that room.
   */
  predicate Valid(h: Hub) {
    ClientsKeyed(h.clients) && RoomsOk(h.rooms) && PlayersAreMembers(h) && MembersArePlayers(h)
  }

  predicate ClientsKeyed(clients: map<string, Client>) {
    forall c :: c in clients ==> clients[c].id == c
  }

  predicate RoomsOk(rooms: map<string, Room>) {
    forall r :: r in rooms ==>
      GameRoom.Valid(rooms[r]) && rooms[r].id == r && r != "" && rooms[r].players != map[]
  }

  predicate PlayersAreMembers(h: Hub) {
    forall r, k :: r in h.rooms && k in h.rooms[r].players ==> k in h.clients && h.clients[k].roomId == r
  }

  predicate MembersArePlayers(h: Hub) {
    forall c :: c in h.clients && h.clients[c].roomId != "" ==>
      h.clients[c].roomId in h.rooms && c in h.rooms[h.clients[c].roomId].players
  }

  /** requireAuthed: a client may use the lobby only after a hello gave it a name. */
  predicate Authed(c: Client) {
    c.name != ""
  }

  /** The message types that the gate does not check: hello, ping and unknown types. */
  predicate Ungated(msg: Msg) {
    msg.Hello? || msg.Ping? || msg.Unknown?
  }

  /**
   * readLoop's dispatch: hello needs a name, every other known type except
   * ping needs a prior hello, and unknown types are answered with an error.
   */
  function Handle(h: Hub, cid: string, msg: Msg, freshId: string, order: seq<string>): (out: Outcome)
    requires cid in h.clients
    requires Covers(order, h)
    ensures !Ungated(msg) && !Authed(h.clients[cid]) ==>
      out == Outcome(h, [SendError(cid, "send hello first")])
    ensures msg == Hello("") ==> out == Outcome(h, [SendError(cid, "name required")])
    ensures msg.Unknown? ==> out == Outcome(h, [SendError(cid, "unknown type")])
    ensures msg.Ping? ==> out == Outcome(h, [SendPong(cid, msg.t)])
    ensures msg.Hello? ==> out == HandleHello(h, cid, msg.name)
    ensures Authed(h.clients[cid]) ==>
      && (msg.RoomsList? ==> out == Outcome(h, [SendRooms(cid)]))
      && (msg.RoomCreate? ==> out == HandleRoomCreate(h, cid, msg.roomName, freshId))
      && (msg.RoomJoin? ==> out == HandleRoomJoin(h, cid, msg.joinId))
      && (msg.RoomLeave? ==> out == HandleRoomLeave(h, h.clients[cid], order))
      && (msg.RoomReady? ==> out == HandleRoomReady(h, cid, msg.ready))
      && (msg.RoomStart? ==> out == HandleRoomStart(h, cid, msg.startScore, msg.startShow, msg.startText, order))
      && (msg.RoomConfig? ==> out == HandleRoomConfig(h, cid, msg.configScore, msg.configShow, msg.configText))
      && (msg.InputMsg? ==> out == HandleInput(h, cid, msg.input))
      && (msg.ChatSend? ==> out == HandleChatSend(h, cid, msg.text))
  {
    var c := h.clients[cid];
    var gate := Outcome(h, [SendError(cid, "send hello first")]);
    match msg
    case Hello(name) => HandleHello(h, cid, name)
    case Ping(t) => Outcome(h, [SendPong(cid, t)])
    case Unknown(_) => Outcome(h, [SendError(cid, "unknown type")])
    case RoomsList => if !Authed(c) then gate else Outcome(h, [SendRooms(cid)])
    case RoomCreate(name) => if !Authed(c) then gate else HandleRoomCreate(h, cid, name, freshId)
    case RoomJoin(roomId) => if !Authed(c) then gate else HandleRoomJoin(h, cid, roomId)
    case RoomLeave => if !Authed(c) then gate else HandleRoomLeave(h, c, order)
    case RoomReady(ready) => if !Authed(c) then gate else HandleRoomReady(h, cid, ready)
    case RoomStart(ws, show, text) => if !Authed(c) then gate else HandleRoomStart(h, cid, ws, show, text, order)
    case RoomConfig(ws, show, text) => if !Authed(c) then gate else HandleRoomConfig(h, cid, ws, show, text)
    case InputMsg(input) => if !Authed(c) then gate else HandleInput(h, cid, input)
    case ChatSend(text) => if !Authed(c) then gate else HandleChatSend(h, cid, text)
  }

  /** hello: an empty name is refused; otherwise the client is named and sent the room list. */
  function HandleHello(h: Hub, cid: string, name: string): (out: Outcome)
    requires cid in h.clients
    ensures name == "" ==> out == Outcome(h, [SendError(cid, "name required")])
    ensures name != "" ==>
      && out.hub.rooms == h.rooms
      && out.hub.clients == h.clients[cid := h.clients[cid].(name := name)]
      && Authed(out.hub.clients[cid])
      && out.events == [SendHelloAck(cid, h.clients[cid].id, name), SendRooms(cid)]
  {
    if name == "" then Outcome(h, [SendError(cid, "name required")])
    else
      var c := h.clients[cid];
      Outcome(h.(clients := h.clients[cid := c.(name := name)]), [SendHelloAck(cid, c.id, name), SendRooms(cid)])
  }

  /**
   * handleRoomCreate: a client already in a room gets an error and no room
   * is added; otherwise a room (named "Room" when no name is given) is
   * created with the client as host and the client joins it.
   */
  function HandleRoomCreate(h: Hub, cid: string, name: string, freshId: string): (out: Outcome)
    requires cid in h.clients
    ensures h.clients[cid].roomId != "" ==> out == Outcome(h, [SendError(cid, "already in room")])
    ensures h.clients[cid].roomId == "" ==>
      var c := h.clients[cid];
      var named := if name == "" then "Room" else name;
      && out.hub.rooms == h.rooms[freshId := GameRoom.AddPlayer(GameRoom.NewRoom(freshId, named, cid), cid, c.name)]
      && out.hub.clients == h.clients[cid := c.(roomId := freshId)]
  {
    var c := h.clients[cid];
    if c.roomId != "" then Outcome(h, [SendError(cid, "already in room")])
    else
      var named := if name == "" then "Room" else name;
      var created := h.(rooms := h.rooms[freshId := GameRoom.NewRoom(freshId, named, cid)]);
      var joined := HandleRoomJoin(created, cid, freshId);
      Outcome(joined.hub, joined.events + [BroadcastRooms])
  }

  /**
   * handleRoomJoin: the room must exist, must not have started, and the
   * client must be in no room; then the client becomes a player of it.
   * Otherwise nothing changes and the first failing check is reported.
   */
  function HandleRoomJoin(h: Hub, cid: string, roomId: string): (out: Outcome)
    requires cid in h.clients
    ensures roomId !in h.rooms ==> out == Outcome(h, [SendError(cid, "room not found")])
    ensures roomId in h.rooms && h.rooms[roomId].started ==>
      out == Outcome(h, [SendError(cid, "room already started")])
    ensures roomId in h.rooms && !h.rooms[roomId].started && h.clients[cid].roomId != "" ==>
      out == Outcome(h, [SendError(cid, "already in room")])
    ensures roomId in h.rooms && !h.rooms[roomId].started && h.clients[cid].roomId == "" ==>
      && out.hub.rooms == h.rooms[roomId := GameRoom.AddPlayer(h.rooms[roomId], cid, h.clients[cid].name)]
      && out.hub.clients == h.clients[cid := h.clients[cid].(roomId := roomId)]
      && cid in out.hub.rooms[roomId].players
      && out.events == [SendRoomState(cid, roomId), BroadcastRoom(roomId), BroadcastRooms]
  {
    if roomId !in h.rooms then Outcome(h, [SendError(cid, "room not found")])
    else
      var room := h.rooms[roomId];
      var c := h.clients[cid];
      if room.started then Outcome(h, [SendError(cid, "room already started")])
      else if c.roomId != "" then Outcome(h, [SendError(cid, "already in room")])
      else
        Outcome(
          Hub(h.clients[cid := c.(roomId := roomId)], h.rooms[roomId := GameRoom.AddPlayer(room, cid, c.name)]),
          [SendRoomState(cid, roomId), BroadcastRoom(roomId), BroadcastRooms])
  }

  /**
   * handleRoomLeave, for the client record `c` (which disconnect has already
   * dropped from the clients map): the player leaves its room, which is
   * deleted exactly when it is left empty. The client's roomId is cleared.
   */
  function HandleRoomLeave(h: Hub, c: Client, order: seq<string>): (out: Outcome)
    requires Covers(order, h)
    ensures c.roomId == "" ==> out == Outcome(h, [])
    ensures c.roomId != "" && c.roomId !in h.rooms ==>
      out == Outcome(h.(clients := Cleared(h.clients, c.id)), [])
    ensures c.roomId != "" && c.roomId in h.rooms ==>
      var left := GameRoom.RemovePlayer(h.rooms[c.roomId], c.id, order);
      && out.hub.clients == Cleared(h.clients, c.id)
      && left.players == h.rooms[c.roomId].players - {c.id}
      && (left.players == map[] ==> out.hub.rooms == h.rooms - {c.roomId})
      && (left.players != map[] ==> out.hub.rooms == h.rooms[c.roomId := left])
      && (c.roomId in out.hub.rooms <==> left.players != map[])
  {
    if c.roomId == "" then Outcome(h, [])
    else if c.roomId !in h.rooms then Outcome(h.(clients := Cleared(h.clients, c.id)), [])
    else
      var left := GameRoom.RemovePlayer(h.rooms[c.roomId], c.id, order);
      var clients := Cleared(h.clients, c.id);
      if left.players == map[] then Outcome(Hub(clients, h.rooms - {c.roomId}), [BroadcastRooms])
      else Outcome(Hub(clients, h.rooms[c.roomId := left]), [BroadcastRoom(c.roomId), BroadcastRooms])
  }

  /** `c.roomId = ""` on the client's record, if it is still connected. */
  function Cleared(clients: map<string, Client>, cid: string): (out: map<string, Client>)
    ensures out.Keys == clients.Keys
    ensures cid !in clients ==> out == clients
    ensures cid in clients ==> out[cid] == clients[cid].(roomId := "")
    ensures forall k :: k in clients && k != cid ==> out[k] == clients[k]
  {
    if cid in clients then clients[cid := clients[cid].(roomId := "")] else clients
  }

  /** disconnect: the client is dropped, then leaves its room. */
  function Disconnect(h: Hub, cid: string, order: seq<string>): (out: Outcome)
    requires cid in h.clients && h.clients[cid].id == cid
    requires Covers(order, h)
    ensures cid !in out.hub.clients
    ensures out.hub.clients == h.clients - {cid}
  {
    HandleRoomLeave(h.(clients := h.clients - {cid}), h.clients[cid], order)
  }

  /** handleRoomReady: sets the client's ready flag in its room, if it has one. */
  function HandleRoomReady(h: Hub, cid: string, ready: bool): (out: Outcome)
    requires cid in h.clients
    ensures h.clients[cid].roomId !in h.rooms ==> out == Outcome(h, [])
    ensures h.clients[cid].roomId in h.rooms ==>
      var roomId := h.clients[cid].roomId;
      && out.hub == h.(rooms := h.rooms[roomId := GameRoom.SetReady(h.rooms[roomId], cid, ready)])
      && out.events == [BroadcastRoom(roomId)]
  {
    var roomId := h.clients[cid].roomId;
    if roomId !in h.rooms then Outcome(h, [])
    else Outcome(h.(rooms := h.rooms[roomId := GameRoom.SetReady(h.rooms[roomId], cid, ready)]), [BroadcastRoom(roomId)])
  }

  /** The first check of handleRoomStart that fails, if any. */
  datatype StartCheck = NoRoom | NotHost | AlreadyStarted | NotAllReady | CanStart

  function CheckStart(h: Hub, cid: string, order: seq<string>): (s: StartCheck)
    requires cid in h.clients
    requires Covers(order, h)
    ensures s == CanStart <==>
      && h.clients[cid].roomId in h.rooms
      && h.rooms[h.clients[cid].roomId].hostId == cid
      && !h.rooms[h.clients[cid].roomId].started
      && h.rooms[h.clients[cid].roomId].players != map[]
      && (forall k :: k in h.rooms[h.clients[cid].roomId].players ==> h.rooms[h.clients[cid].roomId].players[k].ready)
  {
    var roomId := h.clients[cid].roomId;
    if roomId !in h.rooms then NoRoom
    else
      var room := h.rooms[roomId];
      if room.hostId != cid then NotHost
      else if room.started then AlreadyStarted
      else if !GameRoom.AllReady(room, order) then NotAllReady
      else CanStart
  }

  /**
   * handleRoomStart: only the host of a room that has not started and whose
   * players are all ready may start it; the options are applied first.
   */
  function HandleRoomStart(h: Hub, cid: string, ws: Option<int>, show: Option<bool>, text: Option<string>, order: seq<string>): (out: Outcome)
    requires cid in h.clients
    requires Covers(order, h)
    ensures CheckStart(h, cid, order) == NoRoom ==> out == Outcome(h, [])
    ensures CheckStart(h, cid, order) == NotHost ==> out == Outcome(h, [SendError(cid, "only host can start")])
    ensures CheckStart(h, cid, order) == AlreadyStarted ==> out == Outcome(h, [])
    ensures CheckStart(h, cid, order) == NotAllReady ==> out == Outcome(h, [SendError(cid, "everyone must be ready")])
    ensures CheckStart(h, cid, order) == CanStart ==>
      var roomId := h.clients[cid].roomId;
      && out.hub == h.(rooms := h.rooms[roomId := GameRoom.Start(GameRoom.ConfigureForStart(h.rooms[roomId], ws, show, text))])
      && out.hub.rooms[roomId].started
      && out.events == [BroadcastRoom(roomId), BroadcastGameStart(roomId), BroadcastRooms]
    ensures NoGameOver(out.events)
  {
    var roomId := h.clients[cid].roomId;
    var check := CheckStart(h, cid, order);
    var hub := if check == CanStart then
      h.(rooms := h.rooms[roomId := GameRoom.Start(GameRoom.ConfigureForStart(h.rooms[roomId], ws, show, text))])
    else h;
    Outcome(hub, StartEvents(check, cid, roomId))
  }

  /** What handleRoomStart queues for each outcome of its checks: a start is broadcast, never a game over. */
  function StartEvents(check: StartCheck, cid: string, roomId: string): (es: seq<Event>)
    ensures NoGameOver(es)
  {
    match check
    case NoRoom => []
    case NotHost => [SendError(cid, "only host can start")]
    case AlreadyStarted => []
    case NotAllReady => [SendError(cid, "everyone must be ready")]
    case CanStart => [BroadcastRoom(roomId), BroadcastGameStart(roomId), BroadcastRooms]
  }

  /** handleRoomConfig: refused to anyone but the host and once the room has started. */
  function HandleRoomConfig(h: Hub, cid: string, ws: Option<int>, show: Option<bool>, text: Option<string>): (out: Outcome)
    requires cid in h.clients
    ensures h.clients[cid].roomId !in h.rooms ==> out == Outcome(h, [])
    ensures h.clients[cid].roomId in h.rooms ==>
      var roomId := h.clients[cid].roomId;
      var room := h.rooms[roomId];
      && (room.hostId != cid ==> out == Outcome(h, [SendError(cid, "only host can config")]))
      && (room.hostId == cid && room.started ==> out == Outcome(h, [SendError(cid, "room already started")]))
      && (room.hostId == cid && !room.started ==>
            && out.hub == h.(rooms := h.rooms[roomId := GameRoom.ConfigureForStart(room, ws, show, text)])
            && out.events == [BroadcastRoom(roomId), BroadcastRooms])
  {
    var roomId := h.clients[cid].roomId;
    if roomId !in h.rooms then Outcome(h, [])
    else
      var room := h.rooms[roomId];
      if room.hostId != cid then Outcome(h, [SendError(cid, "only host can config")])
      else if room.started then Outcome(h, [SendError(cid, "room already started")])
      else Outcome(h.(rooms := h.rooms[roomId := GameRoom.ConfigureForStart(room, ws, show, text)]), [BroadcastRoom(roomId), BroadcastRooms])
  }

  /** A room that accepts input: it exists, has started and has not finished. */
  predicate Playing(h: Hub, roomId: string) {
    roomId in h.rooms && h.rooms[roomId].started && !h.rooms[roomId].finished
  }

  /** handleInput: applied only while the client's room is being played; silent either way. */
  function HandleInput(h: Hub, cid: string, input: GameRoom.Input): (out: Outcome)
    requires cid in h.clients
    ensures out.events == []
    ensures !Playing(h, h.clients[cid].roomId) ==> out.hub == h
    ensures Playing(h, h.clients[cid].roomId) ==>
      var roomId := h.clients[cid].roomId;
      out.hub == h.(rooms := h.rooms[roomId := GameRoom.SetInput(h.rooms[roomId], cid, input)])
  {
    var roomId := h.clients[cid].roomId;
    if !Playing(h, roomId) then Outcome(h, [])
    else Outcome(h.(rooms := h.rooms[roomId := GameRoom.SetInput(h.rooms[roomId], cid, input)]), [])
  }

  /**
   * handleChatSend: the line is sanitised and dropped when empty; a client
   * outside any room gets an error; otherwise the room hears it.
   */
  function HandleChatSend(h: Hub, cid: string, text: string): (out: Outcome)
    requires cid in h.clients
    ensures out.hub == h
    ensures Chat.SanitizeChat(text) == "" ==> out.events == []
    ensures Chat.SanitizeChat(text) != "" && h.clients[cid].roomId == "" ==>
      out.events == [SendError(cid, "not in room")]
    ensures Chat.SanitizeChat(text) != "" && h.clients[cid].roomId != "" ==>
      var c := h.clients[cid];
      && (c.roomId !in h.rooms ==> out.events == [])
      && (c.roomId in h.rooms ==> out.events == [BroadcastChat(c.roomId, cid, c.name, Chat.SanitizeChat(text))])
  {
    var line := Chat.SanitizeChat(text);
    var c := h.clients[cid];
    if line == "" then Outcome(h, [])
    else if c.roomId == "" then Outcome(h, [SendError(cid, "not in room")])
    else if c.roomId !in h.rooms then Outcome(h, [])
    else Outcome(h, [BroadcastChat(c.roomId, cid, c.name, line)])
  }

  /** One tick of a room's runner: its moves (range order and shot oracle). */
  datatype TickInput = TickInput(order: seq<string>, aim: GameRoom.Aim)

  /** The result of one runner iteration; `running` is false once the runner returns. */
  datatype Step = Step(hub: Hub, events: seq<Event>, running: bool)

  /** A started room after one runner iteration, with what it broadcasts. */
  datatype Advanced = Advanced(room: Room, events: seq<Event>, running: bool)

  /**
   * The body of runRoom's loop for a started room: tick, broadcast the
   * state, and if the match is finished and its game over not yet sent,
   * send it once, set the flag and stop.
   */
  function Advance(room: Room, roomId: string, t: TickInput): (a: Advanced)
    requires room.started && GameRoom.Enumerates(t.order, room.players)
    ensures a.room.players.Keys == room.players.Keys
    ensures a.room.started
    ensures a.room.gameOverSent == (room.gameOverSent || a.room.finished)
    ensures a.running <==> !a.room.finished || room.gameOverSent
    ensures GameOvers(a.events) == (if !room.gameOverSent && a.room.finished then 1 else 0)
  {
    var ticked := GameRoom.Tick(room, t.order, t.aim);
    EnumeratesKeys(t.order, room.players, ticked.players);
    Conclude(ticked, roomId, t.order)
  }

  /** After the tick: broadcast the state, and the game over if it is due. */
  function Conclude(room: Room, roomId: string, order: seq<string>): (a: Advanced)
    requires GameRoom.Enumerates(order, room.players)
    ensures a.room.players.Keys == room.players.Keys
    ensures a.room.started == room.started && a.room.finished == room.finished
    ensures a.room.gameOverSent == (room.gameOverSent || room.finished)
    ensures a.running <==> !room.finished || room.gameOverSent
    ensures GameOvers(a.events) == (if !room.gameOverSent && room.finished then 1 else 0)
  {
    if room.finished && !room.gameOverSent then
      var over := BroadcastGameOver(roomId, room.winnerId, room.winScore, GameRoom.Rankings(room, order));
      GameOversPair(BroadcastGameState(roomId), over);
      Advanced(room.(gameOverSent := true), [BroadcastGameState(roomId), over], false)
    else
      GameOversPair(BroadcastGameState(roomId), BroadcastGameState(roomId));
      Advanced(room, [BroadcastGameState(roomId)], true)
  }

  lemma GameOversPair(e: Event, f: Event)
    requires !e.BroadcastGameOver?
    ensures GameOvers([e]) == 0
    ensures GameOvers([e, f]) == if f.BroadcastGameOver? then 1 else 0
  {
    assert [e][1..] == [] && [f][1..] == [];
    assert [e, f][1..] == [f];
    assert GameOvers([f]) == if f.BroadcastGameOver? then 1 else 0;
  }

  /** One iteration of runRoom: a room that is gone or not started stops the runner. */
  function RoomStep(h: Hub, roomId: string, t: TickInput): (s: Step)
    requires roomId in h.rooms ==> GameRoom.Enumerates(t.order, h.rooms[roomId].players)
    ensures roomId !in h.rooms || !h.rooms[roomId].started ==> s == Step(h, [], false)
    ensures s.hub.clients == h.clients
    ensures roomId in h.rooms && h.rooms[roomId].started ==>
      var a := Advance(h.rooms[roomId], roomId, t);
      s == Step(h.(rooms := h.rooms[roomId := a.room]), a.events, a.running)
  {
    if roomId !in h.rooms || !h.rooms[roomId].started then Step(h, [], false)
    else
      var a := Advance(h.rooms[roomId], roomId, t);
      Step(h.(rooms := h.rooms[roomId := a.room]), a.events, a.running)
  }

  /** The number of game-over broadcasts among `events`. */
  function GameOvers(events: seq<Event>): nat {
    if events == [] then 0
    else (if events[0].BroadcastGameOver? then 1 else 0) + GameOvers(events[1..])
  }

  lemma {:induction false} GameOversAppend(a: seq<Event>, b: seq<Event>)
    ensures GameOvers(a + b) == GameOvers(a) + GameOvers(b)
  {
    if a != [] {
      assert (a + b)[0] == a[0];
      assert (a + b)[1..] == a[1..] + b;
      GameOversAppend(a[1..], b);
    } else {
      assert a + b == b;
    }
  }

  /** Enumerating a map depends only on its keys. */
  lemma EnumeratesKeys(order: seq<string>, m: map<string, GameRoom.Player>, m': map<string, GameRoom.Player>)
    requires m.Keys == m'.Keys && GameRoom.Enumerates(order, m)
    ensures GameRoom.Enumerates(order, m')
  {
    assert forall k :: k in m <==> k in m.Keys;
    assert forall k :: k in m' <==> k in m'.Keys;
  }

  /** The ticks' orders enumerate the room's players, if the room exists. */
  predicate TicksFit(h: Hub, roomId: string, ticks: seq<TickInput>) {
    roomId in h.rooms ==> forall i :: 0 <= i < |ticks| ==> GameRoom.Enumerates(ticks[i].order, h.rooms[roomId].players)
  }

  lemma TicksFitStep(h: Hub, roomId: string, ticks: seq<TickInput>)
    requires ticks != [] && TicksFit(h, roomId, ticks)
    ensures TicksFit(RoomStep(h, roomId, ticks[0]).hub, roomId, ticks[1..])
  {
    var s := RoomStep(h, roomId, ticks[0]);
    if roomId in h.rooms && h.rooms[roomId].started {
      forall i | 0 <= i < |ticks| - 1
        ensures GameRoom.Enumerates(ticks[1..][i].order, s.hub.rooms[roomId].players)
      {
        EnumeratesKeys(ticks[i + 1].order, h.rooms[roomId].players, s.hub.rooms[roomId].players);
      }
    }
  }

  /** runRoom's loop over the given ticks, up to the iteration that stops it. */
  function RunRoom(h: Hub, roomId: string, ticks: seq<TickInput>): (out: Outcome)
    requires TicksFit(h, roomId, ticks)
    ensures out.hub.clients == h.clients
    decreases |ticks|
  {
    if ticks == [] then Outcome(h, [])
    else
      var s := RoomStep(h, roomId, ticks[0]);
      if !s.running then Outcome(s.hub, s.events)
      else
        TicksFitStep(h, roomId, ticks);
        var rest := RunRoom(s.hub, roomId, ticks[1..]);
        Outcome(rest.hub, s.events + rest.events)
  }

  /**
   * game_over is sent at most once per match: over any run of the runner it
   * is sent at most once, and never when the flag was already set.
   */
  lemma {:induction false} GameOverOnce(h: Hub, roomId: string, ticks: seq<TickInput>)
    requires TicksFit(h, roomId, ticks)
    ensures GameOvers(RunRoom(h, roomId, ticks).events) <= 1
    ensures roomId in h.rooms && h.rooms[roomId].gameOverSent ==> GameOvers(RunRoom(h, roomId, ticks).events) == 0
    decreases |ticks|
  {
    if ticks != [] {
      var s := RoomStep(h, roomId, ticks[0]);
      if s.running {
        TicksFitStep(h, roomId, ticks);
        GameOverOnce(s.hub, roomId, ticks[1..]);
        var rest := RunRoom(s.hub, roomId, ticks[1..]);
        GameOversAppend(s.events, rest.events);
        assert GameOvers(s.events) == 0;
      }
    }
  }

  /** Every transition keeps the hub valid, given a room id that is not yet in use. */
  lemma HandleValid(h: Hub, cid: string, msg: Msg, freshId: string, order: seq<string>)
    requires Valid(h) && cid in h.clients && Covers(order, h)
    requires freshId != "" && freshId !in h.rooms
    ensures Valid(Handle(h, cid, msg, freshId, order).hub)
  {
    var c := h.clients[cid];
    match msg
    case Hello(name) => HelloValid(h, cid, name);
    case RoomCreate(name) => if Authed(c) { CreateValid(h, cid, name, freshId); }
    case RoomJoin(roomId) => if Authed(c) { JoinValid(h, cid, roomId); }
    case RoomLeave => if Authed(c) { LeaveValid(h, cid, order); }
    case RoomReady(ready) => if Authed(c) { ReadyValid(h, cid, ready); }
    case RoomStart(ws, show, text) => if Authed(c) { StartValid(h, cid, ws, show, text, order); }
    case RoomConfig(ws, show, text) => if Authed(c) { ConfigValid(h, cid, ws, show, text); }
    case InputMsg(input) => if Authed(c) { InputValid(h, cid, input); }
    case _ =>
  }

  lemma HelloValid(h: Hub, cid: string, name: string)
    requires Valid(h) && cid in h.clients
    ensures Valid(HandleHello(h, cid, name).hub)
  {
  }

  lemma CreateValid(h: Hub, cid: string, name: string, freshId: string)
    requires Valid(h) && cid in h.clients
    requires freshId != "" && freshId !in h.rooms
    ensures Valid(HandleRoomCreate(h, cid, name, freshId).hub)
  {
    var c := h.clients[cid];
    if c.roomId == "" {
      var named := if name == "" then "Room" else name;
      var room := GameRoom.AddPlayer(GameRoom.NewRoom(freshId, named, cid), cid, c.name);
      GameRoom.FoundedRoom(freshId, named, cid, c.name);
      EnteredValid(h, cid, freshId, room);
    }
  }

  lemma JoinValid(h: Hub, cid: string, roomId: string)
    requires Valid(h) && cid in h.clients
    ensures Valid(HandleRoomJoin(h, cid, roomId).hub)
  {
    var c := h.clients[cid];
    if roomId in h.rooms && !h.rooms[roomId].started && c.roomId == "" {
      var room := h.rooms[roomId];
      assert cid !in room.players;
      GameRoom.AddPlayerValid(room, cid, c.name);
      EnteredValid(h, cid, roomId, GameRoom.AddPlayer(room, cid, c.name));
    }
  }

  /** The players a room `q` had before anyone entered it: none when it is new. */
  function PlayersBefore(rooms: map<string, Room>, q: string): set<string> {
    if q in rooms then rooms[q].players.Keys else {}
  }

  /** The roomless client `cid` enters room `q`, which becomes `room` (or is created as it). */
  lemma EnteredValid(h: Hub, cid: string, q: string, room: Room)
    requires Valid(h) && cid in h.clients && h.clients[cid].roomId == ""
    requires q != "" && GameRoom.Valid(room) && room.id == q
    requires room.players.Keys == PlayersBefore(h.rooms, q) + {cid}
    ensures Valid(Hub(h.clients[cid := h.clients[cid].(roomId := q)], h.rooms[q := room]))
  {
    EnteredPlayersAreMembers(h, cid, q, room);
    EnteredMembersArePlayers(h, cid, q, room);
  }

  lemma EnteredPlayersAreMembers(h: Hub, cid: string, q: string, room: Room)
    requires PlayersAreMembers(h) && "" !in h.rooms && cid in h.clients && h.clients[cid].roomId == ""
    requires room.players.Keys == PlayersBefore(h.rooms, q) + {cid}
    ensures PlayersAreMembers(Hub(h.clients[cid := h.clients[cid].(roomId := q)], h.rooms[q := room]))
  {
    var h' := Hub(h.clients[cid := h.clients[cid].(roomId := q)], h.rooms[q := room]);
    forall p, k | p in h'.rooms && k in h'.rooms[p].players
      ensures k in h'.clients && h'.clients[k].roomId == p
    {
      if k != cid {
        assert k in h.rooms[p].players;
        assert h.clients[k].roomId == p;
      }
    }
  }

  lemma EnteredMembersArePlayers(h: Hub, cid: string, q: string, room: Room)
    requires MembersArePlayers(h) && cid in h.clients
    requires room.players.Keys == PlayersBefore(h.rooms, q) + {cid}
    ensures MembersArePlayers(Hub(h.clients[cid := h.clients[cid].(roomId := q)], h.rooms[q := room]))
  {
    var h' := Hub(h.clients[cid := h.clients[cid].(roomId := q)], h.rooms[q := room]);
    forall d | d in h'.clients && h'.clients[d].roomId != ""
      ensures h'.clients[d].roomId in h'.rooms && d in h'.rooms[h'.clients[d].roomId].players
    {
      if d != cid {
        var p := h.clients[d].roomId;
        assert p in h.rooms && d in h.rooms[p].players;
      }
    }
  }

  /** Leaving keeps the hub valid. */
  lemma LeaveValid(h: Hub, cid: string, order: seq<string>)
    requires Valid(h) && cid in h.clients && Covers(order, h)
    ensures Valid(HandleRoomLeave(h, h.clients[cid], order).hub)
  {
    var c := h.clients[cid];
    if c.roomId != "" {
      var room := h.rooms[c.roomId];
      GameRoom.RemovePlayerValid(room, cid, order);
      LeftValid(h, c, Cleared(h.clients, cid), GameRoom.RemovePlayer(room, cid, order));
    }
  }

  /** The rooms after the room `r` lost a player and became `left`: gone when empty. */
  function Dropped(rooms: map<string, Room>, r: string, left: Room): map<string, Room> {
    if left.players == map[] then rooms - {r} else rooms[r := left]
  }

  /**
   * The clients map after client `cid` left its room: `cid` is either gone
   * or has its roomId cleared, and every other client is as before.
   */
  predicate LeftClients(h: Hub, cid: string, clients: map<string, Client>) {
    && clients.Keys <= h.clients.Keys && ClientsKeyed(clients)
    && (cid in clients ==> clients[cid].roomId == "")
    && (forall k :: k in clients && k != cid ==> clients[k] == h.clients[k])
    && (forall k :: k in h.clients && k != cid ==> k in clients)
  }

  /** The player `c` leaves its room, which becomes `left`. */
  lemma LeftValid(h: Hub, c: Client, clients: map<string, Client>, left: Room)
    requires Valid(h) && c.roomId in h.rooms && c.id in h.rooms[c.roomId].players
    requires LeftClients(h, c.id, clients)
    requires GameRoom.Valid(left) && left.id == c.roomId
    requires left.players == h.rooms[c.roomId].players - {c.id}
    ensures Valid(Hub(clients, Dropped(h.rooms, c.roomId, left)))
  {
    LeftPlayersAreMembers(h, c, clients, left);
    LeftMembersArePlayers(h, c, clients, left);
  }

  lemma LeftPlayersAreMembers(h: Hub, c: Client, clients: map<string, Client>, left: Room)
    requires PlayersAreMembers(h) && c.roomId in h.rooms && c.id in h.rooms[c.roomId].players
    requires LeftClients(h, c.id, clients)
    requires left.players == h.rooms[c.roomId].players - {c.id}
    ensures PlayersAreMembers(Hub(clients, Dropped(h.rooms, c.roomId, left)))
  {
    var h' := Hub(clients, Dropped(h.rooms, c.roomId, left));
    forall q, k | q in h'.rooms && k in h'.rooms[q].players
      ensures k in h'.clients && h'.clients[k].roomId == q
    {
      assert k in h.rooms[q].players;
      assert h.clients[k].roomId == q;
    }
  }

  lemma LeftMembersArePlayers(h: Hub, c: Client, clients: map<string, Client>, left: Room)
    requires MembersArePlayers(h) && c.roomId in h.rooms
    requires LeftClients(h, c.id, clients)
    requires left.players == h.rooms[c.roomId].players - {c.id}
    ensures MembersArePlayers(Hub(clients, Dropped(h.rooms, c.roomId, left)))
  {
    var h' := Hub(clients, Dropped(h.rooms, c.roomId, left));
    forall d | d in h'.clients && h'.clients[d].roomId != ""
      ensures h'.clients[d].roomId in h'.rooms && d in h'.rooms[h'.clients[d].roomId].players
    {
      var q := h.clients[d].roomId;
      assert d != c.id && q in h.rooms && d in h.rooms[q].players;
      assert q == c.roomId ==> d in left.players;
    }
  }

  /** Replacing a room by a valid one with the same players keeps the hub valid. */
  lemma ReplaceRoomValid(h: Hub, r: string, room: Room)
    requires Valid(h) && r in h.rooms
    requires GameRoom.Valid(room) && room.id == r && room.players.Keys == h.rooms[r].players.Keys
    ensures Valid(h.(rooms := h.rooms[r := room]))
  {
    ReplacedPlayersAreMembers(h, r, room);
    ReplacedMembersArePlayers(h, r, room);
  }

  lemma ReplacedPlayersAreMembers(h: Hub, r: string, room: Room)
    requires PlayersAreMembers(h) && r in h.rooms
    requires room.players.Keys == h.rooms[r].players.Keys
    ensures PlayersAreMembers(h.(rooms := h.rooms[r := room]))
  {
    var h' := h.(rooms := h.rooms[r := room]);
    forall q, k | q in h'.rooms && k in h'.rooms[q].players
      ensures k in h'.clients && h'.clients[k].roomId == q
    {
      assert k in h.rooms[q].players;
    }
  }

  lemma ReplacedMembersArePlayers(h: Hub, r: string, room: Room)
    requires MembersArePlayers(h) && r in h.rooms
    requires room.players.Keys == h.rooms[r].players.Keys
    ensures MembersArePlayers(h.(rooms := h.rooms[r := room]))
  {
    var h' := h.(rooms := h.rooms[r := room]);
    forall c | c in h'.clients && h'.clients[c].roomId != ""
      ensures h'.clients[c].roomId in h'.rooms && c in h'.rooms[h'.clients[c].roomId].players
    {
      assert c in h.rooms[h.clients[c].roomId].players;
    }
  }

  lemma ReadyValid(h: Hub, cid: string, ready: bool)
    requires Valid(h) && cid in h.clients
    ensures Valid(HandleRoomReady(h, cid, ready).hub)
  {
    var roomId := h.clients[cid].roomId;
    if roomId in h.rooms {
      GameRoom.SetReadyValid(h.rooms[roomId], cid, ready);
      ReplaceRoomValid(h, roomId, GameRoom.SetReady(h.rooms[roomId], cid, ready));
    }
  }

  lemma StartValid(h: Hub, cid: string, ws: Option<int>, show: Option<bool>, text: Option<string>, order: seq<string>)
    requires Valid(h) && cid in h.clients && Covers(order, h)
    ensures Valid(HandleRoomStart(h, cid, ws, show, text, order).hub)
  {
    if CheckStart(h, cid, order) == CanStart {
      var roomId := h.clients[cid].roomId;
      var configured := GameRoom.ConfigureForStart(h.rooms[roomId], ws, show, text);
      GameRoom.ConfigureForStartValid(h.rooms[roomId], ws, show, text);
      GameRoom.StartValid(configured);
      ReplaceRoomValid(h, roomId, GameRoom.Start(configured));
    }
  }

  lemma ConfigValid(h: Hub, cid: string, ws: Option<int>, show: Option<bool>, text: Option<string>)
    requires Valid(h) && cid in h.clients
    ensures Valid(HandleRoomConfig(h, cid, ws, show, text).hub)
  {
    var roomId := h.clients[cid].roomId;
    if roomId in h.rooms && h.rooms[roomId].hostId == cid && !h.rooms[roomId].started {
      GameRoom.ConfigureForStartValid(h.rooms[roomId], ws, show, text);
      ReplaceRoomValid(h, roomId, GameRoom.ConfigureForStart(h.rooms[roomId], ws, show, text));
    }
  }

  lemma InputValid(h: Hub, cid: string, input: GameRoom.Input)
    requires Valid(h) && cid in h.clients
    ensures Valid(HandleInput(h, cid, input).hub)
  {
    var roomId := h.clients[cid].roomId;
    if Playing(h, roomId) {
      GameRoom.SetInputValid(h.rooms[roomId], cid, input);
      ReplaceRoomValid(h, roomId, GameRoom.SetInput(h.rooms[roomId], cid, input));
    }
  }

  lemma DisconnectValid(h: Hub, cid: string, order: seq<string>)
    requires Valid(h) && cid in h.clients && Covers(order, h)
    ensures Valid(Disconnect(h, cid, order).hub)
  {
    var c := h.clients[cid];
    if c.roomId == "" {
      RoomlessDroppedValid(h, cid);
    } else {
      var room := h.rooms[c.roomId];
      GameRoom.RemovePlayerValid(room, cid, order);
      LeftValid(h, c, h.clients - {cid}, GameRoom.RemovePlayer(room, cid, order));
    }
  }

  /** Dropping a client that is in no room keeps the hub valid. */
  lemma RoomlessDroppedValid(h: Hub, cid: string)
    requires Valid(h) && cid in h.clients && h.clients[cid].roomId == ""
    ensures Valid(h.(clients := h.clients - {cid}))
  {
    RoomlessDroppedMembers(h, cid);
  }

  lemma RoomlessDroppedMembers(h: Hub, cid: string)
    requires PlayersAreMembers(h) && "" !in h.rooms && cid in h.clients && h.clients[cid].roomId == ""
    ensures PlayersAreMembers(h.(clients := h.clients - {cid}))
  {
    var dropped := h.(clients := h.clients - {cid});
    forall q, k | q in h.rooms && k in h.rooms[q].players
      ensures k in dropped.clients && dropped.clients[k].roomId == q
    {
      assert h.clients[k].roomId == q;
    }
  }

  /** A runner iteration keeps the hub valid. */
  lemma RoomStepValid(h: Hub, roomId: string, t: TickInput)
    requires Valid(h)
    requires roomId in h.rooms ==> GameRoom.Enumerates(t.order, h.rooms[roomId].players)
    ensures Valid(RoomStep(h, roomId, t).hub)
  {
    if roomId in h.rooms && h.rooms[roomId].started {
      var room := h.rooms[roomId];
      GameRoom.TickValid(room, t.order, t.aim);
      var ticked := GameRoom.Tick(room, t.order, t.aim);
      EnumeratesKeys(t.order, room.players, ticked.players);
      var a := Conclude(ticked, roomId, t.order);
      assert GameRoom.Valid(a.room);
      ReplaceRoomValid(h, roomId, a.room);
    }
  }

  /**
   * The room `q` is done with game overs: it is gone, or it has started and
   * has sent its game over. Nothing brings such a room back to a state in
   * which a game over could be sent again.
   */
  predicate Settled(h: Hub, q: string) {
    q !in h.rooms || (h.rooms[q].started && h.rooms[q].gameOverSent)
  }

  /** None of the events is a game over. */
  predicate NoGameOver(events: seq<Event>) {
    forall i :: 0 <= i < |events| ==> !events[i].BroadcastGameOver?
  }

  lemma {:induction false} NoGameOverCount(events: seq<Event>)
    requires NoGameOver(events)
    ensures GameOvers(events) == 0
  {
    if events != [] {
      assert forall i :: 0 <= i < |events| - 1 ==> events[1..][i] == events[i + 1];
      NoGameOverCount(events[1..]);
    }
  }

  /**
   * A handled message never broadcasts a game over, and leaves a settled
   * room settled, provided the room id a create may use is not `q`: a
   * started room can be neither joined, configured nor started again, and
   * the other handlers keep its match state or delete it.
   */
  lemma HandleSettled(h: Hub, cid: string, msg: Msg, freshId: string, order: seq<string>, q: string)
    requires cid in h.clients && Covers(order, h) && freshId != q
    ensures NoGameOver(Handle(h, cid, msg, freshId, order).events)
    ensures Settled(h, q) ==> Settled(Handle(h, cid, msg, freshId, order).hub, q)
  {
    var c := h.clients[cid];
    if Authed(c) {
      match msg
      case RoomCreate(name) => CreateSettled(h, cid, name, freshId, q);
      case RoomJoin(j) => JoinSettled(h, cid, j, q);
      case RoomLeave => LeaveSettled(h, c, order, q);
      case RoomReady(ready) => ReadySettled(h, cid, ready, q);
      case RoomStart(ws, show, text) =>
        StartSettled(h, cid, ws, show, text, order, q);
      case RoomConfig(ws, show, text) =>
      case InputMsg(input) => InputSettled(h, cid, input, q);
      case _ =>
    }
  }

  /** A create adds a room under a fresh id and touches no other room. */
  lemma CreateSettled(h: Hub, cid: string, name: string, freshId: string, q: string)
    requires cid in h.clients && freshId != q
    ensures NoGameOver(HandleRoomCreate(h, cid, name, freshId).events)
    ensures Settled(h, q) ==> Settled(HandleRoomCreate(h, cid, name, freshId).hub, q)
  {
  }

  /** A started room cannot be joined. */
  lemma JoinSettled(h: Hub, cid: string, j: string, q: string)
    requires cid in h.clients
    ensures NoGameOver(HandleRoomJoin(h, cid, j).events)
    ensures Settled(h, q) ==> Settled(HandleRoomJoin(h, cid, j).hub, q)
  {
  }

  lemma ReadySettled(h: Hub, cid: string, ready: bool, q: string)
    requires cid in h.clients
    ensures NoGameOver(HandleRoomReady(h, cid, ready).events)
    ensures Settled(h, q) ==> Settled(HandleRoomReady(h, cid, ready).hub, q)
  {
    var roomId := h.clients[cid].roomId;
    if roomId in h.rooms {
      assert GameRoom.Match(GameRoom.SetReady(h.rooms[roomId], cid, ready)) == GameRoom.Match(h.rooms[roomId]);
    }
  }

  /** Only a room that has not started can be started. */
  lemma StartSettled(h: Hub, cid: string, ws: Option<int>, show: Option<bool>, text: Option<string>, order: seq<string>, q: string)
    requires cid in h.clients && Covers(order, h)
    ensures Settled(h, q) ==> Settled(HandleRoomStart(h, cid, ws, show, text, order).hub, q)
  {
    if CheckStart(h, cid, order) == CanStart {
      var roomId := h.clients[cid].roomId;
      StartedRoomFresh(h, roomId, GameRoom.Start(GameRoom.ConfigureForStart(h.rooms[roomId], ws, show, text)), q);
    }
  }

  /** Replacing a room that had not started leaves every settled room settled. */
  lemma StartedRoomFresh(h: Hub, roomId: string, room: Room, q: string)
    requires roomId in h.rooms && !h.rooms[roomId].started
    ensures Settled(h, q) ==> Settled(h.(rooms := h.rooms[roomId := room]), q)
  {
  }

  lemma InputSettled(h: Hub, cid: string, input: GameRoom.Input, q: string)
    requires cid in h.clients
    ensures NoGameOver(HandleInput(h, cid, input).events)
    ensures Settled(h, q) ==> Settled(HandleInput(h, cid, input).hub, q)
  {
    var roomId := h.clients[cid].roomId;
    if Playing(h, roomId) {
      assert GameRoom.Match(GameRoom.SetInput(h.rooms[roomId], cid, input)) == GameRoom.Match(h.rooms[roomId]);
    }
  }

  /** Leaving a room keeps its match state or deletes it, and broadcasts no game over. */
  lemma LeaveSettled(h: Hub, c: Client, order: seq<string>, q: string)
    requires Covers(order, h)
    ensures NoGameOver(HandleRoomLeave(h, c, order).events)
    ensures Settled(h, q) ==> Settled(HandleRoomLeave(h, c, order).hub, q)
  {
    if c.roomId != "" && c.roomId in h.rooms {
      var room := h.rooms[c.roomId];
      assert GameRoom.Match(GameRoom.RemovePlayer(room, c.id, order)) == GameRoom.Match(room);
    }
  }

  /** A disconnect broadcasts no game over and leaves a settled room settled. */
  lemma DisconnectSettled(h: Hub, cid: string, order: seq<string>, q: string)
    requires cid in h.clients && h.clients[cid].id == cid && Covers(order, h)
    ensures NoGameOver(Disconnect(h, cid, order).events)
    ensures Settled(h, q) ==> Settled(Disconnect(h, cid, order).hub, q)
  {
    LeaveSettled(h.(clients := h.clients - {cid}), h.clients[cid], order, q);
  }

  /** A runner iteration sends at most one game over, and only as the one that settles the room. */
  lemma RoomStepSettled(h: Hub, q: string, t: TickInput)
    requires q in h.rooms ==> GameRoom.Enumerates(t.order, h.rooms[q].players)
    ensures GameOvers(RoomStep(h, q, t).events) <= 1
    ensures GameOvers(RoomStep(h, q, t).events) == 1 ==> Settled(RoomStep(h, q, t).hub, q)
    ensures Settled(h, q) ==> Settled(RoomStep(h, q, t).hub, q) && GameOvers(RoomStep(h, q, t).events) == 0
  {
    if q !in h.rooms || !h.rooms[q].started {
      assert GameOvers([]) == 0;
    }
  }

  /**
   * What can happen to the hub while room `q` has a runner: a runner
   * iteration for `q`, a message from a client, or a client's disconnect.
   * They run one at a time under the hub's lock, in any order.
   */
  datatype Action =
    | RunnerTick(t: TickInput)
    | ClientMsg(cid: string, msg: Msg, freshId: string, order: seq<string>)
    | ClientGone(gone: string, goneOrder: seq<string>)

  /**
   * One action. An action whose caller's conditions fail (an unknown
   * client, a range order that misses a player) cannot happen and does
   * nothing here.
   */
  function Act(h: Hub, q: string, a: Action): Outcome {
    match a
    case RunnerTick(t) =>
      if q in h.rooms ==> GameRoom.Enumerates(t.order, h.rooms[q].players) then
        var s := RoomStep(h, q, t);
        Outcome(s.hub, s.events)
      else Outcome(h, [])
    case ClientMsg(cid, msg, freshId, order) =>
      if cid in h.clients && Covers(order, h) then Handle(h, cid, msg, freshId, order) else Outcome(h, [])
    case ClientGone(cid, order) =>
      if cid in h.clients && h.clients[cid].id == cid && Covers(order, h) then Disconnect(h, cid, order)
      else Outcome(h, [])
  }

  /** A schedule of actions, in order, with every message they queue. */
  function Run(h: Hub, q: string, acts: seq<Action>): Outcome
    decreases |acts|
  {
    if acts == [] then Outcome(h, [])
    else
      var o := Act(h, q, acts[0]);
      var rest := Run(o.hub, q, acts[1..]);
      Outcome(rest.hub, o.events + rest.events)
  }

  /** Creates in the schedule never reuse `q`: room ids from crypto/rand are fresh. */
  predicate FreshIds(q: string, acts: seq<Action>) {
    forall i :: 0 <= i < |acts| && acts[i].ClientMsg? ==> acts[i].freshId != q
  }

  lemma ActSettled(h: Hub, q: string, a: Action)
    requires a.ClientMsg? ==> a.freshId != q
    ensures GameOvers(Act(h, q, a).events) <= 1
    ensures GameOvers(Act(h, q, a).events) == 1 ==> Settled(Act(h, q, a).hub, q)
    ensures Settled(h, q) ==> Settled(Act(h, q, a).hub, q) && GameOvers(Act(h, q, a).events) == 0
  {
    var o := Act(h, q, a);
    match a
    case RunnerTick(t) =>
      if q in h.rooms ==> GameRoom.Enumerates(t.order, h.rooms[q].players) {
        RoomStepSettled(h, q, t);
      } else {
        assert GameOvers([]) == 0;
      }
    case ClientMsg(cid, msg, freshId, order) =>
      if cid in h.clients && Covers(order, h) {
        HandleSettled(h, cid, msg, freshId, order, q);
        NoGameOverCount(o.events);
      } else {
        assert GameOvers([]) == 0;
      }
    case ClientGone(cid, order) =>
      if cid in h.clients && h.clients[cid].id == cid && Covers(order, h) {
        DisconnectSettled(h, cid, order, q);
        NoGameOverCount(o.events);
      } else {
        assert GameOvers([]) == 0;
      }
  }

  /**
   * game_over is sent at most once per match, however runner iterations,
   * client messages and disconnects interleave: at most once over any
   * schedule, and never once the room is settled.
   */
  lemma {:induction false} GameOverOncePerMatch(h: Hub, q: string, acts: seq<Action>)
    requires FreshIds(q, acts)
    ensures GameOvers(Run(h, q, acts).events) <= 1
    ensures Settled(h, q) ==> GameOvers(Run(h, q, acts).events) == 0
    decreases |acts|
  {
    if acts == [] {
      assert GameOvers([]) == 0;
    } else {
      var o := Act(h, q, acts[0]);
      var rest := Run(o.hub, q, acts[1..]);
      ActSettled(h, q, acts[0]);
      assert FreshIds(q, acts[1..]) by {
        assert forall i :: 0 <= i < |acts| - 1 ==> acts[1..][i] == acts[i + 1];
      }
      GameOverOncePerMatch(o.hub, q, acts[1..]);
      GameOversAppend(o.events, rest.events);
    }
  }
}

=== FILE: input.dfy ===
/**
 * The client's per-tick input upload (the send loop of startGameLoops in
 * app.js) and the pointer handlers that feed it. Mouse movement while the
 * pointer is locked adds to an accumulated turn; a left click while locked
 * sets a shoot edge; W, S, A and D press and release the movement keys,
 * except that a keydown in the chat input or with the menu open is ignored; opening the chat or
 * the menu releases the movement keys and drops the accumulated turn. Every tick sends the keys, the
 * accumulated turn and the shoot edge, and resets the turn to 0 and the
 * edge to false. A sent shot also raises the local shot effects.
 */
module InputDrain {
  import opened Effects

  datatype Input = Input(forward: bool, back: bool, left: bool, right: bool, turnAccum: real, shootEdge: bool)

  /** The `input` message of one tick. */
  datatype InputMsg = InputMsg(forward: bool, back: bool, left: bool, right: bool, turn: real, shoot: bool)

  /** What happens between two ticks. */
  datatype Event =
    | MouseMove(locked: bool, movementX: real, sens: real)
    | MouseDown(locked: bool, button: int)
    /**
     * keydown: `blocked` when the chat input has focus or the menu is open,
     * in which case the handler returns before the movement keys
     * (app.js:1686-1688, 1699-1701).
     */
    | KeyDown(blocked: bool, code: string)
    /** keyup: not gated on typing, so a key released in the chat input is still released. */
    | KeyUp(code: string)
    /**
     * A panel that actually opens: openChat when the chat input exists
     * (app.js:1758), or openMenu when the menu exists and the game-over
     * screen is hidden (app.js:1776-1777). A call that returns early is no event at all.
     */
    | OpenPanel

  /** The turn sensitivity: `(settings.sens) || 10`, so a zero setting means 10. */
  function Sensitivity(sens: real): (s: real)
    ensures s != 0.0
  {
    if sens == 0.0 then 10.0 else sens
  }

  /** The turn one locked mouse movement contributes. */
  function TurnOf(movementX: real, sens: real): real {
    movementX * (0.0012 + Sensitivity(sens) * 0.00022)
  }

  /** The movement key a key code drives: W, S, A and D. */
  predicate IsMoveKey(code: string) {
    code == "KeyW" || code == "KeyS" || code == "KeyA" || code == "KeyD"
  }

  /** The held flag of key `code` in `inp`. */
  function KeyFlag(inp: Input, code: string): bool
    requires IsMoveKey(code)
  {
    if code == "KeyW" then inp.forward
    else if code == "KeyS" then inp.back
    else if code == "KeyA" then inp.left
    else inp.right
  }

  /** `inp` with the flag of key `code` set to `down`; other codes change nothing. */
  function SetKey(inp: Input, code: string, down: bool): (r: Input)
    ensures r.turnAccum == inp.turnAccum && r.shootEdge == inp.shootEdge
    ensures forall k :: IsMoveKey(k) ==> KeyFlag(r, k) == (if k == code then down else KeyFlag(inp, k))
    ensures !IsMoveKey(code) ==> r == inp
  {
    if code == "KeyW" then inp.(forward := down)
    else if code == "KeyS" then inp.(back := down)
    else if code == "KeyA" then inp.(left := down)
    else if code == "KeyD" then inp.(right := down)
    else inp
  }

  function OnEvent(inp: Input, e: Event): (r: Input)
    ensures r.shootEdge == (inp.shootEdge || (e.MouseDown? && e.locked && e.button == 0))
  {
    match e
    case MouseMove(locked, dx, sens) =>
      if locked then inp.(turnAccum := inp.turnAccum + TurnOf(dx, sens)) else inp
    case MouseDown(locked, button) =>
      if button == 0 && locked then inp.(shootEdge := true) else inp
    case OpenPanel =>
      inp.(forward := false, back := false, left := false, right := false, turnAccum := 0.0)
    case KeyDown(blocked, code) => if blocked then inp else SetKey(inp, code, true)
    case KeyUp(code) => SetKey(inp, code, false)
  }

  /** The events between two ticks, oldest first. */
  function OnEvents(inp: Input, es: seq<Event>): Input
    decreases |es|
  {
    if es == [] then inp else OnEvent(OnEvents(inp, es[..|es| - 1]), es[|es| - 1])
  }

  /** The turn that reaches the next message: locked movements since the last panel opening. */
  function TurnSince(start: real, es: seq<Event>): real
    decreases |es|
  {
    if es == [] then start
    else
      var e := es[|es| - 1];
      var before := TurnSince(start, es[..|es| - 1]);
      match e
      case OpenPanel => 0.0
      case MouseMove(locked, dx, sens) => if locked then before + TurnOf(dx, sens) else before
      case _ => before
  }

  /**
   * Whether movement key `code` is held after the events: the last event
   * that touches it decides (an unblocked keydown presses it, a
   * keyup or an opened panel releases it), and `start` when none does.
   */
  function HeldAfter(start: bool, code: string, es: seq<Event>): bool
    decreases |es|
  {
    if es == [] then start
    else
      var e := es[|es| - 1];
      var before := HeldAfter(start, code, es[..|es| - 1]);
      match e
      case OpenPanel => false
      case KeyDown(blocked, c) => if !blocked && c == code then true else before
      case KeyUp(c) => if c == code then false else before
      case _ => before
  }

  /** The movement flags follow the key events. */
  lemma {:induction false} KeysFollow(inp: Input, es: seq<Event>, code: string)
    requires IsMoveKey(code)
    ensures KeyFlag(OnEvents(inp, es), code) == HeldAfter(KeyFlag(inp, code), code, es)
    decreases |es|
  {
    if es != [] {
      KeysFollow(inp, es[..|es| - 1], code);
    }
  }

  /** Some locked left click happened. */
  predicate Clicked(es: seq<Event>) {
    exists i :: 0 <= i < |es| && es[i].MouseDown? && es[i].locked && es[i].button == 0
  }

  /** The accumulated turn and the shoot edge follow the events. */
  lemma {:induction false} EventsAccumulate(inp: Input, es: seq<Event>)
    ensures OnEvents(inp, es).turnAccum == TurnSince(inp.turnAccum, es)
    ensures OnEvents(inp, es).shootEdge == (inp.shootEdge || Clicked(es))
    decreases |es|
  {
    if es != [] {
      var init := es[..|es| - 1];
      EventsAccumulate(inp, init);
      assert forall i :: 0 <= i < |init| ==> init[i] == es[i];
      if Clicked(es) && !Clicked(init) {
        assert es[|es| - 1].MouseDown? && es[|es| - 1].locked && es[|es| - 1].button == 0;
      }
    }
  }

  /** One tick of the send loop: the message sent and the input left behind. */
  function Drain(inp: Input): (out: (Input, InputMsg))
    ensures out.1.turn == inp.turnAccum && out.1.shoot == inp.shootEdge
    ensures out.1.forward == inp.forward && out.1.back == inp.back
      && out.1.left == inp.left && out.1.right == inp.right
    ensures out.0 == inp.(turnAccum := 0.0, shootEdge := false)
  {
    (inp.(turnAccum := 0.0, shootEdge := false),
     InputMsg(inp.forward, inp.back, inp.left, inp.right, inp.turnAccum, inp.shootEdge))
  }

  /**
   * Nothing is lost or sent twice: the message of a tick carries exactly the
   * locked movements since the previous tick (or since the last panel
   * opening), and shoots exactly when there was a locked left click.
   */
  lemma TickCarriesEvents(inp: Input, es: seq<Event>)
    ensures var msg := Drain(OnEvents(Drain(inp).0, es)).1;
      msg.turn == TurnSince(0.0, es) && msg.shoot == Clicked(es)
  {
    EventsAccumulate(Drain(inp).0, es);
  }

  /** A tick without events in between sends no turn and no shot. */
  lemma QuietTick(inp: Input)
    ensures var msg := Drain(Drain(inp).0).1;
      msg.turn == 0.0 && !msg.shoot
  {
  }

  /** The send loop's effects: a sent shot sets the shot time and the muzzle flash and shake. */
  function SendTick(inp: Input, fx: Fx, lastShotAt: real, now: real): (out: (Input, InputMsg, Fx, real))
    ensures out.0 == Drain(inp).0 && out.1 == Drain(inp).1
    ensures out.1.shoot ==> out.2.fireT == 1.0 && out.2.shake >= ShotShake && out.3 == now
    ensures !out.1.shoot ==> out.2 == fx && out.3 == lastShotAt
  {
    var (rest, msg) := Drain(inp);
    if msg.shoot then (rest, msg, OnShot(fx), now) else (rest, msg, fx, lastShotAt)
  }
}

=== FILE: particles.dfy ===
/**
 * The client's particle list (tickParticles and spawnParticles in app.js).
 * A step ages every particle by one frame, moves it by its velocity and
 * damps the velocity by 0.92, then drops the dead ones; a spawn appends a
 * burst of 14 particles for a hit and 8 for a shot. The random draws and the
 * cosine and sine of each random angle are parameters.
 */
module Particles {

  datatype Particle = Particle(x: real, y: real, vx: real, vy: real, life: int, hitColour: bool)

  const Damping: real := 0.92

  /** One frame of one particle. */
  function StepParticle(p: Particle): (q: Particle)
    ensures q.life == p.life - 1
    ensures q.x == p.x + p.vx && q.y == p.y + p.vy
    ensures q.vx == p.vx * Damping && q.vy == p.vy * Damping
    ensures q.hitColour == p.hitColour
  {
    Particle(p.x + p.vx, p.y + p.vy, p.vx * Damping, p.vy * Damping, p.life - 1, p.hitColour)
  }

  /** tickParticles: step every particle, keep those with life left, in their order. */
  function Tick(ps: seq<Particle>): (out: seq<Particle>)
    ensures |out| <= |ps|
    ensures forall i :: 0 <= i < |out| ==> out[i].life > 0
  {
    if ps == [] then []
    else
      var q := StepParticle(ps[0]);
      var rest := Tick(ps[1..]);
      if q.life > 0 then [q] + rest else rest
  }

  /** A particle comes out of a step exactly as the stepped form of one that had more than one frame left. */
  lemma {:induction false} TickExactly(ps: seq<Particle>, q: Particle)
    ensures q in Tick(ps) <==> exists p :: p in ps && p.life > 1 && q == StepParticle(p)
  {
    if ps != [] {
      TickExactly(ps[1..], q);
      assert forall p :: p in ps <==> p == ps[0] || p in ps[1..];
    }
  }

  /** The particles that survive a step, counted. */
  function Survivors(ps: seq<Particle>): nat {
    if ps == [] then 0 else (if ps[0].life > 1 then 1 else 0) + Survivors(ps[1..])
  }

  /** A step keeps exactly the particles that had more than one frame left. */
  lemma {:induction false} TickCount(ps: seq<Particle>)
    ensures |Tick(ps)| == Survivors(ps)
  {
    if ps != [] {
      TickCount(ps[1..]);
    }
  }

  /** One particle's random draws: Math.random() values and the cosine and sine of its random angle. */
  datatype Draw = Draw(cos: real, sin: real, speed: real, dx: real, dy: real, life: real)

  predicate Unit(r: real) {
    0.0 <= r < 1.0
  }

  predicate DrawOk(d: Draw) {
    Unit(d.speed) && Unit(d.dx) && Unit(d.dy) && Unit(d.life)
  }

  /** A hit burst has 14 particles, any other burst 8. */
  function BurstSize(kind: string): nat {
    if kind == "hit" then 14 else 8
  }

  /** One spawned particle around the screen centre (cx, cy). */
  function Spawned(kind: string, cx: int, cy: int, d: Draw): (p: Particle)
    requires DrawOk(d)
    ensures 14 <= p.life <= 23
    ensures cx as real - 2.0 <= p.x <= cx as real + 2.0 && cy as real - 2.0 <= p.y <= cy as real + 2.0
    ensures p.hitColour <==> kind == "hit"
  {
    var sp := (if kind == "hit" then 1.6 else 1.1) + d.speed * 1.2;
    Particle(cx as real + (d.dx * 2.0 - 1.0) * 2.0, cy as real + (d.dy * 2.0 - 1.0) * 2.0,
             d.cos * sp, d.sin * sp, 14 + (d.life * 10.0).Floor, kind == "hit")
  }

  /** spawnParticles on a w x h buffer: the burst is appended after the existing particles. */
  function Spawn(ps: seq<Particle>, kind: string, w: int, h: int, draws: seq<Draw>): (out: seq<Particle>)
    requires |draws| == BurstSize(kind)
    requires forall i :: 0 <= i < |draws| ==> DrawOk(draws[i])
    ensures |out| == |ps| + BurstSize(kind)
    ensures out[..|ps|] == ps
    ensures forall i :: |ps| <= i < |out| ==> 14 <= out[i].life <= 23 && (out[i].hitColour <==> kind == "hit")
  {
    var cx := Floor(w, 2);
    var cy := Floor(h, 2);
    ps + Burst(kind, cx, cy, draws)
  }

  /** Math.floor(a / b) for a positive divisor. */
  function Floor(a: int, b: int): int
    requires b > 0
  {
    (a as real / b as real).Floor
  }

  function Burst(kind: string, cx: int, cy: int, draws: seq<Draw>): (out: seq<Particle>)
    requires forall i :: 0 <= i < |draws| ==> DrawOk(draws[i])
    ensures |out| == |draws|
    ensures forall i :: 0 <= i < |out| ==> out[i] == Spawned(kind, cx, cy, draws[i])
  {
    if draws == [] then [] else [Spawned(kind, cx, cy, draws[0])] + Burst(kind, cx, cy, draws[1..])
  }

  /** `k` frames of tickParticles. */
  function Ticks(ps: seq<Particle>, k: nat): seq<Particle>
    decreases k
  {
    if k == 0 then ps else Ticks(Tick(ps), k - 1)
  }

  /**
   * Particles with at most `k` frames left are all gone after `k` steps; a
   * burst, spawned with at most 23, lasts at most 23 frames.
   */
  lemma {:induction false} Expires(ps: seq<Particle>, k: nat)
    requires k >= 1
    requires forall i :: 0 <= i < |ps| ==> ps[i].life <= k
    ensures Ticks(ps, k) == []
    decreases k
  {
    var next := Tick(ps);
    if k == 1 {
      NoSurvivors(ps);
      TickCount(ps);
    } else {
      forall i | 0 <= i < |next| ensures next[i].life <= k - 1 {
        TickExactly(ps, next[i]);
      }
      Expires(next, k - 1);
    }
  }

  /** With at most one frame left, nobody survives a step. */
  lemma {:induction false} NoSurvivors(ps: seq<Particle>)
    requires forall i :: 0 <= i < |ps| ==> ps[i].life <= 1
    ensures Survivors(ps) == 0
  {
    if ps != [] {
      NoSurvivors(ps[1..]);
    }
  }

  /** A burst is gone 23 frames after it is spawned. */
  lemma BurstGone(kind: string, cx: int, cy: int, draws: seq<Draw>)
    requires forall i :: 0 <= i < |draws| ==> DrawOk(draws[i])
    ensures Ticks(Burst(kind, cx, cy, draws), 23) == []
  {
    Expires(Burst(kind, cx, cy, draws), 23);
  }
}

=== FILE: raycast.dfy ===
/**
 * The wall pass of the client's raycaster (drawScene in app.js): for one
 * screen column, a grid DDA walks from the player's cell along the ray, one
 * cell per iteration, for at most 64 iterations, and stops at the first cell
 * the client's wall test reports. The ray direction (cos and sin of the ray
 * angle) is a parameter; coordinates are exact reals.
 */
module Raycast {
  import opened Grid

  const MaxSteps: nat := 64
  /** The depth written for a column whose ray meets no wall. */
  const NoHitDepth: real := 1000000000.0
  /** The smallest depth a hit is given. */
  const MinDepth: real := 0.0001
  /** `d || 1e-9`: the stand-in for a zero direction component. */
  const TinyDir: real := 0.000000001

  function Abs(x: real): real {
    if x < 0.0 then -x else x
  }

  function NonZero(d: real): (r: real)
    ensures r != 0.0
  {
    if d == 0.0 then TinyDir else d
  }

  /** What stays fixed along one ray: the step direction per axis and the distance between grid lines. */
  datatype Ray = Ray(stepX: int, stepY: int, deltaX: real, deltaY: real)

  /** The DDA state: the current cell, the distances to the next grid lines, and the axis last crossed. */
  datatype Cursor = Cursor(mapX: int, mapY: int, sideX: real, sideY: real, side: int)

  predicate ValidRay(ray: Ray) {
    (ray.stepX == 1 || ray.stepX == -1) && (ray.stepY == 1 || ray.stepY == -1)
    && ray.deltaX > 0.0 && ray.deltaY > 0.0
  }

  /** The ray through (px, py) along (dirX, dirY) and the DDA state in the player's cell. */
  function Setup(px: real, py: real, dirX: real, dirY: real): (s: (Ray, Cursor))
    ensures ValidRay(s.0)
    ensures s.0.stepX == (if dirX < 0.0 then -1 else 1) && s.0.stepY == (if dirY < 0.0 then -1 else 1)
    ensures s.1.mapX == px.Floor && s.1.mapY == py.Floor
    ensures s.1.sideX >= 0.0 && s.1.sideY >= 0.0
  {
    var deltaX := Abs(1.0 / NonZero(dirX));
    var deltaY := Abs(1.0 / NonZero(dirY));
    var mapX := px.Floor;
    var mapY := py.Floor;
    var stepX := if dirX < 0.0 then -1 else 1;
    var stepY := if dirY < 0.0 then -1 else 1;
    var sideX := if dirX < 0.0 then (px - mapX as real) * deltaX else (mapX as real + 1.0 - px) * deltaX;
    var sideY := if dirY < 0.0 then (py - mapY as real) * deltaY else (mapY as real + 1.0 - py) * deltaY;
    (Ray(stepX, stepY, deltaX, deltaY), Cursor(mapX, mapY, sideX, sideY, 0))
  }

  /** One DDA iteration: cross the nearer grid line, moving one cell along that axis. */
  function Advance(ray: Ray, c: Cursor): (n: Cursor)
    ensures n.side == 0 ==> n.mapX == c.mapX + ray.stepX && n.mapY == c.mapY
    ensures n.side == 1 ==> n.mapY == c.mapY + ray.stepY && n.mapX == c.mapX
    ensures n.side == 0 || n.side == 1
    ensures n.side == 0 <==> c.sideX < c.sideY
  {
    if c.sideX < c.sideY then c.(sideX := c.sideX + ray.deltaX, mapX := c.mapX + ray.stepX, side := 0)
    else c.(sideY := c.sideY + ray.deltaY, mapY := c.mapY + ray.stepY, side := 1)
  }

  /** The DDA state after `k` iterations. */
  function Walk(ray: Ray, c: Cursor, k: nat): Cursor
    decreases k
  {
    if k == 0 then c else Advance(ray, Walk(ray, c, k - 1))
  }

  /** None of the first `k` cells the ray enters is a wall. */
  predicate ClearUpTo(rows: seq<string>, ray: Ray, c: Cursor, k: nat) {
    forall j: nat :: 1 <= j <= k ==> !ClientIsWall(rows, Walk(ray, c, j).mapX, Walk(ray, c, j).mapY)
  }

  /** The perpendicular wall distance at the hit, floored at 0.0001. */
  function Depth(px: real, py: real, dirX: real, dirY: real, ray: Ray, hit: Cursor): (d: real)
    ensures d >= MinDepth
  {
    var perp :=
      if hit.side == 0 then (hit.mapX as real - px + (1.0 - ray.stepX as real) / 2.0) / NonZero(dirX)
      else (hit.mapY as real - py + (1.0 - ray.stepY as real) / 2.0) / NonZero(dirY);
    if Abs(perp) > MinDepth then Abs(perp) else MinDepth
  }

  /** The outcome for one column: whether a wall was met, where, after how many iterations, and the depth stored. */
  datatype Column = Column(hit: bool, cell: Cursor, steps: nat, depth: real)

  /**
   * The DDA of one column. A hit is the first wall cell on the ray within 64
   * iterations and gets a depth of at least 0.0001; a miss walks all 64
   * cells and stores the 1e9 sentinel. On a grid whose width plus height is
   * at most 65, a ray from inside the grid always hits.
   */
  method CastColumn(rows: seq<string>, px: real, py: real, dirX: real, dirY: real) returns (col: Column)
    ensures var (ray, start) := Setup(px, py, dirX, dirY);
      && col.steps <= MaxSteps
      && col.cell == Walk(ray, start, col.steps)
      && (col.hit ==> 1 <= col.steps && ClientIsWall(rows, col.cell.mapX, col.cell.mapY)
                      && ClearUpTo(rows, ray, start, col.steps - 1))
      && (col.hit ==> col.depth == Depth(px, py, dirX, dirY, ray, col.cell) && col.depth >= MinDepth)
      && (!col.hit ==> col.steps == MaxSteps && ClearUpTo(rows, ray, start, MaxSteps) && col.depth == NoHitDepth)
    ensures var start := Setup(px, py, dirX, dirY).1;
      SmallGrid(rows) && Inside(rows, start.mapX, start.mapY) ==> col.hit
  {
    var (ray, start) := Setup(px, py, dirX, dirY);
    var cur := start;
    var i: nat := 0;
    while i < MaxSteps
      invariant i <= MaxSteps
      invariant cur == Walk(ray, start, i)
      invariant ClearUpTo(rows, ray, start, i)
    {
      cur := Advance(ray, cur);
      i := i + 1;
      if ClientIsWall(rows, cur.mapX, cur.mapY) {
        col := Column(true, cur, i, Depth(px, py, dirX, dirY, ray, cur));
        return;
      }
    }
    col := Column(false, cur, MaxSteps, NoHitDepth);
    if SmallGrid(rows) && Inside(rows, start.mapX, start.mapY) {
      LeavesGrid(rows, ray, start);
    }
  }

  /** The signed distance `d` counted along a step direction. */
  function Along(d: int, step: int): int {
    if step == 1 then d else -d
  }

  /** The ray never turns back: after `k` iterations it has moved `k` cells, each forward along its axis. */
  lemma {:induction false} WalkProgress(ray: Ray, c: Cursor, k: nat)
    requires ValidRay(ray)
    ensures var e := Walk(ray, c, k);
      var nx := Along(e.mapX - c.mapX, ray.stepX);
      var ny := Along(e.mapY - c.mapY, ray.stepY);
      nx >= 0 && ny >= 0 && nx + ny == k
  {
    if k > 0 {
      WalkProgress(ray, c, k - 1);
    }
  }

  /** Each iteration moves exactly one of the two cell coordinates, by one. */
  lemma OneCellPerStep(ray: Ray, c: Cursor, k: nat)
    requires ValidRay(ray)
    ensures var a := Walk(ray, c, k);
      var b := Walk(ray, c, k + 1);
      (b.mapX == a.mapX && (b.mapY == a.mapY + 1 || b.mapY == a.mapY - 1))
      || (b.mapY == a.mapY && (b.mapX == a.mapX + 1 || b.mapX == a.mapX - 1))
  {
    assert Walk(ray, c, k + 1) == Advance(ray, Walk(ray, c, k));
  }

  predicate Inside(rows: seq<string>, x: int, y: int) {
    0 <= y < |rows| && 0 <= x < |rows[0]|
  }

  /** A rectangular grid small enough that 64 iterations always leave it. */
  predicate SmallGrid(rows: seq<string>) {
    Rectangular(rows) && rows != [] && |rows| + |rows[0]| <= MaxSteps + 1
  }

  /**
   * From a cell inside a grid of width W and height H, the ray is outside the
   * grid, hence at a wall, after at most W + H - 1 iterations.
   */
  lemma LeavesGrid(rows: seq<string>, ray: Ray, c: Cursor)
    requires SmallGrid(rows) && ValidRay(ray) && Inside(rows, c.mapX, c.mapY)
    ensures !ClearUpTo(rows, ray, c, MaxSteps)
  {
    var exitX := if ray.stepX == 1 then |rows[0]| - c.mapX else c.mapX + 1;
    var exitY := if ray.stepY == 1 then |rows| - c.mapY else c.mapY + 1;
    var k: nat := exitX + exitY - 1;
    WalkProgress(ray, c, k);
    var e := Walk(ray, c, k);
    assert !Inside(rows, e.mapX, e.mapY);
    assert ClientIsWall(rows, e.mapX, e.mapY);
  }
}

=== FILE: room.dfy ===
/**
 * The room state machine of the game server (room.go): joining and leaving
 * with host hand-over, readiness, match start and configuration, the
 * per-tick fire rule, the hit bookkeeping and the final ranking.
 *
 * Go ranges over the players map in an unspecified order; every operation
 * whose outcome can depend on that order takes it as an explicit `order`
 * that enumerates the map's keys.
 */
module GameRoom {
  import opened Wrappers
  import Chat
  import Grid

  /** InputReq: a client's controls, kept until the next input message. */
  datatype Input = Input(forward: bool, back: bool, left: bool, right: bool, turn: real, shoot: bool)

  /** The zero InputReq a new player starts with. */
  const Idle: Input := Input(false, false, false, false, 0.0, false)

  datatype Player = Player(
    id: string, name: string, ready: bool,
    x: real, y: real, dir: real,
    hp: int, score: int, cooldown: int,
    input: Input)

  /** Room; `tick` is a uint64. The arena is always the default map. */
  datatype Room = Room(
    id: string, name: string, hostId: string,
    started: bool, finished: bool, gameOverSent: bool,
    winnerId: string, winScore: int, showEnemiesOnMap: bool, wallText: string,
    tick: nat,
    players: map<string, Player>)

  /** PlayerFrame: one row of a ranking. */
  datatype PlayerFrame = PlayerFrame(id: string, name: string, x: real, y: real, dir: real, hp: int, score: int)

  const MaxHp: int := 100
  const Damage: int := 35
  const FireCooldown: int := 6
  const DefaultWinScore: int := 10
  const MaxWinScore: int := 50
  const TwoTo64: nat := 0x1_0000_0000_0000_0000

  /** math.Pi as the float64 the code computes with, taken as an exact real. */
  const Pi: real := 3.141592653589793
  const Tau: real := 2.0 * Pi

  /** The four spawn points, used in turn by joins and by respawns. */
  const Spawns: seq<(real, real)> := [(2.5, 2.5), (13.5, 2.5), (2.5, 8.5), (13.5, 8.5)]

  /** The spawn point numbered `n`, counting round the four. */
  function Spawn(n: nat): (real, real) {
    Spawns[n % 4]
  }

  /**
   * The shot oracle: given the room as it is when a player fires, the id of the
   * first player the shooter's ray reaches before a wall, if any. It stands for
   * the 0.05-step ray march, which is trigonometry on floats.
   */
  type Aim = (Room, string) -> Option<string>

  /** What every reachable room satisfies. */
  predicate PlayerOk(p: Player) {
    0 < p.hp <= MaxHp && 0 <= p.cooldown <= FireCooldown && p.score >= 0
  }

  predicate Valid(r: Room) {
    && (forall k :: k in r.players ==> r.players[k].id == k && PlayerOk(r.players[k]))
    && (r.players != map[] ==> r.hostId in r.players)
    && 1 <= r.winScore <= MaxWinScore
    && r.tick < TwoTo64
    && (!r.finished ==> r.winnerId == "")
    && (r.gameOverSent ==> r.finished)
  }

  /** The fields set at creation and by configuration. */
  function Settings(r: Room): (string, string, int, bool, string) {
    (r.id, r.name, r.winScore, r.showEnemiesOnMap, r.wallText)
  }

  /** The fields of the match in progress, apart from players and host. */
  function Match(r: Room): (bool, bool, bool, string, nat) {
    (r.started, r.finished, r.gameOverSent, r.winnerId, r.tick)
  }

  /** Only the players map changed. */
  predicate OnlyPlayersChanged(r: Room, r': Room) {
    Settings(r') == Settings(r) && Match(r') == Match(r) && r'.hostId == r.hostId
  }

  /** Only what play decides changed: the players, and whether and by whom the match was won. */
  predicate OnlyPlayChanged(r: Room, r': Room) {
    && Settings(r') == Settings(r) && r'.hostId == r.hostId
    && r'.started == r.started && r'.gameOverSent == r.gameOverSent && r'.tick == r.tick
  }

  /** `order` lists every key of `m` exactly once, as a Go range over `m` visits them. */
  predicate Enumerates(order: seq<string>, m: map<string, Player>) {
    && (forall k :: k in m ==> k in order)
    && (forall i :: 0 <= i < |order| ==> order[i] in m)
    && (forall i, j :: 0 <= i < j < |order| ==> order[i] != order[j])
  }

  /** NewRoom: an empty lobby with the default settings. */
  function NewRoom(id: string, name: string, hostId: string): (r: Room)
    ensures Valid(r)
    ensures r.id == id && r.name == name && r.hostId == hostId && r.players == map[]
    ensures !r.started && !r.finished && !r.gameOverSent && r.tick == 0
    ensures r.winScore == DefaultWinScore && r.showEnemiesOnMap && r.wallText == ""
  {
    Room(id, name, hostId, false, false, false, "", DefaultWinScore, true, "", 0, map[])
  }

  /** A freshly joined player: full health, facing angle 0, at a spawn point. */
  function Joined(id: string, name: string, spawn: (real, real)): Player {
    Player(id, name, false, spawn.0, spawn.1, 0.0, MaxHp, 0, 0, Idle)
  }

  /**
   * AddPlayer: a known id changes nothing; a new one is placed at spawn
   * number |players| mod 4 and becomes host of a host-less room.
   */
  function AddPlayer(r: Room, id: string, name: string): (r': Room)
    ensures id in r.players ==> r' == r
    ensures id !in r.players ==> r'.players.Keys == r.players.Keys + {id}
    ensures id !in r.players ==> forall k :: k in r.players ==> r'.players[k] == r.players[k]
    ensures id !in r.players ==>
      && r'.players[id] == Joined(id, name, Spawn(|r.players|))
      && r'.players[id].hp == MaxHp && r'.players[id].dir == 0.0
    ensures id !in r.players ==> r'.hostId == (if r.hostId == "" then id else r.hostId)
    ensures Settings(r') == Settings(r) && Match(r') == Match(r)
  {
    if id in r.players then r
    else
      var spawn := Spawn(|r.players|);
      r.(players := r.players[id := Joined(id, name, spawn)],
         hostId := if r.hostId == "" then id else r.hostId)
  }

  /** A join keeps the room valid when the room is empty only if its host is unset or the joiner. */
  lemma AddPlayerValid(r: Room, id: string, name: string)
    requires Valid(r)
    requires r.players == map[] ==> r.hostId == "" || r.hostId == id
    ensures Valid(AddPlayer(r, id, name))
    ensures AddPlayer(r, id, name).hostId in AddPlayer(r, id, name).players
  {
    if id !in r.players {
      var r' := AddPlayer(r, id, name);
      assert r'.players[id].id == id;
      if r.players != map[] {
        assert r.hostId in r.players;
      }
    }
  }

  /** Every spawn point is open floor of the default arena. */
  lemma SpawnsOpen()
    ensures forall i :: 0 <= i < |Spawns| ==> !Grid.IsWall(Grid.DefaultMap(), Spawns[i].0, Spawns[i].1)
  {
    var rows := Grid.DefaultMap().rows;
    assert Grid.TruncToInt(2.5) == 2;
    assert Grid.TruncToInt(8.5) == 8;
    assert Grid.TruncToInt(13.5) == 13;
    assert rows[2][2] == '.' && rows[2][13] == '.';
    assert rows[8][2] == '.' && rows[8][13] == '.';
  }

  /** The position of the first entry of `order` that is a key of `m`; |order| when there is none. */
  function FirstIndex(order: seq<string>, m: map<string, Player>): (i: nat)
    ensures i <= |order|
    ensures forall j :: 0 <= j < i ==> order[j] !in m
    ensures i < |order| ==> order[i] in m
  {
    if order == [] then 0
    else if order[0] in m then 0
    else 1 + FirstIndex(order[1..], m)
  }

  /**
   * RemovePlayer: the id leaves; if it was the host, the first remaining
   * player in range order inherits, and an empty room gets no host.
   */
  function RemovePlayer(r: Room, id: string, order: seq<string>): (r': Room)
    requires forall k :: k in r.players ==> k in order
    ensures r'.players == r.players - {id}
    ensures r.hostId != id ==> r'.hostId == r.hostId
    ensures r.hostId == id && r'.players == map[] ==> r'.hostId == ""
    ensures r.hostId == id && r'.players != map[] ==>
      r'.hostId in r'.players && r'.hostId == order[FirstIndex(order, r'.players)]
    ensures Settings(r') == Settings(r) && Match(r') == Match(r)
  {
    var rest := r.players - {id};
    if r.hostId != id then r.(players := rest)
    else
      var i := FirstIndex(order, rest);
      FirstIndexFound(order, rest);
      r.(players := rest, hostId := if i < |order| then order[i] else "")
  }

  /** When `order` covers a non-empty map, the search finds a key. */
  lemma FirstIndexFound(order: seq<string>, m: map<string, Player>)
    requires forall k :: k in m ==> k in order
    ensures m != map[] ==> FirstIndex(order, m) < |order|
  {
    if m != map[] {
      var k :| k in m;
      var j :| 0 <= j < |order| && order[j] == k;
      assert FirstIndex(order, m) <= j;
    }
  }

  /** A room founded by `host`, who joins it at once, is valid and holds only the host. */
  lemma FoundedRoom(id: string, name: string, host: string, hostName: string)
    ensures var r := AddPlayer(NewRoom(id, name, host), host, hostName);
      Valid(r) && r.id == id && r.hostId == host && r.players.Keys == {host}
  {
    AddPlayerValid(NewRoom(id, name, host), host, hostName);
  }

  lemma RemovePlayerValid(r: Room, id: string, order: seq<string>)
    requires Valid(r)
    requires forall k :: k in r.players ==> k in order
    ensures Valid(RemovePlayer(r, id, order))
  {
  }

  /** SetReady: only the named player's ready flag changes; an unknown id changes nothing. */
  function SetReady(r: Room, id: string, ready: bool): (r': Room)
    ensures id !in r.players ==> r' == r
    ensures id in r.players ==>
      && r'.players.Keys == r.players.Keys
      && r'.players[id].ready == ready
      && r'.players[id].(ready := r.players[id].ready) == r.players[id]
      && (forall k :: k in r.players && k != id ==> r'.players[k] == r.players[k])
      && OnlyPlayersChanged(r, r')
  {
    if id in r.players then r.(players := r.players[id := r.players[id].(ready := ready)])
    else r
  }

  lemma SetReadyValid(r: Room, id: string, ready: bool)
    requires Valid(r)
    ensures Valid(SetReady(r, id, ready))
  {
  }

  /** The range loop of AllReady: stops at the first player in `order` who is not ready. */
  function AllReadyIn(order: seq<string>, m: map<string, Player>): (b: bool)
    ensures b <==> forall i :: 0 <= i < |order| && order[i] in m ==> m[order[i]].ready
  {
    if order == [] then true
    else if order[0] in m && !m[order[0]].ready then false
    else AllReadyIn(order[1..], m)
  }

  /** AllReady: false for an empty room, otherwise whether every player is ready, whatever the range order. */
  function AllReady(r: Room, order: seq<string>): (b: bool)
    requires forall k :: k in r.players ==> k in order
    ensures b <==> r.players != map[] && forall k :: k in r.players ==> r.players[k].ready
  {
    if r.players == map[] then false
    else
      var b := AllReadyIn(order, r.players);
      assert b ==> forall k :: k in r.players ==> r.players[k].ready by {
        if b {
          forall k | k in r.players ensures r.players[k].ready {
            var j :| 0 <= j < |order| && order[j] == k;
          }
        }
      }
      b
  }

  /** What Start does to one player. */
  function Reset(p: Player): Player {
    p.(ready := false, hp := MaxHp, score := 0, cooldown := 0)
  }

  /**
   * Start: the match begins with no winner, and every player is unready at
   * full health with no score and no cooldown; nothing else changes.
   */
  function Start(r: Room): (r': Room)
    ensures r'.started && !r'.finished && !r'.gameOverSent && r'.winnerId == ""
    ensures r'.players.Keys == r.players.Keys
    ensures forall k :: k in r.players ==>
      var p, q := r.players[k], r'.players[k];
      && !q.ready && q.hp == MaxHp && q.score == 0 && q.cooldown == 0
      && q.(ready := p.ready, hp := p.hp, score := p.score, cooldown := p.cooldown) == p
    ensures Settings(r') == Settings(r) && r'.hostId == r.hostId && r'.tick == r.tick
  {
    r.(started := true, finished := false, gameOverSent := false, winnerId := "",
       players := map k | k in r.players :: Reset(r.players[k]))
  }

  lemma StartValid(r: Room)
    requires Valid(r)
    ensures Valid(Start(r))
  {
  }

  /** The winScore clamp: non-positive means the default, and at most 50. */
  function ClampWinScore(ws: int): (c: int)
    ensures 1 <= c <= MaxWinScore
    ensures 1 <= ws <= MaxWinScore ==> c == ws
    ensures ws <= 0 ==> c == DefaultWinScore
    ensures ws > MaxWinScore ==> c == MaxWinScore
  {
    var w := if ws <= 0 then DefaultWinScore else ws;
    if w > MaxWinScore then MaxWinScore else w
  }

  /**
   * ConfigureForStart: each absent option leaves its setting alone; a present
   * win score is clamped to [1, 50] and a present banner is sanitised.
   */
  function ConfigureForStart(r: Room, winScore: Option<int>, showEnemiesOnMap: Option<bool>, wallText: Option<string>): (r': Room)
    ensures winScore.None? ==> r'.winScore == r.winScore
    ensures winScore.Some? ==> r'.winScore == ClampWinScore(winScore.value)
    ensures showEnemiesOnMap.None? ==> r'.showEnemiesOnMap == r.showEnemiesOnMap
    ensures showEnemiesOnMap.Some? ==> r'.showEnemiesOnMap == showEnemiesOnMap.value
    ensures wallText.None? ==> r'.wallText == r.wallText
    ensures wallText.Some? ==> r'.wallText == Chat.SanitizeWallText(wallText.value) && |r'.wallText| <= Chat.WallMaxRunes
    ensures r'.id == r.id && r'.name == r.name && r'.hostId == r.hostId
    ensures Match(r') == Match(r) && r'.players == r.players
  {
    r.(winScore := if winScore.Some? then ClampWinScore(winScore.value) else r.winScore,
       showEnemiesOnMap := showEnemiesOnMap.GetOr(r.showEnemiesOnMap),
       wallText := if wallText.Some? then Chat.SanitizeWallText(wallText.value) else r.wallText)
  }

  lemma ConfigureForStartValid(r: Room, winScore: Option<int>, showEnemiesOnMap: Option<bool>, wallText: Option<string>)
    requires Valid(r)
    ensures Valid(ConfigureForStart(r, winScore, showEnemiesOnMap, wallText))
  {
  }

  /** `d` is a whole number of turns. */
  predicate WholeTurns(d: real) {
    (d / Tau).Floor as real * Tau == d
  }

  lemma WholeTurnsAdd(d: real, e: real)
    requires WholeTurns(d) && WholeTurns(e)
    ensures WholeTurns(d + e)
  {
    var m, n := (d / Tau).Floor, (e / Tau).Floor;
    assert (d + e) / Tau == (m + n) as real;
  }

  /** The first loop of normalizeAngle: add a turn while below -Pi. */
  function RaiseAngle(a: real): (r: real)
    ensures -Pi <= r
    ensures a >= -Pi ==> r == a
    ensures a < -Pi ==> r < Pi
    ensures WholeTurns(r - a)
    decreases if a < -Pi then ((-Pi - a) / Tau).Floor + 1 else 0
  {
    if a < -Pi then
      var r := RaiseAngle(a + Tau);
      WholeTurnsAdd(r - (a + Tau), Tau);
      r
    else
      a
  }

  /** The second loop of normalizeAngle: subtract a turn while above Pi. */
  function LowerAngle(a: real): (r: real)
    ensures r <= Pi
    ensures a <= Pi ==> r == a
    ensures a > Pi ==> -Pi < r
    ensures WholeTurns(r - a)
    decreases if a > Pi then ((a - Pi) / Tau).Floor + 1 else 0
  {
    if a > Pi then
      var r := LowerAngle(a - Tau);
      WholeTurnsAdd(r - (a - Tau), -Tau);
      r
    else
      a
  }

  /** normalizeAngle: the angle moved by whole turns into [-Pi, Pi]; an angle already there is kept. */
  function NormalizeAngle(a: real): (r: real)
    ensures -Pi <= r <= Pi
    ensures -Pi <= a <= Pi ==> r == a
    ensures WholeTurns(r - a)
  {
    var b := RaiseAngle(a);
    var r := LowerAngle(b);
    WholeTurnsAdd(r - b, b - a);
    r
  }

  /**
   * SetInput: the player's controls are replaced and the turn is applied to
   * the facing angle, which stays in [-Pi, Pi]; an unknown id changes nothing.
   */
  function SetInput(r: Room, id: string, input: Input): (r': Room)
    ensures id !in r.players ==> r' == r
    ensures id in r.players ==> r'.players.Keys == r.players.Keys
    ensures id in r.players ==>
      var p, q := r.players[id], r'.players[id];
      && q.input == input
      && -Pi <= q.dir <= Pi && WholeTurns(q.dir - (p.dir + input.turn))
      && q.(input := p.input, dir := p.dir) == p
      && (forall k :: k in r.players && k != id ==> r'.players[k] == r.players[k])
      && OnlyPlayersChanged(r, r')
  {
    if id in r.players then
      var p := r.players[id];
      r.(players := r.players[id := p.(input := input, dir := NormalizeAngle(p.dir + input.turn))])
    else r
  }

  lemma SetInputValid(r: Room, id: string, input: Input)
    requires Valid(r)
    ensures Valid(SetInput(r, id, input))
  {
  }

  /**
   * The consequence of `s` hitting `t`: the target loses 35 hp; if that
   * kills it, the shooter scores, the first score to reach the win score ends
   * the match with the shooter as winner, and the target respawns at full
   * health facing angle 0 at the spawn point the tick selects.
   */
  function ApplyHit(r: Room, s: string, t: string): (r': Room)
    requires s in r.players && t in r.players && s != t
    ensures r'.players.Keys == r.players.Keys
    ensures forall k :: k in r.players && k != s && k != t ==> r'.players[k] == r.players[k]
    ensures r.players[t].hp > Damage ==>
      && r'.players[t] == r.players[t].(hp := r.players[t].hp - Damage)
      && r'.players[s] == r.players[s]
      && OnlyPlayersChanged(r, r')
    ensures r.players[t].hp <= Damage ==>
      && r'.players[s] == r.players[s].(score := r.players[s].score + 1)
      && r'.players[t] == r.players[t].(hp := MaxHp, dir := 0.0, x := Spawn(r.tick).0, y := Spawn(r.tick).1)
    ensures r.finished ==> r'.finished && r'.winnerId == r.winnerId
    ensures !r.finished ==>
      (r'.finished <==> r.players[t].hp <= Damage && r.players[s].score + 1 >= r.winScore)
    ensures !r.finished && r'.finished ==> r'.winnerId == r.players[s].id
    ensures !r'.finished ==> r'.winnerId == r.winnerId
    ensures OnlyPlayChanged(r, r')
  {
    if r.players[t].hp - Damage > 0 then Wound(r, t) else Kill(r, s, t)
  }

  /** A hit that leaves the target alive costs it 35 hp. */
  function Wound(r: Room, t: string): (r': Room)
    requires t in r.players
    ensures r'.players.Keys == r.players.Keys
    ensures forall k :: k in r.players && k != t ==> r'.players[k] == r.players[k]
    ensures r'.players[t] == r.players[t].(hp := r.players[t].hp - Damage)
    ensures OnlyPlayersChanged(r, r')
  {
    r.(players := r.players[t := r.players[t].(hp := r.players[t].hp - Damage)])
  }

  /** A killing hit: the shooter scores and may win; the target respawns. */
  function Kill(r: Room, s: string, t: string): (r': Room)
    requires s in r.players && t in r.players && s != t
    ensures r'.players.Keys == r.players.Keys
    ensures forall k :: k in r.players && k != s && k != t ==> r'.players[k] == r.players[k]
    ensures r'.players[s] == r.players[s].(score := r.players[s].score + 1)
    ensures r'.players[t] == r.players[t].(hp := MaxHp, dir := 0.0, x := Spawn(r.tick).0, y := Spawn(r.tick).1)
    ensures r'.finished == (r.finished || r.players[s].score + 1 >= r.winScore)
    ensures r'.winnerId == if !r.finished && r'.finished then r.players[s].id else r.winnerId
    ensures OnlyPlayChanged(r, r')
  {
    var shooter := r.players[s];
    var target := r.players[t];
    var score := shooter.score + 1;
    var won := !r.finished && score >= r.winScore;
    var spawn := Spawn(r.tick);
    r.(finished := r.finished || won,
       winnerId := if won then shooter.id else r.winnerId,
       players := r.players[s := shooter.(score := score)]
                           [t := target.(x := spawn.0, y := spawn.1, hp := MaxHp, dir := 0.0)])
  }

  /** The filter of shoot's target loop: the aimed player must exist, be someone else and be alive. */
  predicate CanHit(r: Room, s: string, target: Option<string>)
    requires s in r.players
  {
    target.Some? && target.value in r.players
    && r.players[target.value].id != r.players[s].id
    && r.players[target.value].hp > 0
  }

  /** shoot: the hit rule applied to the oracle's target; a miss changes nothing. */
  function Shoot(r: Room, s: string, target: Option<string>): (r': Room)
    requires s in r.players
    ensures !CanHit(r, s, target) ==> r' == r
    ensures CanHit(r, s, target) ==> r' == ApplyHit(r, s, target.value)
    ensures r'.players.Keys == r.players.Keys
    ensures forall k :: k in r.players ==> SameControls(r.players[k], r'.players[k])
    ensures r.finished ==> r'.finished && r'.winnerId == r.winnerId
    ensures OnlyPlayChanged(r, r')
  {
    if CanHit(r, s, target) then
      ApplyHitControls(r, s, target.value);
      ApplyHit(r, s, target.value)
    else r
  }

  /** Tick's `if p.cooldown > 0 { p.cooldown-- }`. */
  function NextCooldown(c: int): int {
    if c > 0 then c - 1 else c
  }

  /** A player fires this tick: the trigger is held and the decremented cooldown is zero. */
  predicate Fires(p: Player) {
    p.input.shoot && NextCooldown(p.cooldown) == 0
  }

  /** The cooldown a player ends the tick with. */
  function CooldownAfter(p: Player): (c: int)
    ensures Fires(p) ==> c == FireCooldown
    ensures !Fires(p) && p.cooldown > 0 ==> c == p.cooldown - 1
    ensures !Fires(p) && p.cooldown <= 0 ==> c == p.cooldown
  {
    if Fires(p) then FireCooldown else NextCooldown(p.cooldown)
  }

  /** The fields of a player that only that player's own fire step writes. */
  predicate SameControls(p: Player, q: Player) {
    p.id == q.id && p.name == q.name && p.ready == q.ready && p.cooldown == q.cooldown && p.input == q.input
  }

  /** `q` is `p` after its fire step: cooldown as the rule says and the trigger released. */
  predicate FiredFrom(p: Player, q: Player) {
    q.id == p.id && q.name == p.name && q.ready == p.ready
    && q.cooldown == CooldownAfter(p) && q.input == p.input.(shoot := false)
  }

  lemma ApplyHitControls(r: Room, s: string, t: string)
    requires s in r.players && t in r.players && s != t
    ensures forall k :: k in r.players ==> SameControls(r.players[k], ApplyHit(r, s, t).players[k])
  {
  }

  /** Firing: the shooter's cooldown is set to 6 before the shot. */
  function Arm(r: Room, id: string): (r': Room)
    requires id in r.players
    ensures r'.players.Keys == r.players.Keys
    ensures OnlyPlayersChanged(r, r')
    ensures forall k :: k in r.players && k != id ==> r'.players[k] == r.players[k]
  {
    r.(players := r.players[id := r.players[id].(cooldown := FireCooldown)])
  }

  /** The end of a fire step: the player's trigger is released. */
  function Release(r: Room, id: string): (r': Room)
    requires id in r.players
    ensures r'.players.Keys == r.players.Keys
    ensures OnlyPlayersChanged(r, r')
    ensures forall k :: k in r.players && k != id ==> r'.players[k] == r.players[k]
  {
    var q := r.players[id];
    r.(players := r.players[id := q.(input := q.input.(shoot := false))])
  }

  /**
   * `r'` is `r` after `s` hit `t`, apart from the shooter's own controls:
   * every other player, the shooter's score and the match outcome are what
   * the hit rule gives.
   */
  predicate HitApplied(r: Room, r': Room, s: string, t: string)
    requires s in r.players && t in r.players && s != t
  {
    var h := ApplyHit(r, s, t);
    && r'.players.Keys == r.players.Keys
    && (forall k :: k in r.players && k != s ==> r'.players[k] == h.players[k])
    && r'.players[s].score == h.players[s].score
    && r'.finished == h.finished && r'.winnerId == h.winnerId
  }

  /** `r'` is `r` apart from the controls of player `s`: nobody was hit. */
  predicate NoHit(r: Room, r': Room, s: string)
    requires s in r.players
  {
    && r'.players.Keys == r.players.Keys
    && (forall k :: k in r.players && k != s ==> r'.players[k] == r.players[k])
    && r'.players[s].score == r.players[s].score && r'.players[s].hp == r.players[s].hp
    && r'.finished == r.finished && r'.winnerId == r.winnerId
  }

  /**
   * One iteration of Tick's fire loop, for player `id`. A player who fires
   * asks the oracle for a target; a target it can hit takes the hit, and
   * otherwise nobody is hit. A player who does not fire hits nobody.
   */
  function FireStep(r: Room, id: string, aim: Aim): (r': Room)
    ensures r'.players.Keys == r.players.Keys
    ensures r.finished ==> r'.finished && r'.winnerId == r.winnerId
    ensures OnlyPlayChanged(r, r')
    ensures id !in r.players ==> r' == r
    ensures id in r.players && Fires(r.players[id]) ==>
      var t := aim(Arm(r, id), id);
      && (CanHit(r, id, t) ==> HitApplied(r, r', id, t.value))
      && (!CanHit(r, id, t) ==> NoHit(r, r', id))
    ensures id in r.players && !Fires(r.players[id]) ==> NoHit(r, r', id)
  {
    if id !in r.players then r
    else
      var p := r.players[id];
      if Fires(p) then
        var armed := Arm(r, id);
        FiredHit(r, id, aim(armed, id));
        Release(Shoot(armed, id, aim(armed, id)), id)
      else
        HeldNoHit(r, id);
        Release(r.(players := r.players[id := p.(cooldown := NextCooldown(p.cooldown))]), id)
  }

  /** A player who does not fire changes only its own controls. */
  lemma HeldNoHit(r: Room, id: string)
    requires id in r.players
    ensures var p := r.players[id];
      NoHit(r, Release(r.(players := r.players[id := p.(cooldown := NextCooldown(p.cooldown))]), id), id)
  {
  }

  /** Arming the shooter changes neither whom it can hit nor what the hit does to anyone else. */
  lemma FiredHit(r: Room, id: string, t: Option<string>)
    requires id in r.players
    ensures CanHit(Arm(r, id), id, t) == CanHit(r, id, t)
    ensures CanHit(r, id, t) ==> HitApplied(r, Release(Shoot(Arm(r, id), id, t), id), id, t.value)
    ensures !CanHit(r, id, t) ==> NoHit(r, Release(Shoot(Arm(r, id), id, t), id), id)
  {
    var armed := Arm(r, id);
    assert armed.players[id].id == r.players[id].id;
    assert forall k :: k in r.players && k != id ==> armed.players[k] == r.players[k];
    if CanHit(r, id, t) {
      ArmedHit(r, id, t.value);
    }
  }

  /** The hit of an armed shooter, once its trigger is released, is the hit rule applied to the room. */
  lemma ArmedHit(r: Room, id: string, t: string)
    requires id in r.players && t in r.players && id != t
    ensures HitApplied(r, Release(ApplyHit(Arm(r, id), id, t), id), id, t)
  {
    var armed := Arm(r, id);
    var h := ApplyHit(r, id, t);
    var ha := ApplyHit(armed, id, t);
    var out := Release(ha, id);
    assert armed.players[t] == r.players[t];
    assert armed.players[id].score == r.players[id].score;
    assert Match(armed) == Match(r) && Settings(armed) == Settings(r);
    assert ha.players[t] == h.players[t];
    assert ha.players[id].score == h.players[id].score;
    assert ha.finished == h.finished && ha.winnerId == h.winnerId;
  }

  /** The fire step decides the stepping player's controls by the rule and touches no one else's. */
  lemma FireStepControls(r: Room, id: string, aim: Aim)
    ensures id in r.players ==> FiredFrom(r.players[id], FireStep(r, id, aim).players[id])
    ensures forall k :: k in r.players && k != id ==> SameControls(r.players[k], FireStep(r, id, aim).players[k])
  {
    if id in r.players {
      if Fires(r.players[id]) {
        FiringControls(r, id, aim);
      } else {
        HoldingControls(r, id, aim);
      }
    }
  }

  lemma FiringControls(r: Room, id: string, aim: Aim)
    requires id in r.players && Fires(r.players[id])
    ensures FiredFrom(r.players[id], FireStep(r, id, aim).players[id])
    ensures forall k :: k in r.players && k != id ==> SameControls(r.players[k], FireStep(r, id, aim).players[k])
  {
    var armed := Arm(r, id);
    var shot := Shoot(armed, id, aim(armed, id));
    assert FireStep(r, id, aim) == Release(shot, id);
    assert SameControls(armed.players[id], shot.players[id]);
  }

  lemma HoldingControls(r: Room, id: string, aim: Aim)
    requires id in r.players && !Fires(r.players[id])
    ensures FiredFrom(r.players[id], FireStep(r, id, aim).players[id])
    ensures forall k :: k in r.players && k != id ==> SameControls(r.players[k], FireStep(r, id, aim).players[k])
  {
    var p := r.players[id];
    var stepped := r.(players := r.players[id := p.(cooldown := NextCooldown(p.cooldown))]);
    assert FireStep(r, id, aim) == Release(stepped, id);
  }

  /** Tick's fire loop over the players in range order. */
  function FireAll(r: Room, order: seq<string>, aim: Aim): (r': Room)
    ensures r'.players.Keys == r.players.Keys
    ensures r.finished ==> r'.finished && r'.winnerId == r.winnerId
    ensures OnlyPlayChanged(r, r')
    decreases |order|
  {
    if order == [] then r else FireAll(FireStep(r, order[0], aim), order[1..], aim)
  }

  /** Each player listed once in `order` ends the loop fired; players not listed keep their controls. */
  lemma {:induction false} FireAllControls(r: Room, order: seq<string>, aim: Aim)
    requires forall i, j :: 0 <= i < j < |order| ==> order[i] != order[j]
    ensures forall k :: k in r.players && k in order ==> FiredFrom(r.players[k], FireAll(r, order, aim).players[k])
    ensures forall k :: k in r.players && k !in order ==> SameControls(r.players[k], FireAll(r, order, aim).players[k])
    decreases |order|
  {
    if order != [] {
      var r1 := FireStep(r, order[0], aim);
      var tail := order[1..];
      FireStepControls(r, order[0], aim);
      FireAllControls(r1, tail, aim);
      forall k | k in r.players
        ensures k in order ==> FiredFrom(r.players[k], FireAll(r, order, aim).players[k])
        ensures k !in order ==> SameControls(r.players[k], FireAll(r, order, aim).players[k])
      {
        if k == order[0] {
          assert k !in tail by {
            forall i | 0 <= i < |tail| ensures tail[i] != k {
              assert tail[i] == order[i + 1];
            }
          }
        } else {
          assert k in order <==> k in tail;
        }
      }
    }
  }

  /**
   * Tick's bookkeeping: the tick counter advances modulo 2^64 and every
   * player takes one fire step; firing is decided by each player's own
   * trigger and cooldown, and every trigger is released. A finished match
   * keeps its winner.
   */
  function Tick(r: Room, order: seq<string>, aim: Aim): (r': Room)
    requires Enumerates(order, r.players)
    ensures r'.tick == (r.tick + 1) % TwoTo64
    ensures r'.players.Keys == r.players.Keys
    ensures forall k :: k in r.players ==> FiredFrom(r.players[k], r'.players[k])
    ensures r.finished ==> r'.finished && r'.winnerId == r.winnerId
    ensures Settings(r') == Settings(r) && r'.hostId == r.hostId
    ensures r'.started == r.started && r'.gameOverSent == r.gameOverSent
  {
    var r0 := r.(tick := (r.tick + 1) % TwoTo64);
    FireAllControls(r0, order, aim);
    FireAll(r0, order, aim)
  }

  lemma ApplyHitValid(r: Room, s: string, t: string)
    requires Valid(r)
    requires s in r.players && t in r.players && s != t
    ensures Valid(ApplyHit(r, s, t))
  {
  }

  lemma FireStepValid(r: Room, id: string, aim: Aim)
    requires Valid(r)
    ensures Valid(FireStep(r, id, aim))
  {
    if id in r.players {
      var p := r.players[id];
      if Fires(p) {
        var armed := Arm(r, id);
        ArmValid(r, id);
        var target := aim(armed, id);
        ShootValid(armed, id, target);
        ReleaseValid(Shoot(armed, id, target), id);
        assert FireStep(r, id, aim) == Release(Shoot(armed, id, target), id);
      } else {
        var stepped := r.(players := r.players[id := p.(cooldown := NextCooldown(p.cooldown))]);
        assert Valid(stepped);
        ReleaseValid(stepped, id);
        assert FireStep(r, id, aim) == Release(stepped, id);
      }
    }
  }

  lemma ArmValid(r: Room, id: string)
    requires Valid(r) && id in r.players
    ensures Valid(Arm(r, id))
  {
  }

  lemma ShootValid(r: Room, s: string, target: Option<string>)
    requires Valid(r) && s in r.players
    ensures Valid(Shoot(r, s, target))
  {
    if CanHit(r, s, target) {
      ApplyHitValid(r, s, target.value);
    }
  }

  lemma ReleaseValid(r: Room, id: string)
    requires Valid(r) && id in r.players
    ensures Valid(Release(r, id))
  {
  }

  lemma {:induction false} FireAllValid(r: Room, order: seq<string>, aim: Aim)
    requires Valid(r)
    ensures Valid(FireAll(r, order, aim))
    decreases |order|
  {
    if order != [] {
      FireStepValid(r, order[0], aim);
      FireAllValid(FireStep(r, order[0], aim), order[1..], aim);
    }
  }

  lemma TickValid(r: Room, order: seq<string>, aim: Aim)
    requires Valid(r) && Enumerates(order, r.players)
    ensures Valid(Tick(r, order, aim))
  {
    var r0 := r.(tick := (r.tick + 1) % TwoTo64);
    assert Valid(r0);
    FireAllValid(r0, order, aim);
    assert Tick(r, order, aim) == FireAll(r0, order, aim);
  }

  /** The row a player contributes to a ranking. */
  function FrameOf(p: Player): PlayerFrame {
    PlayerFrame(p.id, p.name, p.x, p.y, p.dir, p.hp, p.score)
  }

  /** The frames of the players, in range order. */
  function FramesIn(order: seq<string>, m: map<string, Player>): (fs: seq<PlayerFrame>)
    requires forall i :: 0 <= i < |order| ==> order[i] in m
    ensures |fs| == |order|
    ensures forall i :: 0 <= i < |order| ==> fs[i] == FrameOf(m[order[i]])
  {
    if order == [] then [] else [FrameOf(m[order[0]])] + FramesIn(order[1..], m)
  }

  /** `a` may stand before `b`: higher score, or equal score and at least the hp. */
  predicate RanksAbove(a: PlayerFrame, b: PlayerFrame) {
    a.score > b.score || (a.score == b.score && a.hp >= b.hp)
  }

  predicate Ranked(fs: seq<PlayerFrame>) {
    forall i, j :: 0 <= i < j < |fs| ==> RanksAbove(fs[i], fs[j])
  }

  function Insert(f: PlayerFrame, fs: seq<PlayerFrame>): (out: seq<PlayerFrame>)
    requires Ranked(fs)
    ensures Ranked(out)
    ensures multiset(out) == multiset(fs) + multiset{f}
  {
    if fs == [] then [f]
    else if RanksAbove(f, fs[0]) then
      [f] + fs
    else
      var rest := Insert(f, fs[1..]);
      assert fs == [fs[0]] + fs[1..];
      RankedCons(fs[0], rest, fs[1..], f);
      [fs[0]] + rest
  }

  /** A head that ranks above every element of a ranked tail, and above the inserted frame, keeps it ranked. */
  lemma RankedCons(h: PlayerFrame, rest: seq<PlayerFrame>, tail: seq<PlayerFrame>, f: PlayerFrame)
    requires Ranked(rest) && Ranked([h] + tail)
    requires multiset(rest) == multiset(tail) + multiset{f}
    requires RanksAbove(h, f)
    ensures Ranked([h] + rest)
  {
    forall j | 0 <= j < |rest| ensures RanksAbove(h, rest[j]) {
      assert rest[j] in multiset(rest);
      if rest[j] != f {
        assert rest[j] in multiset(tail);
        var i :| 0 <= i < |tail| && tail[i] == rest[j];
        assert ([h] + tail)[0] == h && ([h] + tail)[i + 1] == tail[i];
      }
    }
  }

  function SortFrames(fs: seq<PlayerFrame>): (out: seq<PlayerFrame>)
    ensures Ranked(out)
    ensures multiset(out) == multiset(fs)
  {
    if fs == [] then []
    else
      assert fs == [fs[0]] + fs[1..];
      Insert(fs[0], SortFrames(fs[1..]))
  }

  /**
   * Rankings: the players' frames in range order, sorted by score descending
   * and then hp descending; the result is a permutation of those frames.
   */
  function Rankings(r: Room, order: seq<string>): (out: seq<PlayerFrame>)
    requires Enumerates(order, r.players)
    ensures multiset(out) == multiset(FramesIn(order, r.players))
    ensures |out| == |order|
    ensures Ranked(out)
  {
    var fs := FramesIn(order, r.players);
    var out := SortFrames(fs);
    assert |out| == |multiset(out)| == |fs|;
    out
  }

  /** Every player's frame appears in the ranking. */
  lemma RankingsComplete(r: Room, order: seq<string>, k: string)
    requires Enumerates(order, r.players)
    requires k in r.players
    ensures FrameOf(r.players[k]) in Rankings(r, order)
  {
    var fs := FramesIn(order, r.players);
    var i :| 0 <= i < |order| && order[i] == k;
    assert fs[i] in multiset(fs);
    assert FrameOf(r.players[k]) in multiset(Rankings(r, order));
  }
}

=== FILE: snapshot.dfy ===
/**
 * The client's snapshot diff (updateFxFromState in app.js): each game_state
 * is compared, player by player, with the previous one kept by player id.
 * Losing health as the local player raises the damage vignette and shows a
 * toast; another player losing health just after a local shot raises the hit
 * marker and bursts particles; a score rise puts a line on the kill feed,
 * with a toast when the scorer is the local player. Afterwards the kept
 * snapshot is replaced by the current players. Sounds, toast wording and the
 * particles' random draws are left to the cues.
 */
module Snapshot {
  import GameRoom
  import opened Effects
  import KillFeed

  type Frame = GameRoom.PlayerFrame

  /** A hit counts as the local player's when the last local shot is less than 520 ms old. */
  const ShotWindowMs: real := 520.0

  /** The kill feed's name for the local player. */
  const YouLabel: string := "\U{4F60}"

  /** What one comparison asks for: a hurt toast, a hit marker with a burst, a kill line. */
  datatype Cue = HurtCue(lost: int) | HitCue | KillCue(who: string, delta: int, mine: bool)

  /** The cue is a toast, which only the local player's own changes cause. */
  predicate Toasts(c: Cue) {
    c.HurtCue? || (c.KillCue? && c.mine)
  }

  /** The cues of one player against its previous frame, in the order the checks run. */
  function PlayerCues(p: Frame, pp: Frame, me: string, shotRecent: bool): (cs: seq<Cue>)
    ensures HurtCue(pp.hp - p.hp) in cs <==> p.id == me && p.hp < pp.hp
    ensures HitCue in cs <==> shotRecent && p.id != me && p.hp < pp.hp
    ensures forall c :: c in cs && c.HurtCue? ==> c.lost == pp.hp - p.hp && c.lost > 0
    ensures forall c :: c in cs && Toasts(c) ==> p.id == me
    ensures Kills(cs) == (if p.score > pp.score
      then [KillCue(if p.id == me then YouLabel else p.name, p.score - pp.score, p.id == me)] else [])
  {
    var hurt := if p.id == me && p.hp < pp.hp then [HurtCue(pp.hp - p.hp)] else [];
    var hit := if shotRecent && p.id != me && p.hp < pp.hp then [HitCue] else [];
    var kill := if p.score > pp.score
      then [KillCue(if p.id == me then YouLabel else p.name, p.score - pp.score, p.id == me)] else [];
    KillsAppend(hurt, hit);
    KillsAppend(hurt + hit, kill);
    hurt + hit + kill
  }

  /** The kill cues of a list, in order. */
  function Kills(cs: seq<Cue>): (ks: seq<Cue>)
    ensures |ks| <= |cs|
    ensures forall k :: k in ks ==> k in cs && k.KillCue?
  {
    if cs == [] then []
    else (if cs[0].KillCue? then [cs[0]] else []) + Kills(cs[1..])
  }

  lemma {:induction false} KillsAppend(a: seq<Cue>, b: seq<Cue>)
    ensures Kills(a + b) == Kills(a) + Kills(b)
  {
    if a != [] {
      assert (a + b)[0] == a[0] && (a + b)[1..] == a[1..] + b;
      KillsAppend(a[1..], b);
    } else {
      assert a + b == b;
    }
  }

  /** The cues of a whole state: players without a previous frame are skipped. */
  function DiffCues(players: seq<Frame>, prev: map<string, Frame>, me: string, shotRecent: bool): (cs: seq<Cue>)
    ensures (forall i :: 0 <= i < |players| ==> players[i].id !in prev) ==> cs == []
  {
    if players == [] then []
    else
      var p := players[0];
      var here := if p.id in prev then PlayerCues(p, prev[p.id], me, shotRecent) else [];
      here + DiffCues(players[1..], prev, me, shotRecent)
  }

  /** The cues of two lists of players are the cues of each, in order. */
  lemma {:induction false} DiffCuesAppend(a: seq<Frame>, b: seq<Frame>, prev: map<string, Frame>, me: string, shotRecent: bool)
    ensures DiffCues(a + b, prev, me, shotRecent) == DiffCues(a, prev, me, shotRecent) + DiffCues(b, prev, me, shotRecent)
    decreases |a|
  {
    if a != [] {
      assert (a + b)[0] == a[0];
      assert (a + b)[1..] == a[1..] + b;
      DiffCuesAppend(a[1..], b, prev, me, shotRecent);
    } else {
      assert a + b == b;
    }
  }

  /**
   * A player without a previous frame gives no cue at all, wherever it
   * stands among known players: dropping it leaves the cues unchanged.
   */
  lemma NewPlayerSilent(players: seq<Frame>, prev: map<string, Frame>, me: string, shotRecent: bool, i: nat)
    requires i < |players| && players[i].id !in prev
    ensures DiffCues(players, prev, me, shotRecent)
      == DiffCues(players[..i] + players[i + 1..], prev, me, shotRecent)
  {
    var a, b := players[..i], players[i + 1..];
    var rest := [players[i]] + b;
    assert players == a + rest;
    DiffCuesAppend(a, rest, prev, me, shotRecent);
    DiffCuesSkip(players[i], b, prev, me, shotRecent);
    DiffCuesAppend(a, b, prev, me, shotRecent);
  }

  lemma DiffCuesSkip(p: Frame, b: seq<Frame>, prev: map<string, Frame>, me: string, shotRecent: bool)
    requires p.id !in prev
    ensures DiffCues([p] + b, prev, me, shotRecent) == DiffCues(b, prev, me, shotRecent)
  {
    assert ([p] + b)[0] == p && ([p] + b)[1..] == b;
  }

  /** Only players that are the local player and have a previous frame give toasts. */
  lemma {:induction false} ToastsOnlyForMe(players: seq<Frame>, prev: map<string, Frame>, me: string, shotRecent: bool)
    requires forall i :: 0 <= i < |players| ==> players[i].id != me || players[i].id !in prev
    ensures forall c :: c in DiffCues(players, prev, me, shotRecent) ==> !Toasts(c)
  {
    if players != [] {
      ToastsOnlyForMe(players[1..], prev, me, shotRecent);
    }
  }

  /** Score rises among the players that have a previous frame. */
  function Rises(players: seq<Frame>, prev: map<string, Frame>): nat {
    if players == [] then 0
    else
      var p := players[0];
      (if p.id in prev && p.score > prev[p.id].score then 1 else 0) + Rises(players[1..], prev)
  }

  /** Each score rise of a known player gives exactly one kill cue. */
  lemma {:induction false} KillPerRise(players: seq<Frame>, prev: map<string, Frame>, me: string, shotRecent: bool)
    ensures |Kills(DiffCues(players, prev, me, shotRecent))| == Rises(players, prev)
  {
    if players != [] {
      var p := players[0];
      var here := if p.id in prev then PlayerCues(p, prev[p.id], me, shotRecent) else [];
      KillsAppend(here, DiffCues(players[1..], prev, me, shotRecent));
      KillPerRise(players[1..], prev, me, shotRecent);
    }
  }

  /** What the diff drives on screen: the effect scalars and the kill feed. */
  datatype View = View(fx: Fx, feed: seq<KillFeed.Entry>)

  function ApplyCue(v: View, c: Cue, now: real): View {
    match c
    case HurtCue(_) => v.(fx := OnToast(OnHurt(v.fx)))
    case HitCue => v.(fx := OnHit(v.fx))
    case KillCue(who, delta, mine) =>
      View(if mine then OnToast(v.fx) else v.fx, KillFeed.Push(v.feed, now, who, delta))
  }

  /** The cues take effect in order. */
  function ApplyCues(v: View, cs: seq<Cue>, now: real): View
    decreases |cs|
  {
    if cs == [] then v else ApplyCues(ApplyCue(v, cs[0], now), cs[1..], now)
  }

  /** The kill lines a run of cues pushes, newest (last cue) first. */
  function Lines(cs: seq<Cue>, now: real): seq<KillFeed.Entry>
    decreases |cs|
  {
    if cs == [] then []
    else if cs[0].KillCue? then Lines(cs[1..], now) + [KillFeed.Entry(now, cs[0].who, cs[0].delta)]
    else Lines(cs[1..], now)
  }

  /** The cues only add to the feed: one line per kill cue, in front of the old lines. */
  lemma {:induction false} ApplyCuesFeed(v: View, cs: seq<Cue>, now: real)
    ensures ApplyCues(v, cs, now).feed == Lines(cs, now) + v.feed
    decreases |cs|
  {
    if cs != [] {
      var v' := ApplyCue(v, cs[0], now);
      ApplyCuesFeed(v', cs[1..], now);
      if cs[0].KillCue? {
        assert v'.feed == [KillFeed.Entry(now, cs[0].who, cs[0].delta)] + v.feed;
      } else {
        assert v'.feed == v.feed;
      }
    }
  }

  /** Effect scalars in [0, 1] stay there and are never lowered by the cues. */
  lemma {:induction false} ApplyCuesLouder(v: View, cs: seq<Cue>, now: real)
    requires Bounded(v.fx)
    ensures Bounded(ApplyCues(v, cs, now).fx) && NoLouder(v.fx, ApplyCues(v, cs, now).fx)
    decreases |cs|
  {
    if cs != [] {
      var v' := ApplyCue(v, cs[0], now);
      assert Bounded(v'.fx) && NoLouder(v.fx, v'.fx);
      ApplyCuesLouder(v', cs[1..], now);
    }
  }

  /** Without a toast cue neither the toast nor the damage vignette is touched. */
  lemma {:induction false} ApplyCuesQuiet(v: View, cs: seq<Cue>, now: real)
    requires forall c :: c in cs ==> !Toasts(c)
    ensures ApplyCues(v, cs, now).fx.toastT == v.fx.toastT
    ensures ApplyCues(v, cs, now).fx.dmgT == v.fx.dmgT
    decreases |cs|
  {
    if cs != [] {
      assert !Toasts(cs[0]);
      assert forall c :: c in cs[1..] ==> c in cs;
      ApplyCuesQuiet(ApplyCue(v, cs[0], now), cs[1..], now);
    }
  }

  /** There is one kill line per kill cue. */
  lemma {:induction false} LinesCount(cs: seq<Cue>, now: real)
    ensures |Lines(cs, now)| == |Kills(cs)|
    decreases |cs|
  {
    if cs != [] {
      LinesCount(cs[1..], now);
    }
  }

  /** new Map(players.map(p => [p.id, {...p}])): later players with the same id win. */
  function SnapshotOf(players: seq<Frame>): (m: map<string, Frame>)
    ensures forall i :: 0 <= i < |players| ==> players[i].id in m
    ensures forall k :: k in m ==> exists i :: 0 <= i < |players| && players[i].id == k && m[k] == players[i]
    decreases |players|
  {
    if players == [] then map[]
    else
      var last := players[|players| - 1];
      var init := SnapshotOf(players[..|players| - 1]);
      assert forall i :: 0 <= i < |players| - 1 ==> players[..|players| - 1][i] == players[i];
      init[last.id := last]
  }

  /** The snapshot holds, for each id, the frame of the last player with that id. */
  lemma {:induction false} SnapshotLastWins(players: seq<Frame>, i: int)
    requires 0 <= i < |players|
    requires forall j :: i < j < |players| ==> players[j].id != players[i].id
    ensures SnapshotOf(players)[players[i].id] == players[i]
    decreases |players|
  {
    if i < |players| - 1 {
      var init := players[..|players| - 1];
      assert init[i] == players[i];
      assert forall j :: i < j < |init| ==> init[j] == players[j];
      SnapshotLastWins(init, i);
    }
  }

  /** With distinct ids the snapshot holds each player's own frame. */
  lemma SnapshotDistinct(players: seq<Frame>, i: int)
    requires forall a, b :: 0 <= a < b < |players| ==> players[a].id != players[b].id
    requires 0 <= i < |players|
    ensures SnapshotOf(players)[players[i].id] == players[i]
  {
    SnapshotLastWins(players, i);
  }

  /** The snapshot's keys are exactly the current players' ids. */
  lemma SnapshotKeys(players: seq<Frame>)
    ensures SnapshotOf(players).Keys == set i | 0 <= i < |players| :: players[i].id
  {
  }

  /**
   * What the cues of a state do to the view: the kill feed grows by exactly
   * one line per score rise of a known player, in front of the old lines;
   * scalars in [0, 1] stay there and are never lowered; and a state without
   * the local player shows no toast and no damage vignette.
   */
  lemma CuesEffect(v: View, prev: map<string, Frame>, players: seq<Frame>, me: string, shot: bool, now: real)
    ensures var w := ApplyCues(v, DiffCues(players, prev, me, shot), now);
      && |w.feed| == |v.feed| + Rises(players, prev)
      && w.feed[Rises(players, prev)..] == v.feed
      && (Bounded(v.fx) ==> Bounded(w.fx) && NoLouder(v.fx, w.fx))
      && ((forall i :: 0 <= i < |players| ==> players[i].id != me) ==>
            w.fx.toastT == v.fx.toastT && w.fx.dmgT == v.fx.dmgT)
  {
    var cs := DiffCues(players, prev, me, shot);
    ApplyCuesFeed(v, cs, now);
    if Bounded(v.fx) {
      ApplyCuesLouder(v, cs, now);
    }
    LinesCount(cs, now);
    KillPerRise(players, prev, me, shot);
    if forall i :: 0 <= i < |players| ==> players[i].id != me {
      ToastsOnlyForMe(players, prev, me, shot);
      ApplyCuesQuiet(v, cs, now);
    }
  }

  /**
   * updateFxFromState: the cues of the state against the kept snapshot take
   * effect, and the snapshot becomes the current players. `now - lastShotAt`
   * is the age of the local player's last shot. The feed gains one line per
   * score rise, over the old lines; the scalars stay in [0, 1] and never
   * drop; a state with no known player changes nothing on screen; and the
   * kept snapshot holds exactly the current ids, each with a current frame.
   */
  function Update(v: View, prev: map<string, Frame>, players: seq<Frame>, me: string, now: real, lastShotAt: real)
    : (out: (View, map<string, Frame>, seq<Cue>))
    ensures out.2 == DiffCues(players, prev, me, now - lastShotAt < ShotWindowMs)
    ensures |Kills(out.2)| == Rises(players, prev)
    ensures |out.0.feed| == |v.feed| + Rises(players, prev)
    ensures out.0.feed[Rises(players, prev)..] == v.feed
    ensures Bounded(v.fx) ==> Bounded(out.0.fx) && NoLouder(v.fx, out.0.fx)
    ensures (forall i :: 0 <= i < |players| ==> players[i].id != me) ==>
      out.0.fx.toastT == v.fx.toastT && out.0.fx.dmgT == v.fx.dmgT
    ensures (forall i :: 0 <= i < |players| ==> players[i].id !in prev) ==> out.0 == v && out.2 == []
    ensures out.1.Keys == set i | 0 <= i < |players| :: players[i].id
    ensures forall k :: k in out.1 ==> exists i :: 0 <= i < |players| && players[i].id == k && out.1[k] == players[i]
  {
    var shot := now - lastShotAt < ShotWindowMs;
    var cs := DiffCues(players, prev, me, shot);
    CuesEffect(v, prev, players, me, shot, now);
    KillPerRise(players, prev, me, shot);
    SnapshotKeys(players);
    (ApplyCues(v, cs, now), SnapshotOf(players), cs)
  }

  /** A state in which no player has a previous frame changes nothing on screen. */
  lemma NewPlayersSilent(v: View, players: seq<Frame>, me: string, now: real, lastShotAt: real)
    ensures Update(v, map[], players, me, now, lastShotAt).0 == v
  {
  }

  /** One known player scoring `d` puts exactly the line (who, d) on top of the feed. */
  lemma OneScore(v: View, prev: map<string, Frame>, p: Frame, me: string, now: real, lastShotAt: real)
    requires p.id in prev && p.score > prev[p.id].score
    ensures Update(v, prev, [p], me, now, lastShotAt).0.feed
      == [KillFeed.Entry(now, if p.id == me then YouLabel else p.name, p.score - prev[p.id].score)] + v.feed
  {
    var shot := now - lastShotAt < ShotWindowMs;
    assert Update(v, prev, [p], me, now, lastShotAt).0 == ApplyCues(v, DiffCues([p], prev, me, shot), now);
    OneScoreCues(v, prev, p, me, shot, now);
  }

  lemma OneScoreCues(v: View, prev: map<string, Frame>, p: Frame, me: string, shot: bool, now: real)
    requires p.id in prev && p.score > prev[p.id].score
    ensures ApplyCues(v, DiffCues([p], prev, me, shot), now).feed
      == [KillFeed.Entry(now, if p.id == me then YouLabel else p.name, p.score - prev[p.id].score)] + v.feed
  {
    var cs := DiffCues([p], prev, me, shot);
    var who := if p.id == me then YouLabel else p.name;
    var pc := PlayerCues(p, prev[p.id], me, shot);
    assert Kills(pc) == [KillCue(who, p.score - prev[p.id].score, p.id == me)];
    assert cs == pc + [] == pc;
    LinesKills(cs, now);
    ApplyCuesFeed(v, cs, now);
  }

  /** The kill lines are the kill cues, reversed, stamped `now`. */
  lemma {:induction false} LinesKills(cs: seq<Cue>, now: real)
    ensures Kills(cs) == [] ==> Lines(cs, now) == []
    ensures |Kills(cs)| == 1 ==>
      Lines(cs, now) == [KillFeed.Entry(now, Kills(cs)[0].who, Kills(cs)[0].delta)]
    decreases |cs|
  {
    if cs != [] {
      LinesKills(cs[1..], now);
    }
  }
}

=== FILE: sprites.dfy ===
/**
 * The sprite pass of the client's renderer (drawSprites and drawEnemyTag in
 * app.js) and the two clamps it uses. Which enemies are in view, their
 * screen column and height come from trigonometry and are parameters; what
 * is modelled is the per-column occlusion test against the z-buffer and the
 * decisions and clamps of the name/health tag.
 */
module Sprites {
  import opened Wrappers

  /** A JavaScript number as far as Number.isFinite can tell: finite, or NaN or an infinity. */
  datatype JsNumber = Finite(value: real) | NonFinite

  /** clampInt: floor the number (a non-finite one becomes `lo`), then clamp it to [lo, hi]. */
  function ClampInt(n: JsNumber, lo: int, hi: int): (r: int)
    ensures lo <= hi ==> lo <= r <= hi
    ensures n.NonFinite? ==> r == lo
    ensures n.Finite? && lo <= n.value.Floor <= hi ==> r == n.value.Floor
    ensures n.Finite? && n.value.Floor < lo ==> r == lo
    ensures n.Finite? && lo <= hi < n.value.Floor ==> r == hi
  {
    var x := if n.Finite? then n.value.Floor else lo;
    var capped := if hi < x then hi else x;
    if lo > capped then lo else capped
  }

  /** Clamping an already clamped value changes nothing. */
  lemma ClampIntIdempotent(n: JsNumber, lo: int, hi: int)
    requires lo <= hi
    ensures ClampInt(Finite(ClampInt(n, lo, hi) as real), lo, hi) == ClampInt(n, lo, hi)
  {
    var r := ClampInt(n, lo, hi);
    assert (r as real).Floor == r;
  }

  const TwoTo32: int := 0x1_0000_0000
  const TwoTo31: int := 0x8000_0000

  /** `n | 0` on an integral number: wrap into the signed 32-bit range. */
  function ToInt32(n: int): (r: int)
    ensures -TwoTo31 <= r < TwoTo31
    ensures (r - n) % TwoTo32 == 0
    ensures -TwoTo31 <= n < TwoTo31 ==> r == n
  {
    var m := n % TwoTo32;
    if m >= TwoTo31 then m - TwoTo32 else m
  }

  /** clamp8: a colour channel, wrapped to 32 bits and clamped to [0, 255]. */
  function Clamp8(n: int): (r: int)
    ensures 0 <= r <= 255
    ensures 0 <= n <= 255 ==> r == n
    ensures -TwoTo31 <= n < 0 ==> r == 0
    ensures 255 < n < TwoTo31 ==> r == 255
  {
    var x := ToInt32(n);
    var capped := if x < 255 then x else 255;
    if capped > 0 then capped else 0
  }

  /** A sprite column is drawn when it is on screen and not behind the wall stored for it. */
  predicate ColumnShows(sx: int, dist: real, zBuffer: seq<real>) {
    0 <= sx < |zBuffer| && dist <= zBuffer[sx]
  }

  /** The columns of the sprite spanning [left, left + n) that show, left to right. */
  function Shown(left: int, n: nat, dist: real, zBuffer: seq<real>): (cols: seq<int>)
    ensures forall i, j :: 0 <= i < j < |cols| ==> cols[i] < cols[j]
    ensures forall i :: 0 <= i < |cols| ==> left <= cols[i] < left + n
    decreases n
  {
    if n == 0 then []
    else
      var init := Shown(left, n - 1, dist, zBuffer);
      var sx := left + n - 1;
      if ColumnShows(sx, dist, zBuffer) then init + [sx] else init
  }

  /** A column is among those drawn exactly when it lies in the sprite's span and shows. */
  lemma {:induction false} ShownExactly(left: int, n: nat, dist: real, zBuffer: seq<real>, sx: int)
    ensures sx in Shown(left, n, dist, zBuffer) <==> left <= sx < left + n && ColumnShows(sx, dist, zBuffer)
  {
    if n > 0 {
      ShownExactly(left, n - 1, dist, zBuffer, sx);
    }
  }

  /** The sentinels the scan starts from: 1e9 for the leftmost column, -1e9 for the rightmost. */
  const NoMinX: int := 1000000000
  const NoMaxX: int := -1000000000

  function Min(a: int, b: int): int {
    if b < a then b else a
  }

  function Max(a: int, b: int): int {
    if b > a then b else a
  }

  /**
   * The per-column loop of drawSprites for one enemy: `drawn` lists the
   * columns it draws, `any` says whether there are any, and minX/maxX are the
   * leftmost and rightmost of them, each folded with Math.min/Math.max into
   * its sentinel (the sentinels themselves when there are none).
   */
  method VisibleSpan(left: int, spriteW: int, dist: real, zBuffer: seq<real>)
    returns (any: bool, minX: int, maxX: int, drawn: seq<int>)
    ensures drawn == Shown(left, if spriteW < 0 then 0 else spriteW, dist, zBuffer)
    ensures any <==> drawn != []
    ensures any ==> minX == Min(NoMinX, drawn[0]) && maxX == drawn[|drawn| - 1]
    ensures !any ==> minX == NoMinX && maxX == NoMaxX
    ensures forall i :: 0 <= i < |drawn| ==> minX <= drawn[i] <= maxX
  {
    any, minX, maxX, drawn := false, NoMinX, NoMaxX, [];
    // the loop runs while x < spriteW, which never holds for a negative width
    var n: nat := if spriteW < 0 then 0 else spriteW;
    var x: nat := 0;
    while x < n
      invariant x <= n
      invariant drawn == Shown(left, x, dist, zBuffer)
      invariant SpanOf(any, minX, maxX, drawn)
    {
      var sx := left + x;
      ShownStep(left, x, dist, zBuffer);
      if ColumnShows(sx, dist, zBuffer) {
        SpanStep(any, minX, maxX, drawn, sx);
        minX := Min(minX, sx);
        maxX := Max(maxX, sx);
        any := true;
        drawn := drawn + [sx];
      }
      x := x + 1;
    }
    SortedBetween(drawn);
  }

  /** The scan's flag and extremes describe the columns drawn so far. */
  predicate SpanOf(any: bool, minX: int, maxX: int, drawn: seq<int>) {
    && (any <==> drawn != [])
    && (any ==> minX == Min(NoMinX, drawn[0]) && maxX == drawn[|drawn| - 1])
    && (!any ==> minX == NoMinX && maxX == NoMaxX)
  }

  /** Drawing a further column right of all earlier ones keeps the scan's extremes. */
  lemma SpanStep(any: bool, minX: int, maxX: int, drawn: seq<int>, sx: int)
    requires SpanOf(any, minX, maxX, drawn) && sx >= 0
    requires drawn != [] ==> drawn[|drawn| - 1] < sx
    requires forall i :: 0 <= i < |drawn| ==> drawn[0] <= drawn[i]
    ensures SpanOf(true, Min(minX, sx), Max(maxX, sx), drawn + [sx])
  {
    var d := drawn + [sx];
    assert d[0] == (if drawn == [] then sx else drawn[0]);
    assert d[|d| - 1] == sx;
  }

  /** One more column: it is appended exactly when it shows, and it lies right of all earlier ones. */
  lemma ShownStep(left: int, n: nat, dist: real, zBuffer: seq<real>)
    ensures var init := Shown(left, n, dist, zBuffer);
      && Shown(left, n + 1, dist, zBuffer)
         == (if ColumnShows(left + n, dist, zBuffer) then init + [left + n] else init)
      && (init != [] ==> init[|init| - 1] < left + n)
  {
  }

  /** In an increasing sequence every element lies between the first and the last. */
  lemma SortedBetween(cols: seq<int>)
    requires forall i, j :: 0 <= i < j < |cols| ==> cols[i] < cols[j]
    ensures forall i :: 0 <= i < |cols| ==> cols[0] <= cols[i] <= cols[|cols| - 1]
  {
  }

  /** The name/health tag over an enemy: bar width, left edge, clamped hp, filled width, text and bar rows. */
  datatype Tag = Tag(barWidth: int, x0: int, hp: int, fill: int, nameY: int, barY: int)

  /**
   * drawEnemyTag: no tag when fewer than 6 columns are visible, the sprite is
   * under 10 pixels tall, or the bar would start above the screen. Otherwise
   * the bar is the sprite's width plus 10, within 16 to 46 pixels, hp is
   * clamped to [0, 100] and the filled part is that share of the bar's inner
   * width.
   */
  function EnemyTag(w: int, hp: JsNumber, minX: int, maxX: int, top: int, spriteH: int): (t: Option<Tag>)
    ensures t.Some? <==> maxX - minX + 1 >= 6 && spriteH >= 10 && top - 4 >= 0
    ensures t.Some? ==> var g := t.value;
      && 16 <= g.barWidth <= 46
      && 0 <= g.hp <= 100
      && 0 <= g.fill <= g.barWidth - 2
      && (w - g.barWidth - 1 >= 1 ==> 1 <= g.x0 <= w - g.barWidth - 1)
      && g.barY == top - 4 && g.nameY >= 8
    ensures t.Some? ==> var g := t.value;
      && g.barWidth == (if maxX - minX + 11 > 46 then 46 else maxX - minX + 11)
      && g.hp == ClampInt(hp, 0, 100)
      && g.fill == Fill(g.barWidth, g.hp)
      && g.nameY == (if top - 6 > 8 then top - 6 else 8)
  {
    var spriteW := if maxX - minX + 1 > 1 then maxX - minX + 1 else 1;
    if spriteW < 6 || spriteH < 10 then None
    else
      var cx := (minX + maxX) as real / 2.0;
      var nameY := top - 6;
      var barY := top - 4;
      if barY < 0 then None
      else
        var bw := ClampInt(Finite((spriteW + 10) as real), 16, 46);
        var x0 := ClampInt(Finite(cx - bw as real / 2.0), 1, w - bw - 1);
        var hpc := ClampInt(hp, 0, 100);
        var fill := Fill(bw, hpc);
        Some(Tag(bw, x0, hpc, fill, if nameY > 8 then nameY else 8, barY))
  }

  /**
   * The bar tracks health: for the same sprite, a player with at least as
   * much health never shows a shorter fill; full health fills the bar's
   * inner width, and no health (or a non-finite value) leaves it empty.
   */
  lemma EnemyTagHealth(w: int, hp1: JsNumber, hp2: JsNumber, minX: int, maxX: int, top: int, spriteH: int)
    requires EnemyTag(w, hp1, minX, maxX, top, spriteH).Some?
    ensures var t1, t2 := EnemyTag(w, hp1, minX, maxX, top, spriteH).value, EnemyTag(w, hp2, minX, maxX, top, spriteH).value;
      && t1.barWidth == t2.barWidth && t1.x0 == t2.x0
      && (t1.hp <= t2.hp ==> t1.fill <= t2.fill)
      && (hp1.Finite? && hp1.value >= 100.0 ==> t1.fill == t1.barWidth - 2)
      && (hp1.NonFinite? || (hp1.Finite? && hp1.value < 1.0) ==> t1.fill == 0)
  {
    var t1, t2 := EnemyTag(w, hp1, minX, maxX, top, spriteH).value, EnemyTag(w, hp2, minX, maxX, top, spriteH).value;
    if t1.hp <= t2.hp {
      FillMonotone(t1.barWidth, t1.hp, t2.hp);
    }
  }

  /** The filled width of a bar of width `bw` at health `hp`: floor((bw - 2) * hp / 100). */
  function Fill(bw: int, hp: int): (f: int)
    requires bw >= 2 && 0 <= hp <= 100
    ensures 0 <= f <= bw - 2
    ensures hp == 100 ==> f == bw - 2
    ensures hp == 0 ==> f == 0
  {
    var inner := (bw - 2) as real;
    var frac := hp as real / 100.0;
    ScaleBetween(inner, frac);
    (inner * frac).Floor
  }

  lemma ScaleBetween(a: real, f: real)
    requires a >= 0.0 && 0.0 <= f <= 1.0
    ensures 0.0 <= a * f <= a
  {
    assert a * f <= a * 1.0;
  }

  /** More health never gives a shorter filled bar. */
  lemma FillMonotone(bw: int, hp1: int, hp2: int)
    requires bw >= 2 && 0 <= hp1 <= hp2 <= 100
    ensures Fill(bw, hp1) <= Fill(bw, hp2)
  {
    var inner := (bw - 2) as real;
    assert inner * (hp1 as real / 100.0) <= inner * (hp2 as real / 100.0);
    FloorMonotone(inner * (hp1 as real / 100.0), inner * (hp2 as real / 100.0));
  }

  lemma FloorMonotone(a: real, b: real)
    requires a <= b
    ensures a.Floor <= b.Floor
  {
    assert a.Floor as real <= a;
  }
}

=== FILE: users.dfy ===
/**
 * The webapp's user service: the normalisation and validation it applies
 * before handing a request to the user repository. The repository itself is
 * not modelled; an operation's result is the call it would make, or the
 * error it returns without making one.
 */
module UserService {
  import opened Wrappers
  import opened GoStrings

  datatype User = User(id: string, name: string, email: string)

  /** The repository call a service operation ends in. */
  datatype RepoCall =
    | RepoCreate(user: User)
    | RepoList(limit: int, offset: int)
    | RepoUpdateName(id: string, name: string)

  const DefaultLimit := 20
  const MaxLimit := 100

  /** No ASCII capital letter occurs in `s`. */
  predicate Lowered(s: string) {
    forall i :: 0 <= i < |s| ==> !('A' <= s[i] <= 'Z')
  }

  /** Lower-casing neither creates nor removes spaces. */
  lemma LowerKeepsSpaces(s: string)
    ensures AllSpace(ToLower(s)) <==> AllSpace(s)
  {
    var t := ToLower(s);
    forall i | 0 <= i < |s| ensures IsSpace(t[i]) <==> IsSpace(s[i]) {
      assert t[i] == LowerAscii(s[i]);
    }
  }

  /** Lower-casing a string that has no capitals changes nothing. */
  lemma LowerFixed(s: string)
    requires Lowered(s)
    ensures ToLower(s) == s
  {
    var t := ToLower(s);
    forall i | 0 <= i < |s| ensures t[i] == s[i] {
      assert t[i] == LowerAscii(s[i]);
    }
  }

  /** Every ASCII capital is lowered by ToLower. */
  lemma ToLowerLowered(s: string)
    ensures Lowered(ToLower(s))
  {
    var t := ToLower(s);
    forall i | 0 <= i < |t| ensures !('A' <= t[i] <= 'Z') {
      assert t[i] == LowerAscii(s[i]);
    }
  }

  /** A slice of a string without capitals has none either. */
  lemma SliceLowered(s: string, i: nat, j: nat)
    requires Lowered(s) && i <= j <= |s|
    ensures Lowered(s[i..j])
  {
    var t := s[i..j];
    forall k | 0 <= k < |t| ensures !('A' <= t[k] <= 'Z') {
      assert t[k] == s[i + k];
    }
  }

  /** Trimming a string without capitals leaves none. */
  lemma TrimLowered(s: string)
    requires Lowered(s)
    ensures Lowered(TrimSpace(s))
  {
    var t := TrimSpace(s);
    SliceLowered(s, LeadingSpaces(s), LeadingSpaces(s) + |t|);
  }

  /**
   * The email as the service stores it: lower-cased, then trimmed. It is
   * empty exactly when the input is blank.
   */
  function NormalEmail(email: string): (e: string)
    ensures Lowered(e) && NoEdgeSpace(e)
    ensures e == [] <==> AllSpace(email)
  {
    var l := ToLower(email);
    LowerKeepsSpaces(email);
    TrimSpaceEmpty(l);
    ToLowerLowered(email);
    TrimLowered(l);
    TrimSpace(l)
  }

  /** The name as the service stores it: trimmed, and empty exactly when blank. */
  function NormalName(name: string): (n: string)
    ensures NoEdgeSpace(n)
    ensures LeadingSpaces(name) + |n| <= |name|
    ensures n == name[LeadingSpaces(name)..LeadingSpaces(name) + |n|]
    ensures n == [] <==> AllSpace(name)
  {
    TrimSpaceEmpty(name);
    TrimSpace(name)
  }

  /** Lowering a rune leaves it a space exactly when it was one. */
  lemma LowerSpace(c: char)
    ensures IsSpace(LowerAscii(c)) <==> IsSpace(c)
  {
  }

  /** Lowering works rune by rune, so it distributes over concatenation. */
  lemma LowerConcat(a: string, b: string)
    ensures ToLower(a + b) == ToLower(a) + ToLower(b)
  {
    var l := ToLower(a + b);
    var r := ToLower(a) + ToLower(b);
    forall i | 0 <= i < |l| ensures l[i] == r[i] {
      if i < |a| {
        assert (a + b)[i] == a[i];
      } else {
        assert (a + b)[i] == b[i - |a|];
      }
    }
  }

  /** The stored email is the trimmed input with its ASCII capitals lowered. */
  lemma NormalEmailOfTrimmed(email: string)
    ensures NormalEmail(email) == ToLower(NormalName(email))
  {
    var t := NormalName(email);
    if t != [] {
      var L := LeadingSpaces(email);
      TrimSpaceCut(email);
      SplitThree(email, L, |t|);
      LowerPadded(email[..L], t, email[L + |t|..]);
    }
  }

  lemma SplitThree(s: string, i: nat, n: nat)
    requires i + n <= |s|
    ensures s == s[..i] + s[i..i + n] + s[i + n..]
  {
  }

  /** Lowering a padded word-bounded string and trimming it gives the lowered core. */
  lemma LowerPadded(a: string, t: string, b: string)
    requires AllSpace(a) && AllSpace(b) && NoEdgeSpace(t) && t != []
    ensures TrimSpace(ToLower(a + t + b)) == ToLower(t)
  {
    LowerConcat(a, t);
    LowerConcat(a + t, b);
    LowerKeepsSpaces(a);
    LowerKeepsSpaces(b);
    var lt := ToLower(t);
    LowerSpace(t[0]);
    LowerSpace(t[|t| - 1]);
    assert lt[0] == LowerAscii(t[0]) && lt[|t| - 1] == LowerAscii(t[|t| - 1]);
    TrimPadded(ToLower(a), lt, ToLower(b));
  }

  /**
   * Create: the name is trimmed and the email lower-cased and trimmed; if
   * either is then empty, the error is returned and the repository is not
   * called. `freshId` stands for the random UUID.
   */
  function Create(name: string, email: string, freshId: string): (r: Result<RepoCall, string>)
    ensures r.Ok? <==> !AllSpace(name) && !AllSpace(email)
    ensures r.Err? ==> r.error == "name/email required"
    ensures r.Ok? ==> r.value == RepoCreate(User(freshId, NormalName(name), NormalEmail(email)))
  {
    var n := NormalName(name);
    var e := NormalEmail(email);
    if n == "" || e == "" then Err("name/email required")
    else Ok(RepoCreate(User(freshId, n, e)))
  }

  /** Creating from an already stored user's name and email stores them unchanged. */
  lemma CreateIdempotent(name: string, email: string, freshId: string, otherId: string)
    requires Create(name, email, freshId).Ok?
    ensures var u := Create(name, email, freshId).value.user;
      Create(u.name, u.email, otherId) == Ok(RepoCreate(u.(id := otherId)))
  {
    var u := Create(name, email, freshId).value.user;
    NormalNameFixed(u.name);
    NormalEmailFixed(u.email);
  }

  /** A name without edge spaces is stored as given. */
  lemma NormalNameFixed(name: string)
    requires NoEdgeSpace(name)
    ensures NormalName(name) == name
  {
    TrimSpaceFixed(name);
  }

  /** An email without capitals or edge spaces is stored as given. */
  lemma NormalEmailFixed(email: string)
    requires Lowered(email) && NoEdgeSpace(email)
    ensures NormalEmail(email) == email
  {
    LowerFixed(email);
    TrimSpaceFixed(email);
  }

  /**
   * List: a limit of zero or less becomes 20, one above 100 becomes 100,
   * and a negative offset becomes 0, so the repository always receives a
   * limit in [1, 100] and a non-negative offset.
   */
  function List(limit: int, offset: int): (c: RepoCall)
    ensures c.RepoList?
    ensures 1 <= c.limit <= MaxLimit && c.offset >= 0
    ensures 1 <= limit <= MaxLimit ==> c.limit == limit
    ensures limit <= 0 ==> c.limit == DefaultLimit
    ensures limit > MaxLimit ==> c.limit == MaxLimit
    ensures offset >= 0 ==> c.offset == offset
    ensures offset < 0 ==> c.offset == 0
  {
    var l := if limit <= 0 then DefaultLimit else limit;
    var l' := if l > MaxLimit then MaxLimit else l;
    RepoList(l', if offset < 0 then 0 else offset)
  }

  /** The clamped window passes through List unchanged. */
  lemma ListIdempotent(limit: int, offset: int)
    ensures var c := List(limit, offset);
      List(c.limit, c.offset) == c
  {
  }

  /** UpdateName: a blank name is refused; otherwise the trimmed name is forwarded. */
  function UpdateName(id: string, name: string): (r: Result<RepoCall, string>)
    ensures r.Ok? <==> !AllSpace(name)
    ensures r.Err? ==> r.error == "name required"
    ensures r.Ok? ==> r.value == RepoUpdateName(id, NormalName(name))
  {
    var n := NormalName(name);
    if n == "" then Err("name required") else Ok(RepoUpdateName(id, n))
  }

  /** Renaming to a name the service already stored forwards it unchanged. */
  lemma UpdateNameIdempotent(id: string, name: string)
    requires UpdateName(id, name).Ok?
    ensures UpdateName(id, UpdateName(id, name).value.name) == UpdateName(id, name)
  {
    NormalNameFixed(NormalName(name));
  }
}

=== FILE: wrappers.dfy ===
/** Option and Result, used for the source's nil pointers and error returns. */
module Wrappers {

  datatype Option<+T> = None | Some(value: T) {
    function GetOr(default: T): T {
      match this
      case Some(v) => v
      case None => default
    }
  }

  datatype Result<+T, +E> = Ok(value: T) | Err(error: E) {
    predicate IsFailure() {
      Err?
    }
  }
}
